=== FILE: README.md ===
# Awesome ABAC — a Dafny model of the access-control core

This project models the authorisation core of the Laravel package
"awesome-abac". Its parts are:

- a catalogue of permissions. A permission is a single `on-off` flag or a
  `crud` bundle, and a bundle expands to `name:create`, `name:read`,
  `name:update` and `name:delete`;
- roles, which are global or belong to one tenant account. A role may carry
  a "Zeus" bypass level: `system` bypasses everywhere, `tenant` bypasses
  inside its own account;
- one unified `assigned_permissions` table. Each row grants a permission to
  a role or to a user, optionally restricts it by an access list, and is
  optionally scoped to an account;
- the engine, which resolves a user's effective permissions in the current
  tenant context and answers `hasPermission`;
- the version-keyed result cache around the engine, and the model observers
  that bump the version;
- the tenant context, the row-level tenant scope and the `creating`
  auto-fill;
- the administrative helper (attach, detach, sync of grants and roles,
  cache flushing, the cached permission list);
- the management controller (`index`, `getAssigned`, `sync`,
  `resolveSubject`).

Everything is a pure function over immutable values:

- `Store.Db` holds the tables after both migrations;
- `Cache.CacheState` holds the shared cache store: the optional version
  counter and a map of entries;
- `Admin.State` pairs the two.

Operations that can fail with `findOrFail` or `abort(404)` return a `Step`
carrying an error, or a `Result`. A batch that fails midway keeps the rows
it had already written, because there is no transaction, and flushes
nothing, because the exception skips the flush.

Some behaviour of the code is proved as written rather than smoothed over:

- **The no-tags `flushCache` evicts nothing the engine reads.** It forgets
  `awesome_abac_perms_{user}_{ctx}`, but results are stored under
  `awesome_abac_{version}_perms_{user}_{ctx}`
  (`Cache.FlushKeyNeverMatches`, `Cache.FlushCacheKeepsResults`). What makes
  changes visible is the version bump.
- **`Cache::increment` on an absent counter may not move the version.** The
  store may create the counter at 1, and the engine reads an absent counter
  as 1. In that case the version does not move
  (`Observers.AbsentCounterBumpKeepsKeys`, `Scenarios.ToggleWithoutCounter`).
  `recachePermissionsList` always moves it (`Admin.RecacheRestoresCoherence`).
- **`getAssigned` reads no access column.** It goes through a relation whose
  rows carry no pivot, so the shown access is always the per-type default.
- **`sync` writes without normalising or upserting.** It stores access
  verbatim and uses plain `create`, so duplicate keys are possible unless
  the payload's ids differ (`Management.SyncPreservesUnique`).
- **`hasPermission` compares loosely.** `in_array` without the strict flag
  compares two numeric strings by value, so a list holding `01` grants `1`
  (`Engine.NumericNamesCollide`), just as `10` would grant `1e1`. A name
  that holds any character a number cannot contain matches only itself
  (`Loose.NotNumeric`).
- **Role membership writes can throw.** `attach` inserts into `role_user`,
  whose primary key rejects a pair already held and whose foreign keys
  reject a missing user or role. The exception skips the flush; in
  `syncRoles` it also leaves the deletions and the earlier inserts in place
  (`Admin.AssignRole`, `Admin.SyncRoles`).
- **A user grant under an unknown account throws.** `updateOrCreate`
  inserts a new row with the given `account_id`, which a foreign key ties
  to `accounts`; an account with no row makes the insert throw before the
  flush (`Admin.AttachPermissionToUser`, `Admin.AttachToMissingAccountFails`).
- **Through the helper a flag cannot be switched off.** The helper stores
  `NULL` access for every flag, so an `off` given to it is dropped and the
  flag is granted (`Admin.FlagOffIsDropped`).

Three further details:

- an empty access list means "no restriction", like `NULL`;
- role grants ignore the grant row's own `account_id`;
- inside an account, the tenant scope hides global rows, whereas the grant
  table's `forAccount` keeps them.

## Model

| member | source | states |
|---|---|---|
| Catalog.Expand | src/Models/Permission.php:56-77 | a bundle yields exactly its four action names, in create/read/update/delete order, each prefixed by `name:`; any other type yields its bare name |
| Catalog.ExpandCrudMembers | src/Models/Permission.php:71-76 | a string is in a bundle's expansion iff it is `name:` followed by one of the four CRUD actions |
| Catalog.FlagNamedLikeAction | tests/Integration/ReadOnlyTest.php:14-62 | a flag named `posts:read` expands to the very string the `posts` bundle's read action produces, so the two are indistinguishable after expansion |
| Catalog.FindPermission | src/Models/AssignedPermission.php:116-120 | the lookup returns a row of the table with the requested id, and returns nothing exactly when no row has that id |
| Roles.IsSystemZeus | src/Models/Role.php:43-51 | a role is never both System Zeus and Tenant Zeus |
| Roles.DefaultLevelNoBypass | database/migrations/2024_01_01_000000_create_awesome_abac_tables.php:31 | the default level `none` gives neither kind of bypass |
| Roles.FindRole | src/Controllers/AbacControllerHelper.php:138 | `findOrFail` succeeds with a row of that id, and fails exactly when no role has that id |
| Grants.ParseAssigneeType | database/migrations/2024_01_01_000001_create_assigned_permissions_table.php:35 | only the three enum values `user`, `token`, `role` are accepted, and each parses back to the value it names |
| Grants.AssigneeTypeRoundTrip | database/migrations/2024_01_01_000001_create_assigned_permissions_table.php:35 | writing an assignee type and reading it back gives the same type |
| Grants.HasAccessRestrictions | src/Models/AssignedPermission.php:106-109 | access restricts iff it is present and non-empty, so an empty list and `NULL` mean the same |
| Grants.ExpandedPermissions | src/Models/AssignedPermission.php:114-161 | a missing permission yields nothing; a flag yields its name unless a non-empty access lists `off`; an unrestricted bundle yields its full expansion; a restricted bundle yields one `name:action` per listed token, in order; any other type yields its name |
| Grants.OffMatchesOnlyItself | src/Models/AssignedPermission.php:130 | `in_array('off', ...)` over string entries holds iff `off` itself is listed, so the veto is an exact match |
| Grants.OffOverrides | src/Models/AssignedPermission.php:122-141 | for a flag, `off` is a veto: the grant is empty iff the access list contains `off`, whatever else it holds, and otherwise it grants exactly the flag's name |
| Grants.CrudRestrictionAllowLists | src/Models/AssignedPermission.php:143-157 | a restricted bundle grants exactly the action names of the listed tokens; when all tokens are CRUD verbs this is a subset of the full expansion |
| Grants.GetAssigneeType | src/Models/AssignedPermission.php:89-101 | only roles map to `role`; every other model, including the user class, maps to `user`; nothing maps to `token` |
| Grants.ForAssignee | src/Models/AssignedPermission.php:66-70 | the assignee scope never matches a token row |
| Tenancy.SetAccount | src/Tenancy/TenantContext.php:11-14 | after `setAccount` the context returns that account and its id |
| Tenancy.GetAccountId | src/Tenancy/TenantContext.php:21-24 | the id is present exactly when an account is set, and it is that account's id |
| Tenancy.Clear | src/Tenancy/TenantContext.php:26-29 | after `clear` there is no account and no id |
| Tenancy.FreshContextEmpty | src/Tenancy/TenantContext.php:9 | a new context holds no account |
| Tenancy.LastOperationWins | src/Tenancy/TenantContext.php:9-29 | after any non-empty sequence of set/clear calls, the context holds what the last call put there, whatever it held before |
| Tenancy.TenantScopeVisible | src/Tenancy/TenantScope.php:12-40 | with tenancy off every row is visible; inside an account only that account's rows are; with no account only rows without an account are |
| Tenancy.TenantScopeNarrowerThanForAccount | src/Models/AssignedPermission.php:75-84 | every row the tenant scope shows is also kept by `forAccount`; inside an account `forAccount` also keeps global rows, which the tenant scope hides; with no account the two agree |
| Tenancy.CreatingAccount | src/Tenancy/UsesTenant.php:15-22 | a new row's explicit account is never replaced, and an unset account takes the context's account, or stays unset |
| Tenancy.CreatedRowVisibility | src/Tenancy/UsesTenant.php:15-22 | a row created without an account, or with the context's own, is visible through the tenant scope in that context; with tenancy on, a row created for another account is not |
| Tenancy.ModelQuery | src/Tenancy/UsesTenant.php:11-13 | every model query starts with the tenant scope attached |
| Tenancy.WithoutTenant | src/Tenancy/UsesTenant.php:30-33 | `withoutTenant` removes the tenant scope and keeps every other scope |
| Tenancy.SelectAccounts | src/Tenancy/TenantScope.php:12-40 | a scoped query returns exactly the rows the tenant scope makes visible |
| Tenancy.WithoutTenantSeesAll | src/Tenancy/UsesTenant.php:30-33 | without the tenant scope every row comes back, in order |
| Store.NewRole | database/migrations/2024_01_01_000000_create_awesome_abac_tables.php:31 | a role inserted without a level gets `none` and no bypass; a given level is stored as is |
| Store.NewPermission | database/migrations/2024_01_01_000000_create_awesome_abac_tables.php:44 | a permission inserted without a type is an `on-off` flag expanding to its own name; a given type is stored as is |
| Store.DeleteAccount | database/migrations/2024_01_01_000001_create_assigned_permissions_table.php:23-26 | deleting an account removes exactly that account, its roles and its grant rows, drops memberships of the removed roles, and leaves permissions and users alone |
| Store.DeletePermission | database/migrations/2024_01_01_000001_create_assigned_permissions_table.php:29-31 | deleting a permission removes exactly that permission and every grant of it, and nothing else |
| Store.DeleteAccountWellFormed | database/migrations/2024_01_01_000000_create_awesome_abac_tables.php:14-36 | the account cascade keeps every unique index and every foreign key intact |
| Store.DeletePermissionWellFormed | database/migrations/2024_01_01_000001_create_assigned_permissions_table.php:29-48 | the permission cascade keeps every unique index and every foreign key intact |
| Store.UpdatePermissionRow | src/Controllers/AbacControllerHelper.php:46-47 | the rows with the updated id are replaced and every other row and table is unchanged; a lookup of the updated id then finds the new row if the id existed, a missing id changes nothing, and a lookup of any other id gives what it gave before |
| Store.FindPermissionAfterUpdate | src/Controllers/AbacControllerHelper.php:46-47 | after replacing the rows of one id, that id is found as the new row when it was present, the table is unchanged when it was not, and every other id is found as before |
| Store.UpdateRoleRow | src/Controllers/AbacControllerHelper.php:101-102 | roles with other ids are unchanged; the updated role is in the table when its id was, every role with that id is the new one, a missing id changes nothing, and all other tables are unchanged |
| Loose.LooseEquals | src/AccessControl/AbacEngine.php:64 | PHP's `==` on two strings: equal strings are loosely equal, and when either is not a numeric string loose equality is identity |
| Loose.LooseSymmetric | src/AccessControl/AbacEngine.php:64 | loose equality is symmetric |
| Loose.LooseIn | src/AccessControl/AbacEngine.php:64 | `in_array` without the strict flag holds iff some element is loosely equal to the needle, and always when the needle itself is listed |
| Loose.NumericChars | src/AccessControl/AbacEngine.php:64 | a numeric string (whitespace, optional sign, digits with an optional point and exponent, whitespace) contains only digits, whitespace, signs, points and exponent letters |
| Loose.NotNumeric | src/AccessControl/AbacEngine.php:64 | a string with any other character is not numeric |
| Loose.LooseInTextual | src/AccessControl/AbacEngine.php:64 | for such a needle, loose membership is exact membership |
| Loose.LooseByValue | src/AccessControl/AbacEngine.php:64 | two numeric strings that denote the same number are loosely equal |
| Loose.OneTwoWays | src/AccessControl/AbacEngine.php:64 | `01` and `1` are different strings that are loosely equal |
| Engine.Applicable | src/AccessControl/AbacEngine.php:96-98 | a role applies iff it is global, or a context is set and the role belongs to it |
| Engine.ResolvePermissions | src/AccessControl/AbacEngine.php:87-139 | the result has no duplicates; under a System or Tenant Zeus bypass it is exactly `["*"]`; otherwise a string is in it iff some contributing grant's expansion contains it |
| Engine.CollectedMembers | src/AccessControl/AbacEngine.php:112-136 | the concatenated role and direct expansions contain exactly what the order-independent "contributing grant" reading grants |
| Engine.HasPermission | src/AccessControl/AbacEngine.php:50-65 | the sentinel `*` grants everything; without it, a check holds iff some listed string is loosely equal to the name, with no prefix or bundle implication; for a name that is not numeric this is exact membership |
| Engine.NumericNamesCollide | src/AccessControl/AbacEngine.php:64 | the list `["01"]` grants `1`, a string it does not contain |
| Engine.HasPermissionByRows | src/AccessControl/AbacEngine.php:50-65 | with no bypass and no row granting the literal `*`, a user holds a permission iff a contributing grant grants a string loosely equal to it |
| Engine.HasPermissionByRowsTextual | src/AccessControl/AbacEngine.php:50-65 | the same for a name that is not numeric: a user holds it iff a contributing grant grants exactly that string |
| Engine.SystemZeusGrantsEverything | src/AccessControl/AbacEngine.php:102-104 | a System Zeus role the user holds and that applies here makes the result `["*"]` and every check true |
| Engine.TenantZeusInOwnTenant | src/AccessControl/AbacEngine.php:107-109 | a Tenant Zeus role of an account makes the result `["*"]` inside that account |
| Engine.TenantZeusOnlyInOwnTenant | src/AccessControl/AbacEngine.php:107-109 | a tenant bypass needs a context and a Tenant Zeus role the user holds that belongs to that very account |
| Engine.NoContextNoTenantBypass | src/AccessControl/AbacEngine.php:90-109 | with no context and no applicable System Zeus role, the result is exactly the grants' expansion |
| Engine.DirectGrantScoping | src/AccessControl/AbacEngine.php:127-132 | a user's own grant counts iff it is global or belongs to the current context |
| Engine.RoleGrantIgnoresRowAccount | src/AccessControl/AbacEngine.php:115-119 | whether a role grant counts does not depend on the account stored on the grant row |
| Engine.NoAssignmentsNoPermissions | src/AccessControl/AbacEngine.php:93-138 | a user with no memberships and no direct grants resolves to the empty list, not an error |
| Cache.PermsKey | src/AccessControl/AbacEngine.php:31 | every result key starts with `awesome_abac_` followed by a digit of the version |
| Cache.FlushKey | src/AccessControl/AbacEngine.php:82 | the no-tags flush key continues `awesome_abac_` with the letter `p` |
| Cache.ContextLabelInjective | src/AccessControl/AbacEngine.php:31 | distinct contexts, including none as `global`, get distinct labels |
| Cache.SubjectPartInjective | src/AccessControl/AbacEngine.php:31 | the `_perms_{user}_{ctx}` suffix determines the user and the context |
| Cache.PermsKeyInjective | src/AccessControl/AbacEngine.php:30-31 | a result key determines its version, user and context, so distinct triples never share an entry |
| Cache.NotAPermsKey | src/AccessControl/AbacEngine.php:31 | a key that continues the prefix with a non-digit is never a result key |
| Cache.FlushKeyNeverMatches | src/AccessControl/AbacEngine.php:78-84 | the no-tags flush key equals no result key of any version, user or context |
| Cache.GetPermissions | src/AccessControl/AbacEngine.php:25-48 | a null user gets nothing; otherwise a non-empty cached value is returned as is, and a miss or an empty value is recomputed; the key is stored iff the result is non-empty; the version and every other key are untouched |
| Cache.GetPermissionsTransparent | src/AccessControl/AbacEngine.php:25-48 | on a coherent store the cached lookup returns exactly what resolution gives now, and the store stays coherent with no entry ahead of the counter |
| Cache.Check | src/AccessControl/AbacEngine.php:50-52 | a null user is denied everything |
| Cache.CheckTransparent | src/AccessControl/AbacEngine.php:50-65 | on a coherent store a check answers as `hasPermission` on the resolved list, and keeps the store coherent |
| Cache.GetPermissionsIdempotent | src/AccessControl/AbacEngine.php:33-45 | asking twice with nothing changed in between gives the same answer, whatever the store held before |
| Cache.MissRecomputes | src/AccessControl/AbacEngine.php:33-35 | a key never written means the answer is computed afresh from the database |
| Cache.FlushCache | src/AccessControl/AbacEngine.php:78-84 | without tags, the flush forgets exactly the unversioned key and keeps the version and every other entry |
| Cache.FlushCacheKeepsResults | src/AccessControl/AbacEngine.php:81-83 | every versioned result entry is present after the flush iff before, with the same value |
| Observers.Increment | src/Observers/PermissionObserver.php:32 | the increment raises an existing counter by one, sets an absent one to the store's initial value, and touches no entry |
| Observers.Observe | src/Observers/PermissionObserver.php:10-33 | every Permission save or delete (and Role, in src/Observers/RoleObserver.php:10-18) does one increment and nothing else |
| Observers.VersionCountsEvents | src/Observers/RoleObserver.php:10-18 | once the counter exists, n events raise it by exactly n and no cached entry is removed |
| Observers.BumpRestoresCoherence | src/Observers/PermissionObserver.php:32 | a bump that raises the version read makes the store coherent with any database and leaves nothing ahead of the counter |
| Observers.BumpThenRecompute | src/AccessControl/AbacEngine.php:30-35 | after a bump from an existing counter the next lookup recomputes on the changed database |
| Observers.AbsentCounterBumpKeepsKeys | src/Observers/PermissionObserver.php:32 | when the counter is absent and the store creates it at 1, the key the engine reads does not change |
| Admin.NormalizeAccess | src/Controllers/AbacControllerHelper.php:150 | the stored access is the given list iff the permission is a bundle and the list is non-empty; otherwise it is `NULL` |
| Admin.NormalizeAccessPreservesExpansion | src/Controllers/AbacControllerHelper.php:150 | for a permission that is not a flag, normalising changes nothing the engine derives from the grant; a normalised flag grant always grants the flag's name |
| Admin.FlagOffIsDropped | src/Controllers/AbacControllerHelper.php:150 | a flag grant with access `["off"]` grants nothing as given, but the helper stores `NULL` instead, and the stored grant grants the flag |
| Admin.Upsert | src/Controllers/AbacControllerHelper.php:142-152 | afterwards a row with the key holds the new access; no other row is added, changed or reordered; the length stays when the key existed and grows by the new row when it did not |
| Admin.UpsertKeepsUnique | database/migrations/2024_01_01_000001_create_assigned_permissions_table.php:48 | the upsert keeps the grant key unique |
| Admin.UniqueKeyRow | database/migrations/2024_01_01_000001_create_assigned_permissions_table.php:48 | on a table with a unique grant key, two rows with one key are the same row |
| Admin.FlushUsers | src/Controllers/AbacControllerHelper.php:414-417 | flushing a set of users only removes entries, removes each user's `_global` unversioned key, and keeps the version |
| Admin.FlushUsersKeepsResults | src/Controllers/AbacControllerHelper.php:414-417 | whatever the users, every versioned result entry survives unchanged |
| Admin.UsersOfRole | src/Controllers/AbacControllerHelper.php:423-433 | the users flushed for a role are exactly its members |
| Admin.UsersOfPermission | src/Controllers/AbacControllerHelper.php:388-418 | the users flushed for a permission are exactly its direct user assignees and the members of roles that have a grant of it |
| Admin.AttachPermissionToRole | src/Controllers/AbacControllerHelper.php:136-157 | it fails iff the role or the permission is missing, changing nothing; otherwise it upserts on (permission, role, `role`, no account) with normalised access and flushes the role's members |
| Admin.AttachToRoleTwice | src/Controllers/AbacControllerHelper.php:142-152 | attaching twice leaves exactly one row for the pair, holding the latest access |
| Admin.AttachPermissionsToRole | src/Controllers/AbacControllerHelper.php:162-188 | a missing role fails at once with nothing changed; otherwise the batch completes iff every permission exists; a failure flushes nothing; only grants change; key uniqueness is kept; rows no entry names are kept; on success every entry has a row and the role's members are flushed (what each entry writes is stated by the lemmas below) |
| Admin.UpsertItems | src/Controllers/AbacControllerHelper.php:168-183 | the loop completes iff every entry's permission exists and its row may be written under the `account_id` foreign key (an existing row is updated; a new row needs an unset or existing account); it changes only the grant table and keeps the key unique |
| Admin.UpsertKeepsInsertable | database/migrations/2024_01_01_000001_create_assigned_permissions_table.php:23-26 | an accepted upsert leaves every key exactly as writable as before, so each entry of a batch is judged against the database the batch started from |
| Admin.UpsertItemsFailure | src/Controllers/AbacControllerHelper.php:168-183 | a loop stopped with `NotFound` names an entry whose permission is missing; one stopped with `ConstraintViolation` names an entry whose new row the foreign key rejects |
| Admin.UpsertItemsKeepsKeys | src/Controllers/AbacControllerHelper.php:168-183 | no key present before the loop disappears |
| Admin.UpsertItemsCoversItems | src/Controllers/AbacControllerHelper.php:168-183 | when the loop completes, every entry's key has a row |
| Admin.UpsertItemsKeepsOthers | src/Controllers/AbacControllerHelper.php:168-183 | a row whose key no entry names is kept as it was |
| Admin.AttachOneIsAttach | src/Controllers/AbacControllerHelper.php:162-188 | a batch of one entry is the single attach, including its error case |
| Admin.FirstUnwritable | src/Controllers/AbacControllerHelper.php:168-183 | the index of the first entry whose permission is missing or whose new row the account foreign key rejects; every earlier entry can be written |
| Admin.UpsertItemsAppend | src/Controllers/AbacControllerHelper.php:168-183 | the loop over `xs + ys` is the loop over `xs`, then, unless it stopped, the loop over `ys` from the database it left |
| Admin.UpsertItemsOne | src/Controllers/AbacControllerHelper.php:170-181 | one entry upserts its key with its normalised access, or stops with the database unchanged and `NotFound` before `ConstraintViolation` |
| Admin.UpsertItemsStopsAt | src/Controllers/AbacControllerHelper.php:168-183 | the loop leaves exactly the database the loop over the entries before the first unwritable one leaves, and stops there with that entry's error |
| Admin.RoleBatchNeverViolates | src/Controllers/AbacControllerHelper.php:162-188 | a role batch can fail only with `NotFound`: role keys carry no account, so no foreign key rejects them |
| Admin.AttachPermissionsToRoleStopsAt | src/Controllers/AbacControllerHelper.php:162-188 | with the role present, the writes before the first missing permission are kept exactly as the batch of those entries makes them; the failure there is `NotFound` and flushes nothing |
| Admin.AttachPermissionsToRoleSnoc | src/Controllers/AbacControllerHelper.php:162-188 | a role batch is the single attaches in turn: a failed batch stays failed, and otherwise the next entry writes and fails exactly as `attachPermissionToRole` on the state reached |
| Admin.RoleBatchLastWins | src/Controllers/AbacControllerHelper.php:168-183 | after a successful batch the last entry's key holds its normalised access, whatever earlier duplicates wrote; on a unique key it is the only row |
| Admin.RemoveGrants | src/Controllers/AbacControllerHelper.php:197-200 | a delete keeps exactly the rows it does not select, keeps the key unique and changes no other table |
| Admin.DetachPermissionFromRole | src/Controllers/AbacControllerHelper.php:193-205 | it fails iff the role is missing; otherwise exactly the role rows for the pair go, in every account, and the role's members are flushed |
| Admin.DetachAllPermissionsFromRole | src/Controllers/AbacControllerHelper.php:210-221 | it fails iff the role is missing; otherwise exactly the role's rows go and its members are flushed |
| Admin.AttachPermissionToUser | src/Controllers/AbacControllerHelper.php:228-247 | `NotFound` iff the permission is missing; `ConstraintViolation` iff the permission exists but the key has no row and names an account that does not exist, so the insert breaks the `account_id` foreign key; on either error nothing changes and nothing is flushed; otherwise it upserts on (permission, user, `user`, account) with normalised access and flushes that user in that account |
| Admin.AttachToMissingAccountFails | src/Controllers/AbacControllerHelper.php:232-244 | on a database that keeps its foreign keys, attaching under an account with no row always fails and changes nothing |
| Admin.UserGrantsPerAccount | src/Controllers/AbacControllerHelper.php:232-242 | grants of one permission to one user in two existing accounts coexist |
| Admin.AttachPermissionsToUser | src/Controllers/AbacControllerHelper.php:252-276 | the batch completes iff every permission exists and every entry's row may be written under the account foreign key; with no account or an existing one, iff every permission exists; a foreign-key failure names an entry whose new row is rejected; a failure flushes nothing; only grants change; keys stay unique; rows no entry names are kept; on success every entry has a row (what each entry writes is stated by the lemmas below) |
| Admin.AttachPermissionsToUserStopsAt | src/Controllers/AbacControllerHelper.php:252-276 | the writes before the first entry the loop cannot get past are kept exactly as the batch of those entries makes them; the failure there is that entry's `NotFound` or `ConstraintViolation` and flushes nothing |
| Admin.AttachPermissionsToUserSnoc | src/Controllers/AbacControllerHelper.php:252-276 | a user batch is the single attaches in turn: a failed batch stays failed, and otherwise the next entry writes and fails exactly as `attachPermissionToUser` on the state reached |
| Admin.AttachOneIsAttachToUser | src/Controllers/AbacControllerHelper.php:252-276 | a batch of one entry is `attachPermissionToUser`, including both error cases |
| Admin.DetachPermissionFromUser | src/Controllers/AbacControllerHelper.php:281-296 | exactly the user's rows of that permission go, only in the given account or in all accounts when none is given, and the user is flushed |
| Admin.DetachAllPermissionsFromUser | src/Controllers/AbacControllerHelper.php:301-315 | exactly the user's rows go, only in the given account or in all accounts when none is given, and the user is flushed |
| Admin.AssignRole | src/Controllers/AbacControllerHelper.php:16-21 | it fails iff the pair is already held, the user is missing or the role is missing, and then changes nothing and flushes nothing; otherwise the membership is added, every other one kept, no other table changes, and the user is flushed |
| Admin.AssignTwiceFails | database/migrations/2024_01_01_000001_create_assigned_permissions_table.php:52-55 | assigning the same role to the same user a second time is rejected by the primary key |
| Admin.DetachRole | src/Controllers/AbacControllerHelper.php:322-328 | exactly that membership is removed and the user is flushed |
| Admin.DetachUndoesAssign | src/Controllers/AbacControllerHelper.php:322-328 | detaching a role just assigned successfully restores the database |
| Admin.FirstBlocked | database/migrations/2024_01_01_000001_create_assigned_permissions_table.php:52-55 | the position returned is the first listed role whose insert the keys would reject, or the length when there is none |
| Admin.AttachEach | src/Controllers/AbacControllerHelper.php:333-339 | the insert loop of `sync` succeeds iff no listed role is blocked; it adds exactly the listed roles before the first blocked one, keeps every existing membership and changes no other table |
| Admin.SyncRoles | src/Controllers/AbacControllerHelper.php:333-339 | it succeeds iff every listed role is held already or exists, with the user existing; on success the user holds exactly the listed roles, other users' memberships are untouched, and the user is flushed; on failure the unlisted memberships are gone, the listed roles before the blocked one are added, other users are untouched and nothing is flushed |
| Admin.SyncRolesOverrides | src/Controllers/AbacControllerHelper.php:333-339 | after a successful sync, syncing again with the same list succeeds and changes nothing; a prior successful `assignRole` changes neither whether the sync succeeds nor its successful outcome |
| Admin.RecachePermissionsList | src/Controllers/AbacControllerHelper.php:375-383 | the version read goes up by exactly one, and only the global list entry is forgotten |
| Admin.RecacheRestoresCoherence | src/Controllers/AbacControllerHelper.php:375-383 | the recache bump always makes the store coherent with any database, and leaves account lists in place |
| Admin.GetCachedPermissionsList | src/Controllers/AbacControllerHelper.php:346-370 | a stored list is returned as is; otherwise the result is duplicate-free, holds exactly the expansions of all permissions, and is stored |
| Admin.PermissionsListKeepsCoherence | src/Controllers/AbacControllerHelper.php:346-370 | storing the list never disturbs a cached result |
| Admin.PermissionUpdateSparesOthers | src/Controllers/AbacControllerHelper.php:388-418 | a user outside the affected set of a permission resolves identically, in every context, after that permission is updated |
| Admin.RoleUpdateSparesOthers | src/Controllers/AbacControllerHelper.php:99-107 | a user who is not a member of a role resolves identically after the role is updated |
| Admin.AttachToRoleSparesOthers | src/Controllers/AbacControllerHelper.php:154 | attaching to a role cannot change the result of a user who is not a member of it, so only the members are affected (their own flush evicts nothing the engine reads, and a grant write bumps no version, so a member's cached result stays stale) |
| Admin.DetachFromRoleSparesOthers | src/Controllers/AbacControllerHelper.php:202 | detaching from a role cannot change the result of a user who is not a member of it |
| Admin.AttachToUserSparesOthers | src/Controllers/AbacControllerHelper.php:244 | attaching to one user never changes another user's result |
| Management.AvailableActions | src/Http/Controllers/PermissionManagementController.php:31-33 | a bundle offers the four CRUD verbs; every other type offers `on` and `off` |
| Management.Index | src/Http/Controllers/PermissionManagementController.php:19-36 | one entry per permission, in table order, with its id, name, type and the actions its type offers |
| Management.ListedActionsMatchExpansion | tests/Integration/PermissionManagementTest.php:14-23 | for a bundle, the offered actions turn into exactly the names the engine expands it to |
| Management.ResolveSubject | src/Http/Controllers/PermissionManagementController.php:128-138 | `role` succeeds iff the role exists, `user` iff the user exists, and every other type fails as unknown |
| Management.ResolvedTypeParses | src/Http/Controllers/PermissionManagementController.php:92-94 | a type that resolves is a valid assignee type: `role` for roles, `user` for users |
| Management.AssignedAccess | src/Http/Controllers/PermissionManagementController.php:62-67 | a non-empty access is shown as stored; without one, a bundle shows the four verbs, a flag shows `["on"]` and other types show nothing |
| Management.DefaultAccessMatchesEngine | src/Http/Controllers/PermissionManagementController.php:62-67 | the default shown for an unrestricted grant names exactly what the engine grants for it |
| Management.GetAssigned | src/Http/Controllers/PermissionManagementController.php:41-78 | it fails iff the subject does not resolve; otherwise an entry is listed iff the subject has a row for that permission, and the entry shows the type's default access |
| Management.SyncRow | src/Http/Controllers/PermissionManagementController.php:101-107 | the created row stores the access verbatim, with the subject's id and type, and carries an account only for users |
| Management.SyncRows | src/Http/Controllers/PermissionManagementController.php:97-108 | one row per payload entry, in order |
| Management.Sync | src/Http/Controllers/PermissionManagementController.php:84-126 | it fails iff the subject does not resolve; otherwise the subject's rows become exactly the payload's rows, every other row stays as it was, no other table changes, and the subject's users are flushed |
| Management.SyncSplit | src/Http/Controllers/PermissionManagementController.php:92-108 | after the delete none of the kept rows is the subject's, and every created row is |
| Management.SyncPreservesUnique | src/Http/Controllers/PermissionManagementController.php:97-108 | a payload with pairwise different keys keeps the grant key unique |
| Management.SyncEmptyClears | src/Http/Controllers/PermissionManagementController.php:92-94 | syncing an empty payload removes every row of the subject |
| Scenarios.PivotExpansions | tests/Integration/PivotAccessTest.php:14-60 | the editor's restricted bundle grant expands to create, read and update; the viewer's to read |
| Scenarios.PivotAccessEditor | tests/Integration/PivotAccessTest.php:52-54 | the editor may create and update posts but not delete them |
| Scenarios.PivotAccessViewer | tests/Integration/PivotAccessTest.php:57-59 | the viewer may read posts but not create or update them |
| Scenarios.OnOffExpansions | tests/Integration/OnOffAccessTest.php:14-71 | the flag expands to its name for `on` and for no access, and to nothing for `off` |
| Scenarios.OnOffScenario | tests/Integration/OnOffAccessTest.php:63-70 | the active and the default user see the dashboard; the denied user does not |
| Scenarios.ReadOnlyExpansions | tests/Integration/ReadOnlyTest.php:14-62 | the unrestricted bundle expands to all four actions; the flag named `posts:read` to that one string |
| Scenarios.ReadOnlyAdmin | tests/Integration/ReadOnlyTest.php:53-55 | the admin may create, read and delete posts |
| Scenarios.ReadOnlyViewer | tests/Integration/ReadOnlyTest.php:58-61 | the viewer may read posts but not create or delete them |
| Scenarios.TenancyNoBypass | tests/Integration/TenancyTest.php:14-59 | the tenancy user has no bypass in any context |
| Scenarios.TenancyInA | tests/Integration/TenancyTest.php:50 | inside account A the user sees the dashboard |
| Scenarios.TenancyElsewhere | tests/Integration/TenancyTest.php:54-58 | in account B and with no context the user does not see the dashboard |
| Scenarios.ToggleResolution | tests/Integration/OnOffAccessTest.php:74-109 | with access `on` the user holds the flag, with `off` not |
| Scenarios.ToggleWithCounter | tests/Integration/OnOffAccessTest.php:74-109 | with the counter created by the observer, an increment after switching the flag off makes the next check see the change |
| Scenarios.ToggleWithoutCounter | tests/Integration/OnOffAccessTest.php:74-109 | had no counter existed, the increment would leave the version read at 1 and the stale `on` answer would be served |

## Left out

- Time-based expiry of cache entries (`config('awesome-abac.cache.ttl')`) and of the version key (`now()->addYear()`) is not modelled; entries live until forgotten.
- The tag branch of `flushCache` (`Cache::supportsTags()`) is not modelled; only the no-tags fallback is, because which branch runs depends on the cache driver.
- `Cache::increment` on a missing key is the store's behaviour, so it is the `onMissing` parameter of `Observers.Increment`.
- Concurrency, atomicity of the version bump and transactions are out of scope; batches are modelled as the sequential writes they are.
- HTTP plumbing (the middleware, the tenant header lookup, JSON responses, `abort(403)` in `authorizePermission`), the activity logger, the service provider, the facade, the configuration file and the seeder are wiring or I/O.
- `src/Traits/HasAbac.php` and `src/Models/Account.php` are relation declarations; their effect on the engine (`$user->roles` as the `role_user` rows) is built into `Engine.ApplicableRoles`.
- `src/Database/QueryMixin.php` is not part of this model; it depends on a tenant manager class that is not in the repository.
- The create/update/delete wrappers for permissions and roles (src/Controllers/AbacControllerHelper.php:28-129) are modelled only as the row updates `Store.UpdatePermissionRow` and `Store.UpdateRoleRow` and the cascades `Store.DeleteAccount` and `Store.DeletePermission`. As written, `deletePermission` and `deleteRole` never delete: `roles()` and `permissions()` return query builders (src/Models/Permission.php:45-50, src/Models/Role.php:27-33), so `detach()` throws before the `delete()` runs.
- `createPermission` inserts an `account_id` that the `permissions` table does not have, so as written its insert fails and no permission is created through it; had it succeeded, its default type `on` is neither `on-off` nor `crud` and would expand as a plain flag that ignores `off`. `createRole` passes an explicit `NULL` for the non-nullable `zeus_level`. Both are left out with the wrappers.
- Cache.Check: its own contract states only the null-user case; what it answers for a user is stated by `Cache.CheckTransparent`, on a coherent store.
- Admin.GetCachedPermissionsList: as written, every cache miss throws, because both branches of the query filter on a `permissions.account_id` column that neither migration creates. The model's miss branch is the evident intent instead: it lists every permission, for every account.
- Management.GetAssigned: the pivot access and its JSON decoding are left out, because the `permissions()` relation used yields no pivot. The shown access is always the per-type default.
- The database's own enforcement of the foreign keys and the unique index of `assigned_permissions` is left out in `sync`'s `create` (where a bad permission id, a missing account or a duplicate key would throw) and for `NULL` account ids in the unique index. The keys of `role_user` are modelled, and so is the `account_id` foreign key on the helper's upserts (`Admin.Insertable`). `Store.WellFormed` states the invariant the code means to keep, treating `NULL` as equal to `NULL`.
- `array_unique` keeps the original array keys; the gaps it leaves are invisible to `in_array`, so the result is modelled as a duplicate-free sequence.
- `assignee_id` is a string column; it is modelled as a natural number, because it is only ever compared with integer ids.
- Grants.ExpandedPermissions: access lists are modelled as lists of strings. `sync` stores the request's values verbatim, so a list may also hold numbers, booleans or nested arrays; loosely `true` equals `off`, and such entries would also change the interpolated action names. Non-string entries are not modelled. Among strings, `off` and `on` match only themselves (`Grants.OffMatchesOnlyItself`).
- Engine.HasPermission: numeric strings are compared as exact decimals. PHP compares them as 64-bit integers or doubles, so precision loss, overflow to infinity (`1e400` equals `2e400`) and PHP's string fallback for two integer strings that overflow are not modelled.
- The first migration's pivot tables (`permission_role`, `permission_user`, the old `role_user`) are dropped by the second and are not modelled. `account_user` is never read by the core.
- The `getPermission` and `getRole` readers (src/Controllers/AbacControllerHelper.php:74-77, 126-129) are left out. As written they never return a row: they eager-load `roles()` and `permissions()`, which return query builders rather than relations (src/Models/Permission.php:45-50, src/Models/Role.php:27-33), so whenever `findOrFail` finds the row the eager load throws, as `detach()` does in the delete wrappers; when no row exists, `findOrFail` fails as `Catalog.FindPermission` and `Roles.FindRole` model.
- The `forAssigneeType` scope is a plain row filter with nothing to state beyond the filters already modelled.

=== FILE: accounts.dfy ===
/** Tenants. Account ids are auto-increment keys, so they start at 1; this is
    what lets the source test a context id for truthiness (`if ($accountId)`)
    and compare it loosely against `null` without surprises. */
module Accounts {
  import opened Wrappers

  type AccountId = x: int | x >= 1 witness 1

  datatype Account = Account(id: AccountId, name: string, slug: string, plan: Option<string>)
}

=== FILE: admin.dfy ===
/** The grant and membership operations of the controller helper
    (src/Controllers/AbacControllerHelper.php), as transitions on the
    database and the cache store. `findOrFail` failures are `NotFound`
    results, inserts the `role_user` keys reject are `ConstraintViolation`
    results; nothing is wrapped in a transaction. */
module Admin {
  import opened Wrappers
  import opened Seqs
  import opened Accounts
  import opened Catalog
  import opened Roles
  import opened Grants
  import opened Store
  import opened Engine
  import opened Cache
  import opened Strings

  datatype AdminError = NotFound | ConstraintViolation

  datatype State = State(db: Db, cache: CacheState)

  /** The state after an operation, and the error it stopped with, if any.
      A batch that fails part way keeps the writes made before the failure
      but, the exception having skipped it, flushes nothing. */
  datatype Step = Step(state: State, error: Option<AdminError>)

  /** An entry of a batch: a bare id, or an id with an access list. */
  datatype PermissionItem = PermissionItem(id: PermissionId, access: Option<seq<string>>)

  // ---------------------------------------------------------------- access and upsert

  /** The access column the helper writes: the given list for a bundle when
      it is non-empty, `NULL` otherwise. Flags never store access here. */
  function NormalizeAccess(p: Permission, access: Option<seq<string>>): (r: Option<seq<string>>)
    ensures r.Some? <==> p.kind == CrudType && HasAccessRestrictions(access)
    ensures r.Some? ==> r == access
  {
    if p.kind == CrudType && HasAccessRestrictions(access) then access else None
  }

  /** Normalising keeps what a grant of any permission but a flag derives.
      A flag's access is dropped, so the stored grant switches the flag on
      whatever list was given. */
  lemma NormalizeAccessPreservesExpansion(g: Grant, p: Permission)
    ensures p.kind != OnOffType ==>
      ExpandedPermissions(g.(access := NormalizeAccess(p, g.access)), Some(p)) == ExpandedPermissions(g, Some(p))
    ensures p.kind == OnOffType ==>
      ExpandedPermissions(g.(access := NormalizeAccess(p, g.access)), Some(p)) == [p.name]
  {
  }

  /** Through the helper a flag cannot be switched off: the list `["off"]`
      would veto the flag if stored, and the helper stores `NULL`, which
      grants it. */
  lemma FlagOffIsDropped(g: Grant, p: Permission)
    requires p.kind == OnOffType && g.access == Some(["off"])
    ensures ExpandedPermissions(g, Some(p)) == []
    ensures NormalizeAccess(p, g.access) == None
    ensures ExpandedPermissions(g.(access := NormalizeAccess(p, g.access)), Some(p)) == [p.name]
  {
  }

  function OtherKeys(key: GrantKey): Grant -> bool {
    (g: Grant) => KeyOf(g) != key
  }

  /** `updateOrCreate`: the first row with the key gets the new access;
      without one, a row is appended. */
  function Upsert(gs: seq<Grant>, key: GrantKey, access: Option<seq<string>>): (r: seq<Grant>)
    ensures GrantAt(key, access) in r
    ensures forall g :: g in r ==> g in gs || g == GrantAt(key, access)
    ensures forall g :: g in gs && KeyOf(g) != key ==> g in r
    ensures Filter(r, OtherKeys(key)) == Filter(gs, OtherKeys(key))
    ensures (exists g :: g in gs && KeyOf(g) == key) ==> |r| == |gs|
    ensures (forall g :: g in gs ==> KeyOf(g) != key) ==> r == gs + [GrantAt(key, access)]
  {
    if |gs| == 0 then [GrantAt(key, access)]
    else if KeyOf(gs[0]) == key then
      var r := [GrantAt(key, access)] + gs[1..];
      assert r[1..] == gs[1..];
      assert Filter(r, OtherKeys(key)) == Filter(gs[1..], OtherKeys(key)) == Filter(gs, OtherKeys(key));
      r
    else
      var rest := Upsert(gs[1..], key, access);
      var r := [gs[0]] + rest;
      assert r[1..] == rest;
      assert gs == [gs[0]] + gs[1..];
      assert forall g :: g in gs <==> g == gs[0] || g in gs[1..];
      assert Filter(r, OtherKeys(key)) == [gs[0]] + Filter(rest, OtherKeys(key));
      assert Filter(gs, OtherKeys(key)) == [gs[0]] + Filter(gs[1..], OtherKeys(key));
      r
  }

  /** The `account_id` foreign key lets `updateOrCreate` write the key's
      row: either a row with the key exists and is only updated, or the
      inserted row's account is unset or exists. */
  predicate Insertable(db: Db, key: GrantKey) {
    HasRow(db.grants, key) || key.accountId.None? || AccountExists(db, key.accountId.value)
  }

  /** Some row carries the key. */
  predicate HasRow(gs: seq<Grant>, key: GrantKey)
    decreases |gs|
  {
    |gs| > 0 && (KeyOf(gs[0]) == key || HasRow(gs[1..], key))
  }

  lemma {:induction false} HasRowIff(gs: seq<Grant>, key: GrantKey)
    ensures HasRow(gs, key) <==> exists g :: g in gs && KeyOf(g) == key
    decreases |gs|
  {
    if |gs| > 0 {
      HasRowIff(gs[1..], key);
      assert forall g :: g in gs <==> g == gs[0] || g in gs[1..];
    }
  }

  /** An accepted upsert changes no other key's fate: the accounts stay,
      and the one key that may gain a row was writable already. */
  lemma UpsertKeepsInsertable(db: Db, next: Db, key: GrantKey, access: Option<seq<string>>, k: GrantKey)
    requires Insertable(db, key) && next == db.(grants := Upsert(db.grants, key, access))
    ensures Insertable(next, k) <==> Insertable(db, k)
  {
    HasRowIff(db.grants, k);
    HasRowIff(next.grants, k);
    if exists g :: g in db.grants && KeyOf(g) == k {
      var g :| g in db.grants && KeyOf(g) == k;
      if k == key {
        assert GrantAt(key, access) in next.grants;
      } else {
        assert g in next.grants;
      }
    }
  }

  /** After an accepted upsert, every later entry of the batch is as
      writable as it was. */
  lemma WritableAfterUpsert(db: Db, next: Db, key: GrantKey, access: Option<seq<string>>,
                            keyFor: PermissionId -> GrantKey, items: seq<PermissionItem>)
    requires Insertable(db, key) && next == db.(grants := Upsert(db.grants, key, access))
    requires |items| > 0
    ensures (forall j :: 0 <= j < |items[1..]| ==> Writable(next, keyFor, items[1..][j].id)) <==>
            (forall i :: 1 <= i < |items| ==> Writable(db, keyFor, items[i].id))
  {
    WritableAgrees(db, next, key, access, keyFor, items);
    assert forall j :: 0 <= j < |items[1..]| ==> items[1..][j] == items[j + 1];
  }

  lemma WritableAgrees(db: Db, next: Db, key: GrantKey, access: Option<seq<string>>,
                       keyFor: PermissionId -> GrantKey, ys: seq<PermissionItem>)
    requires Insertable(db, key) && next == db.(grants := Upsert(db.grants, key, access))
    ensures forall j :: 0 <= j < |ys| ==> Writable(next, keyFor, ys[j].id) == Writable(db, keyFor, ys[j].id)
  {
    forall j | 0 <= j < |ys| ensures Writable(next, keyFor, ys[j].id) == Writable(db, keyFor, ys[j].id) {
      UpsertKeepsInsertable(db, next, key, access, keyFor(ys[j].id));
    }
  }

  /** An entry of a batch the loop gets past: its permission exists and
      its row may be written. */
  predicate Writable(db: Db, keyFor: PermissionId -> GrantKey, id: PermissionId) {
    FindPermission(db.permissions, id).Some? && Insertable(db, keyFor(id))
  }

  /** Upserting keeps the grant key unique. */
  lemma {:induction false} UpsertKeepsUnique(gs: seq<Grant>, key: GrantKey, access: Option<seq<string>>)
    requires UniqueBy(gs, KeyOf)
    ensures UniqueBy(Upsert(gs, key, access), KeyOf)
  {
    if |gs| > 0 {
      UniqueTail(gs);
      UniqueHead(gs);
      if KeyOf(gs[0]) == key {
        UniqueCons(GrantAt(key, access), gs[1..]);
      } else {
        var rest := Upsert(gs[1..], key, access);
        UpsertKeepsUnique(gs[1..], key, access);
        assert forall g :: g in rest ==> KeyOf(g) != KeyOf(gs[0]);
        UniqueCons(gs[0], rest);
      }
    }
  }

  lemma UniqueHead(gs: seq<Grant>)
    requires |gs| > 0 && UniqueBy(gs, KeyOf)
    ensures forall g :: g in gs[1..] ==> KeyOf(g) != KeyOf(gs[0])
  {
    forall g | g in gs[1..] ensures KeyOf(g) != KeyOf(gs[0]) {
      var k :| 0 <= k < |gs[1..]| && gs[1..][k] == g;
      assert gs[k + 1] == g;
    }
  }

  lemma UniqueTail(gs: seq<Grant>)
    requires |gs| > 0 && UniqueBy(gs, KeyOf)
    ensures UniqueBy(gs[1..], KeyOf)
  {
    forall i, j | 0 <= i < j < |gs[1..]| ensures KeyOf(gs[1..][i]) != KeyOf(gs[1..][j]) {
      assert gs[1..][i] == gs[i + 1] && gs[1..][j] == gs[j + 1];
    }
  }

  lemma UniqueCons(x: Grant, rest: seq<Grant>)
    requires UniqueBy(rest, KeyOf)
    requires forall g :: g in rest ==> KeyOf(g) != KeyOf(x)
    ensures UniqueBy([x] + rest, KeyOf)
  {
    var r := [x] + rest;
    forall i, j | 0 <= i < j < |r| ensures KeyOf(r[i]) != KeyOf(r[j]) {
      assert r[j] == rest[j - 1];
      if i > 0 { assert r[i] == rest[i - 1]; }
    }
  }

  lemma UpsertKeepsUniqueIf(gs: seq<Grant>, key: GrantKey, access: Option<seq<string>>)
    ensures UniqueBy(gs, KeyOf) ==> UniqueBy(Upsert(gs, key, access), KeyOf)
  {
    if UniqueBy(gs, KeyOf) { UpsertKeepsUnique(gs, key, access); }
  }

  lemma FilterKeepsUniqueIf(gs: seq<Grant>, keep: Grant -> bool)
    ensures UniqueBy(gs, KeyOf) ==> UniqueBy(Filter(gs, keep), KeyOf)
  {
    if UniqueBy(gs, KeyOf) { FilterUniqueBy(gs, keep, KeyOf); }
  }

  /** On a table with a unique grant key, two rows with one key are one row. */
  lemma UniqueKeyRow(gs: seq<Grant>, g1: Grant, g2: Grant)
    requires UniqueBy(gs, KeyOf) && g1 in gs && g2 in gs && KeyOf(g1) == KeyOf(g2)
    ensures g1 == g2
  {
  }

  /** A query that cannot see rows with the key does not notice an upsert. */
  lemma {:induction false} UpsertInvisible(gs: seq<Grant>, key: GrantKey, access: Option<seq<string>>, p: Grant -> bool)
    requires forall g :: KeyOf(g) == key ==> !p(g)
    ensures Filter(Upsert(gs, key, access), p) == Filter(gs, p)
  {
    if |gs| > 0 {
      if KeyOf(gs[0]) == key {
        assert ([GrantAt(key, access)] + gs[1..])[1..] == gs[1..];
      } else {
        UpsertInvisible(gs[1..], key, access, p);
        assert ([gs[0]] + Upsert(gs[1..], key, access))[1..] == Upsert(gs[1..], key, access);
      }
    }
  }

  /** A query that cannot see the deleted rows does not notice the delete. */
  lemma {:induction false} RemoveInvisible(gs: seq<Grant>, keep: Grant -> bool, p: Grant -> bool)
    requires forall g :: !keep(g) ==> !p(g)
    ensures Filter(Filter(gs, keep), p) == Filter(gs, p)
  {
    if |gs| > 0 {
      RemoveInvisible(gs[1..], keep, p);
      if keep(gs[0]) {
        assert ([gs[0]] + Filter(gs[1..], keep))[1..] == Filter(gs[1..], keep);
      }
    }
  }

  // ---------------------------------------------------------------- cache side effects

  /** `flushCache` for each user of a set, without tags, with no account. */
  function FlushUsers(c: CacheState, ids: set<UserId>): (r: CacheState)
    ensures r.version == c.version
    ensures forall k :: k in r.entries ==> k in c.entries && r.entries[k] == c.entries[k]
    ensures forall u :: u in ids ==> FlushKey(u, None) !in r.entries
  {
    c.(entries := c.entries - (set u | u in ids :: FlushKey(u, None)))
  }

  /** Whatever the set of users, the flush leaves every stored result in
      place, so a user affected by a grant change keeps being served the
      result cached before it until the version moves. */
  lemma FlushUsersKeepsResults(c: CacheState, ids: set<UserId>)
    ensures forall v: nat, u: UserId, x: Option<AccountId> ::
      PermsKey(v, u, x) in c.entries ==>
        PermsKey(v, u, x) in FlushUsers(c, ids).entries &&
        FlushUsers(c, ids).entries[PermsKey(v, u, x)] == c.entries[PermsKey(v, u, x)]
  {
    forall v: nat, u: UserId, x: Option<AccountId> | PermsKey(v, u, x) in c.entries
      ensures PermsKey(v, u, x) in FlushUsers(c, ids).entries
    {
      forall w | w in ids ensures FlushKey(w, None) != PermsKey(v, u, x) {
        FlushKeyNeverMatches(w, None);
      }
    }
  }

  /** `flushAffectedUsersForRole`: every member of the role, once. */
  function UsersOfRole(db: Db, roleId: RoleId): (ids: set<UserId>)
    ensures forall u :: u in ids <==> Membership(u, roleId) in db.roleUser
  {
    set m | m in db.roleUser && m.roleId == roleId :: m.userId
  }

  /** `flushAffectedUsers`: direct assignees of the permission, and members
      of the roles it is assigned to, each once. */
  function UsersOfPermission(db: Db, permId: PermissionId): (ids: set<UserId>)
    ensures forall u :: u in ids <==>
      (exists g :: g in db.grants && g.permissionId == permId && g.assigneeType == UserAssignee && g.assigneeId == u) ||
      (exists g :: g in db.grants && g.permissionId == permId && g.assigneeType == RoleAssignee &&
                   Membership(u, g.assigneeId) in db.roleUser)
  {
    var direct := set g | g in db.grants && g.permissionId == permId && g.assigneeType == UserAssignee :: g.assigneeId;
    var roleIds := set g | g in db.grants && g.permissionId == permId && g.assigneeType == RoleAssignee :: g.assigneeId;
    var viaRoles := set m | m in db.roleUser && m.roleId in roleIds :: m.userId;
    assert forall u :: u in viaRoles <==>
      exists g :: g in db.grants && g.permissionId == permId && g.assigneeType == RoleAssignee &&
                  Membership(u, g.assigneeId) in db.roleUser by {
      forall u ensures u in viaRoles ==>
        exists g :: g in db.grants && g.permissionId == permId && g.assigneeType == RoleAssignee &&
                    Membership(u, g.assigneeId) in db.roleUser {
        if u in viaRoles {
          var m :| m in db.roleUser && m.roleId in roleIds && m.userId == u;
          var g :| g in db.grants && g.permissionId == permId && g.assigneeType == RoleAssignee && g.assigneeId == m.roleId;
          assert m == Membership(u, g.assigneeId);
        }
      }
    }
    direct + viaRoles
  }

  // ---------------------------------------------------------------- role grants

  function RoleKey(permId: PermissionId, roleId: RoleId): GrantKey {
    GrantKey(permId, roleId, RoleAssignee, None)
  }

  /** `attachPermissionToRole`: both rows must exist; the grant is upserted
      as a global role grant; the role's members are flushed. */
  function AttachPermissionToRole(s: State, roleId: RoleId, permId: PermissionId, access: Option<seq<string>>): (r: Step)
    ensures r.error.Some? <==> FindRole(s.db.roles, roleId).None? || FindPermission(s.db.permissions, permId).None?
    ensures r.error.Some? ==> r.state == s
    ensures r.error.None? ==>
      var p := FindPermission(s.db.permissions, permId).value;
      && r.state.db == s.db.(grants := Upsert(s.db.grants, RoleKey(permId, roleId), NormalizeAccess(p, access)))
      && r.state.cache == FlushUsers(s.cache, UsersOfRole(s.db, roleId))
  {
    var role := FindRole(s.db.roles, roleId);
    var perm := FindPermission(s.db.permissions, permId);
    if role.None? || perm.None? then Step(s, Some(NotFound))
    else
      var db := s.db.(grants := Upsert(s.db.grants, RoleKey(permId, roleId), NormalizeAccess(perm.value, access)));
      Step(State(db, FlushUsers(s.cache, UsersOfRole(db, roleId))), None)
  }

  /** Attaching the same permission to the same role twice leaves one row,
      holding the access of the second call. */
  lemma AttachToRoleTwice(s: State, roleId: RoleId, permId: PermissionId, a1: Option<seq<string>>, a2: Option<seq<string>>)
    requires UniqueBy(s.db.grants, KeyOf)
    requires FindRole(s.db.roles, roleId).Some? && FindPermission(s.db.permissions, permId).Some?
    ensures var s1 := AttachPermissionToRole(s, roleId, permId, a1).state;
      var s2 := AttachPermissionToRole(s1, roleId, permId, a2).state;
      var p := FindPermission(s.db.permissions, permId).value;
      && UniqueBy(s2.db.grants, KeyOf)
      && GrantAt(RoleKey(permId, roleId), NormalizeAccess(p, a2)) in s2.db.grants
      && (forall g :: g in s2.db.grants && KeyOf(g) == RoleKey(permId, roleId) ==>
            g.access == NormalizeAccess(p, a2))
  {
    var p := FindPermission(s.db.permissions, permId).value;
    var key := RoleKey(permId, roleId);
    var s1 := AttachPermissionToRole(s, roleId, permId, a1).state;
    UpsertKeepsUnique(s.db.grants, key, NormalizeAccess(p, a1));
    var s2 := AttachPermissionToRole(s1, roleId, permId, a2).state;
    UpsertKeepsUnique(s1.db.grants, key, NormalizeAccess(p, a2));
    forall g | g in s2.db.grants && KeyOf(g) == key ensures g.access == NormalizeAccess(p, a2) {
      UniqueKeyRow(s2.db.grants, g, GrantAt(key, NormalizeAccess(p, a2)));
    }
  }

  /** `attachPermissionsToRole`: the role is looked up once, then each entry
      is upserted in turn; a missing permission stops the batch. */
  function AttachPermissionsToRole(s: State, roleId: RoleId, items: seq<PermissionItem>): (r: Step)
    ensures FindRole(s.db.roles, roleId).None? ==> r == Step(s, Some(NotFound))
    ensures FindRole(s.db.roles, roleId).Some? ==>
      (r.error.None? <==> forall i :: 0 <= i < |items| ==> FindPermission(s.db.permissions, items[i].id).Some?)
    ensures UniqueBy(s.db.grants, KeyOf) ==> UniqueBy(r.state.db.grants, KeyOf)
    ensures r.state.db.roles == s.db.roles && r.state.db.permissions == s.db.permissions
    ensures r.state.db.roleUser == s.db.roleUser
    ensures r.error.Some? ==> r.state.cache == s.cache
    ensures r.error.None? ==> r.state.cache == FlushUsers(s.cache, UsersOfRole(s.db, roleId))
    ensures FindRole(s.db.roles, roleId).Some? ==>
      forall g :: g in s.db.grants && (forall i :: 0 <= i < |items| ==> KeyOf(g) != RoleKey(items[i].id, roleId)) ==>
        g in r.state.db.grants
    ensures r.error.None? ==>
      forall i :: 0 <= i < |items| ==> exists g :: g in r.state.db.grants && KeyOf(g) == RoleKey(items[i].id, roleId)
  {
    if FindRole(s.db.roles, roleId).None? then Step(s, Some(NotFound))
    else
      var done := UpsertItems(s.db, RoleKeys(roleId), items);
      assert forall i :: 0 <= i < |items| ==> RoleKeys(roleId)(items[i].id).accountId.None?;
      UpsertItemsCoversItems(s.db, RoleKeys(roleId), items);
      UpsertItemsKeepsOthers(s.db, RoleKeys(roleId), items);
      if done.1.Some? then Step(State(done.0, s.cache), done.1)
      else Step(State(done.0, FlushUsers(s.cache, UsersOfRole(done.0, roleId))), None)
  }

  function RoleKeys(roleId: RoleId): PermissionId -> GrantKey {
    (id: PermissionId) => RoleKey(id, roleId)
  }

  /** The loop of the batch attaches: each entry's permission is looked up
      and its row upserted under the key `keyFor` gives it; the first
      missing permission, or the first row the foreign key rejects, stops
      the loop with the writes so far. */
  function UpsertItems(db: Db, keyFor: PermissionId -> GrantKey, items: seq<PermissionItem>): (r: (Db, Option<AdminError>))
    ensures r.1.None? <==> forall i :: 0 <= i < |items| ==> Writable(db, keyFor, items[i].id)
    ensures UniqueBy(db.grants, KeyOf) ==> UniqueBy(r.0.grants, KeyOf)
    ensures r.0 == db.(grants := r.0.grants)
    decreases |items|
  {
    if |items| == 0 then (db, None)
    else
      var perm := FindPermission(db.permissions, items[0].id);
      var key := keyFor(items[0].id);
      if perm.None? then (db, Some(NotFound))
      else if !Insertable(db, key) then (db, Some(ConstraintViolation))
      else
        var access := NormalizeAccess(perm.value, items[0].access);
        var next := db.(grants := Upsert(db.grants, key, access));
        UpsertKeepsUniqueIf(db.grants, key, access);
        assert next.permissions == db.permissions;
        var rest := UpsertItems(next, keyFor, items[1..]);
        WritableAfterUpsert(db, next, key, access, keyFor, items);
        rest
  }

  /** A loop stopped by a missing permission names one; a loop stopped by
      the foreign key names an entry whose row could not be written. */
  lemma {:induction false} UpsertItemsFailure(db: Db, keyFor: PermissionId -> GrantKey, items: seq<PermissionItem>)
    ensures var r := UpsertItems(db, keyFor, items);
      && (r.1 == Some(NotFound) ==> exists i :: 0 <= i < |items| && FindPermission(db.permissions, items[i].id).None?)
      && (r.1 == Some(ConstraintViolation) ==> exists i :: 0 <= i < |items| && !Insertable(db, keyFor(items[i].id)))
    decreases |items|
  {
    var r := UpsertItems(db, keyFor, items);
    if |items| > 0 && Writable(db, keyFor, items[0].id) {
      var key := keyFor(items[0].id);
      var access := NormalizeAccess(FindPermission(db.permissions, items[0].id).value, items[0].access);
      var next := db.(grants := Upsert(db.grants, key, access));
      assert r == UpsertItems(next, keyFor, items[1..]);
      UpsertItemsFailure(next, keyFor, items[1..]);
      if r.1 == Some(NotFound) {
        var i :| 0 <= i < |items[1..]| && FindPermission(next.permissions, items[1..][i].id).None?;
        assert items[1..][i] == items[i + 1];
      }
      if r.1 == Some(ConstraintViolation) {
        var i :| 0 <= i < |items[1..]| && !Insertable(next, keyFor(items[1..][i].id));
        assert items[1..][i] == items[i + 1];
        UpsertKeepsInsertable(db, next, key, access, keyFor(items[i + 1].id));
      }
    }
  }

  /** No key disappears in the loop. */
  lemma {:induction false} UpsertItemsKeepsKeys(db: Db, keyFor: PermissionId -> GrantKey, items: seq<PermissionItem>)
    ensures forall g :: g in db.grants ==> exists h :: h in UpsertItems(db, keyFor, items).0.grants && KeyOf(h) == KeyOf(g)
    decreases |items|
  {
    if |items| > 0 && FindPermission(db.permissions, items[0].id).Some? && Insertable(db, keyFor(items[0].id)) {
      var key := keyFor(items[0].id);
      var access := NormalizeAccess(FindPermission(db.permissions, items[0].id).value, items[0].access);
      var next := db.(grants := Upsert(db.grants, key, access));
      var r := UpsertItems(db, keyFor, items);
      UpsertItemsKeepsKeys(next, keyFor, items[1..]);
      assert r == UpsertItems(next, keyFor, items[1..]);
      forall g | g in db.grants ensures exists h :: h in r.0.grants && KeyOf(h) == KeyOf(g) {
        var g' := if KeyOf(g) == key then GrantAt(key, access) else g;
        assert g' in next.grants && KeyOf(g') == KeyOf(g);
        var h :| h in r.0.grants && KeyOf(h) == KeyOf(g');
      }
    } else {
      assert UpsertItems(db, keyFor, items).0 == db;
    }
  }

  /** When the loop completes, every entry's key has a row. */
  lemma {:induction false} UpsertItemsCoversItems(db: Db, keyFor: PermissionId -> GrantKey, items: seq<PermissionItem>)
    ensures var r := UpsertItems(db, keyFor, items);
      r.1.None? ==> forall i :: 0 <= i < |items| ==> exists h :: h in r.0.grants && KeyOf(h) == keyFor(items[i].id)
    decreases |items|
  {
    var r := UpsertItems(db, keyFor, items);
    if |items| > 0 && r.1.None? {
      var key := keyFor(items[0].id);
      var access := NormalizeAccess(FindPermission(db.permissions, items[0].id).value, items[0].access);
      assert Writable(db, keyFor, items[0].id);
      var next := Entered(db, keyFor, items[0]);
      var tail := items[1..];
      UpsertItemsCons(db, keyFor, items);
      assert r == UpsertItems(next, keyFor, tail);
      assert GrantAt(key, access) in next.grants;
      UpsertItemsKeepsKey(next, keyFor, tail, GrantAt(key, access));
      UpsertItemsCoversItems(next, keyFor, tail);
      forall i | 1 <= i < |items| ensures exists h :: h in r.0.grants && KeyOf(h) == keyFor(items[i].id) {
        assert tail[i - 1] == items[i];
      }
    }
  }

  /** One row's key survives the loop. */
  lemma UpsertItemsKeepsKey(db: Db, keyFor: PermissionId -> GrantKey, items: seq<PermissionItem>, g: Grant)
    requires g in db.grants
    ensures exists h :: h in UpsertItems(db, keyFor, items).0.grants && KeyOf(h) == KeyOf(g)
  {
    UpsertItemsKeepsKeys(db, keyFor, items);
  }

  /** A row whose key no entry names is kept as it was. */
  lemma {:induction false} UpsertItemsKeepsOthers(db: Db, keyFor: PermissionId -> GrantKey, items: seq<PermissionItem>)
    ensures forall g :: g in db.grants && (forall i :: 0 <= i < |items| ==> KeyOf(g) != keyFor(items[i].id)) ==>
      g in UpsertItems(db, keyFor, items).0.grants
    decreases |items|
  {
    if |items| > 0 && Writable(db, keyFor, items[0].id) {
      var next := Entered(db, keyFor, items[0]);
      UpsertItemsCons(db, keyFor, items);
      UpsertItemsKeepsOthers(next, keyFor, items[1..]);
      assert forall i :: 0 <= i < |items[1..]| ==> items[1..][i] == items[i + 1];
      forall g | g in db.grants && (forall i :: 0 <= i < |items| ==> KeyOf(g) != keyFor(items[i].id))
        ensures g in next.grants
      {
        assert KeyOf(g) != keyFor(items[0].id);
      }
    }
  }

  /** The position of the first entry the loop cannot get past, or the
      length of the batch. */
  function FirstUnwritable(db: Db, keyFor: PermissionId -> GrantKey, items: seq<PermissionItem>): (k: nat)
    ensures k <= |items|
    ensures forall j :: 0 <= j < k ==> Writable(db, keyFor, items[j].id)
    ensures k < |items| ==> !Writable(db, keyFor, items[k].id)
    decreases |items|
  {
    if |items| == 0 || !Writable(db, keyFor, items[0].id) then 0
    else
      var k := 1 + FirstUnwritable(db, keyFor, items[1..]);
      assert forall j :: 1 <= j < |items| ==> items[1..][j - 1] == items[j];
      k
  }

  /** The error an entry the loop cannot get past stops it with: a missing
      permission is looked up first. */
  function StopError(db: Db, id: PermissionId): AdminError {
    if FindPermission(db.permissions, id).None? then NotFound else ConstraintViolation
  }

  /** The loop over `xs + ys` is the loop over `xs`, then, unless that
      stopped, the loop over `ys` from where it left the database. */
  lemma {:induction false} UpsertItemsAppend(db: Db, keyFor: PermissionId -> GrantKey, xs: seq<PermissionItem>, ys: seq<PermissionItem>)
    ensures UpsertItems(db, keyFor, xs + ys) ==
      (var d := UpsertItems(db, keyFor, xs); if d.1.Some? then d else UpsertItems(d.0, keyFor, ys))
    decreases |xs|
  {
    if |xs| == 0 {
      assert xs + ys == ys;
    } else {
      assert (xs + ys)[0] == xs[0];
      assert (xs + ys)[1..] == xs[1..] + ys;
      if Writable(db, keyFor, xs[0].id) {
        var key := keyFor(xs[0].id);
        var access := NormalizeAccess(FindPermission(db.permissions, xs[0].id).value, xs[0].access);
        var next := db.(grants := Upsert(db.grants, key, access));
        UpsertItemsAppend(next, keyFor, xs[1..], ys);
      }
    }
  }

  /** One entry: its row is upserted with its normalised access, or the
      loop stops with the database as it was. */
  lemma UpsertItemsOne(db: Db, keyFor: PermissionId -> GrantKey, x: PermissionItem)
    ensures var r := UpsertItems(db, keyFor, [x]);
      && (Writable(db, keyFor, x.id) ==>
            r == (db.(grants := Upsert(db.grants, keyFor(x.id), NormalizeAccess(FindPermission(db.permissions, x.id).value, x.access))), None))
      && (!Writable(db, keyFor, x.id) ==> r == (db, Some(StopError(db, x.id))))
  {
    assert [x][1..] == [];
  }

  /** The loop performs exactly the writes of the entries before the first
      one it cannot get past, and stops there with that entry's error: a
      failure keeps the earlier writes. */
  lemma UpsertItemsStopsAt(db: Db, keyFor: PermissionId -> GrantKey, items: seq<PermissionItem>)
    ensures var r := UpsertItems(db, keyFor, items);
      var k := FirstUnwritable(db, keyFor, items);
      && UpsertItems(db, keyFor, items[..k]).1.None?
      && r.0 == UpsertItems(db, keyFor, items[..k]).0
      && r.1 == (if k == |items| then None else Some(StopError(db, items[k].id)))
  {
    var k := FirstUnwritable(db, keyFor, items);
    var xs, ys := items[..k], items[k..];
    assert items == xs + ys;
    UpsertItemsAppend(db, keyFor, xs, ys);
    assert forall i :: 0 <= i < |xs| ==> xs[i] == items[i];
    var d := UpsertItems(db, keyFor, xs);
    assert d.1.None?;
    if k < |items| {
      UpsertItemsKeepsWritable(db, keyFor, xs, items[k].id);
      assert ys[0] == items[k];
      UpsertItemsStopsHere(d.0, keyFor, ys);
    } else {
      assert ys == [];
    }
  }

  lemma UpsertItemsStopsHere(db: Db, keyFor: PermissionId -> GrantKey, items: seq<PermissionItem>)
    requires |items| > 0 && !Writable(db, keyFor, items[0].id)
    ensures UpsertItems(db, keyFor, items) == (db, Some(StopError(db, items[0].id)))
  {
  }

  /** The database after the loop gets past one entry. */
  function Entered(db: Db, keyFor: PermissionId -> GrantKey, x: PermissionItem): Db
    requires FindPermission(db.permissions, x.id).Some?
  {
    db.(grants := Upsert(db.grants, keyFor(x.id), NormalizeAccess(FindPermission(db.permissions, x.id).value, x.access)))
  }

  lemma UpsertItemsCons(db: Db, keyFor: PermissionId -> GrantKey, items: seq<PermissionItem>)
    requires |items| > 0 && Writable(db, keyFor, items[0].id)
    ensures UpsertItems(db, keyFor, items) == UpsertItems(Entered(db, keyFor, items[0]), keyFor, items[1..])
  {
  }

  /** A loop that completes leaves every entry exactly as writable as it
      found it. */
  lemma {:induction false} UpsertItemsKeepsWritable(db: Db, keyFor: PermissionId -> GrantKey, xs: seq<PermissionItem>, id: PermissionId)
    ensures UpsertItems(db, keyFor, xs).1.None? ==>
      Writable(UpsertItems(db, keyFor, xs).0, keyFor, id) == Writable(db, keyFor, id)
    decreases |xs|
  {
    if |xs| > 0 && Writable(db, keyFor, xs[0].id) {
      var next := Entered(db, keyFor, xs[0]);
      UpsertItemsCons(db, keyFor, xs);
      UpsertItemsKeepsWritable(next, keyFor, xs[1..], id);
      UpsertKeepsInsertable(db, next, keyFor(xs[0].id), NormalizeAccess(FindPermission(db.permissions, xs[0].id).value, xs[0].access), keyFor(id));
    }
  }

  function UserKeys(uid: UserId, account: Option<AccountId>): PermissionId -> GrantKey {
    (id: PermissionId) => UserKey(id, uid, account)
  }

  /** A batch of one is the single operation. */
  lemma AttachOneIsAttach(s: State, roleId: RoleId, item: PermissionItem)
    ensures AttachPermissionsToRole(s, roleId, [item]) == AttachPermissionToRole(s, roleId, item.id, item.access)
  {
    var perm := FindPermission(s.db.permissions, item.id);
    if FindRole(s.db.roles, roleId).Some? && perm.Some? {
      var next := s.db.(grants := Upsert(s.db.grants, RoleKey(item.id, roleId), NormalizeAccess(perm.value, item.access)));
      assert [item][1..] == [];
      assert UpsertItems(s.db, RoleKeys(roleId), [item]) == UpsertItems(next, RoleKeys(roleId), []);
      assert UsersOfRole(next, roleId) == UsersOfRole(s.db, roleId);
    }
  }

  /** Role keys carry no account, so only a missing permission stops a
      role batch. */
  lemma RoleKeysWritable(db: Db, roleId: RoleId, id: PermissionId)
    ensures Writable(db, RoleKeys(roleId), id) <==> FindPermission(db.permissions, id).Some?
  {
  }

  /** A role batch fails only with `NotFound`, for the role or for one of
      the permissions. */
  lemma RoleBatchNeverViolates(s: State, roleId: RoleId, items: seq<PermissionItem>)
    ensures AttachPermissionsToRole(s, roleId, items).error != Some(ConstraintViolation)
  {
    if FindRole(s.db.roles, roleId).Some? {
      UpsertItemsFailure(s.db, RoleKeys(roleId), items);
      assert forall i :: 0 <= i < |items| ==> Insertable(s.db, RoleKeys(roleId)(items[i].id));
    }
  }

  /** A role batch writes exactly what the batch of the entries before the
      first missing permission writes; if it stops there it reports
      `NotFound` and flushes nothing. */
  lemma AttachPermissionsToRoleStopsAt(s: State, roleId: RoleId, items: seq<PermissionItem>)
    ensures var k := FirstUnwritable(s.db, RoleKeys(roleId), items);
      var r := AttachPermissionsToRole(s, roleId, items);
      var pre := AttachPermissionsToRole(s, roleId, items[..k]);
      FindRole(s.db.roles, roleId).Some? ==>
        && (forall j :: 0 <= j < k ==> FindPermission(s.db.permissions, items[j].id).Some?)
        && (k < |items| ==> FindPermission(s.db.permissions, items[k].id).None?)
        && pre.error.None?
        && r.state.db == pre.state.db
        && (k < |items| ==> r.error == Some(NotFound) && r.state.cache == s.cache)
  {
    var k := FirstUnwritable(s.db, RoleKeys(roleId), items);
    UpsertItemsStopsAt(s.db, RoleKeys(roleId), items);
    forall j | 0 <= j < |items| ensures Writable(s.db, RoleKeys(roleId), items[j].id) <==> FindPermission(s.db.permissions, items[j].id).Some? {
      RoleKeysWritable(s.db, roleId, items[j].id);
    }
  }

  /** A role batch is the single attaches in turn: once it has failed it
      stays failed; otherwise the next entry writes, and fails, exactly as
      `attachPermissionToRole` would on the state the batch reached. */
  lemma AttachPermissionsToRoleSnoc(s: State, roleId: RoleId, xs: seq<PermissionItem>, x: PermissionItem)
    ensures var d := AttachPermissionsToRole(s, roleId, xs);
      var r := AttachPermissionsToRole(s, roleId, xs + [x]);
      var one := AttachPermissionToRole(d.state, roleId, x.id, x.access);
      && (d.error.Some? ==> r == d)
      && (d.error.None? ==> r.error == one.error && r.state.db == one.state.db)
      && (d.error.None? && r.error.None? ==> r.state == one.state)
  {
    if FindRole(s.db.roles, roleId).Some? {
      UpsertItemsAppend(s.db, RoleKeys(roleId), xs, [x]);
      var d := UpsertItems(s.db, RoleKeys(roleId), xs);
      if d.1.None? {
        UpsertItemsOne(d.0, RoleKeys(roleId), x);
        RoleKeysWritable(d.0, roleId, x.id);
        var e := UpsertItems(d.0, RoleKeys(roleId), [x]);
        var users := UsersOfRole(s.db, roleId);
        assert UsersOfRole(d.0, roleId) == users && UsersOfRole(e.0, roleId) == users;
        FlushUsersTwice(s.cache, users);
      }
    }
  }

  /** After a successful role batch the last entry's key holds that entry's
      access, whatever earlier entries named the same permission; on a
      unique key it is the key's only row. */
  lemma RoleBatchLastWins(s: State, roleId: RoleId, xs: seq<PermissionItem>, x: PermissionItem)
    requires AttachPermissionsToRole(s, roleId, xs + [x]).error.None?
    ensures FindPermission(s.db.permissions, x.id).Some?
    ensures var r := AttachPermissionsToRole(s, roleId, xs + [x]);
      var want := GrantAt(RoleKey(x.id, roleId), NormalizeAccess(FindPermission(s.db.permissions, x.id).value, x.access));
      && want in r.state.db.grants
      && (UniqueBy(s.db.grants, KeyOf) ==> forall g :: g in r.state.db.grants && KeyOf(g) == KeyOf(want) ==> g == want)
  {
    AttachPermissionsToRoleSnoc(s, roleId, xs, x);
    var r := AttachPermissionsToRole(s, roleId, xs + [x]);
    assert (xs + [x])[|xs|] == x;
    var want := GrantAt(RoleKey(x.id, roleId), NormalizeAccess(FindPermission(s.db.permissions, x.id).value, x.access));
    if UniqueBy(s.db.grants, KeyOf) {
      forall g | g in r.state.db.grants && KeyOf(g) == KeyOf(want) ensures g == want {
        UniqueKeyRow(r.state.db.grants, g, want);
      }
    }
  }

  lemma FlushUsersTwice(c: CacheState, ids: set<UserId>)
    ensures FlushUsers(FlushUsers(c, ids), ids) == FlushUsers(c, ids)
  {
    var keys := set u | u in ids :: FlushKey(u, None);
    assert c.entries - keys - keys == c.entries - keys;
  }

  function RoleRowOf(permId: PermissionId, roleId: RoleId): Grant -> bool {
    (g: Grant) => g.permissionId == permId && g.assigneeId == roleId && g.assigneeType == RoleAssignee
  }

  function AnyRoleRow(roleId: RoleId): Grant -> bool {
    (g: Grant) => g.assigneeId == roleId && g.assigneeType == RoleAssignee
  }

  /** Deleting the rows a predicate selects; nothing else changes. */
  function RemoveGrants(db: Db, doomed: Grant -> bool): (r: Db)
    ensures forall g :: g in r.grants <==> g in db.grants && !doomed(g)
    ensures UniqueBy(db.grants, KeyOf) ==> UniqueBy(r.grants, KeyOf)
    ensures r == db.(grants := r.grants)
  {
    FilterKeepsUniqueIf(db.grants, Keep(doomed));
    db.(grants := Filter(db.grants, Keep(doomed)))
  }

  function Keep(doomed: Grant -> bool): Grant -> bool {
    (g: Grant) => !doomed(g)
  }

  /** `detachPermissionFromRole`: every role row of that pair goes, whatever
      account the row carries. */
  function DetachPermissionFromRole(s: State, roleId: RoleId, permId: PermissionId): (r: Step)
    ensures r.error.Some? <==> FindRole(s.db.roles, roleId).None?
    ensures r.error.Some? ==> r.state == s
    ensures r.error.None? ==>
      && (forall g :: g in r.state.db.grants <==>
            g in s.db.grants && !(g.permissionId == permId && g.assigneeId == roleId && g.assigneeType == RoleAssignee))
      && r.state.db == s.db.(grants := r.state.db.grants)
      && r.state.cache == FlushUsers(s.cache, UsersOfRole(s.db, roleId))
  {
    if FindRole(s.db.roles, roleId).None? then Step(s, Some(NotFound))
    else
      var db := RemoveGrants(s.db, RoleRowOf(permId, roleId));
      Step(State(db, FlushUsers(s.cache, UsersOfRole(db, roleId))), None)
  }

  /** `detachAllPermissionsFromRole`. */
  function DetachAllPermissionsFromRole(s: State, roleId: RoleId): (r: Step)
    ensures r.error.Some? <==> FindRole(s.db.roles, roleId).None?
    ensures r.error.Some? ==> r.state == s
    ensures r.error.None? ==>
      && (forall g :: g in r.state.db.grants <==>
            g in s.db.grants && !(g.assigneeId == roleId && g.assigneeType == RoleAssignee))
      && r.state.db == s.db.(grants := r.state.db.grants)
      && r.state.cache == FlushUsers(s.cache, UsersOfRole(s.db, roleId))
  {
    if FindRole(s.db.roles, roleId).None? then Step(s, Some(NotFound))
    else
      var db := RemoveGrants(s.db, AnyRoleRow(roleId));
      Step(State(db, FlushUsers(s.cache, UsersOfRole(db, roleId))), None)
  }

  // ---------------------------------------------------------------- user grants

  function UserKey(permId: PermissionId, uid: UserId, account: Option<AccountId>): GrantKey {
    GrantKey(permId, uid, UserAssignee, account)
  }

  /** `attachPermissionToUser`: the key includes the account, so the same
      permission may be held in several accounts at once. A new row naming
      an account that does not exist breaks the `account_id` foreign key,
      and the exception skips the flush. */
  function AttachPermissionToUser(s: State, uid: UserId, permId: PermissionId, account: Option<AccountId>, access: Option<seq<string>>): (r: Step)
    ensures r.error == Some(NotFound) <==> FindPermission(s.db.permissions, permId).None?
    ensures r.error == Some(ConstraintViolation) <==>
      FindPermission(s.db.permissions, permId).Some? && !Insertable(s.db, UserKey(permId, uid, account))
    ensures r.error.Some? ==> r.state == s
    ensures r.error.None? ==>
      var p := FindPermission(s.db.permissions, permId).value;
      && r.state.db == s.db.(grants := Upsert(s.db.grants, UserKey(permId, uid, account), NormalizeAccess(p, access)))
      && r.state.cache == FlushCache(s.cache, uid, account)
  {
    var perm := FindPermission(s.db.permissions, permId);
    var key := UserKey(permId, uid, account);
    if perm.None? then Step(s, Some(NotFound))
    else if !Insertable(s.db, key) then Step(s, Some(ConstraintViolation))
    else
      var db := s.db.(grants := Upsert(s.db.grants, key, NormalizeAccess(perm.value, access)));
      Step(State(db, FlushCache(s.cache, uid, account)), None)
  }

  /** On a database that keeps its foreign keys, no row names a missing
      account, so attaching under one always fails and changes nothing. */
  lemma AttachToMissingAccountFails(s: State, uid: UserId, permId: PermissionId, a: AccountId, access: Option<seq<string>>)
    requires ForeignKeys(s.db) && !AccountExists(s.db, a)
    requires FindPermission(s.db.permissions, permId).Some?
    ensures AttachPermissionToUser(s, uid, permId, Some(a), access) == Step(s, Some(ConstraintViolation))
  {
    HasRowIff(s.db.grants, UserKey(permId, uid, Some(a)));
  }

  /** Grants in different existing accounts coexist: the second attach
      leaves the first account's row in place. */
  lemma UserGrantsPerAccount(s: State, uid: UserId, permId: PermissionId, a1: AccountId, a2: AccountId, access: Option<seq<string>>)
    requires a1 != a2 && FindPermission(s.db.permissions, permId).Some?
    requires AccountExists(s.db, a1) && AccountExists(s.db, a2)
    ensures var s1 := AttachPermissionToUser(s, uid, permId, Some(a1), access).state;
      var s2 := AttachPermissionToUser(s1, uid, permId, Some(a2), access).state;
      var p := FindPermission(s.db.permissions, permId).value;
      GrantAt(UserKey(permId, uid, Some(a1)), NormalizeAccess(p, access)) in s2.db.grants &&
      GrantAt(UserKey(permId, uid, Some(a2)), NormalizeAccess(p, access)) in s2.db.grants
  {
  }

  /** `attachPermissionsToUser`: each entry upserted in turn under one
      account; a missing permission, or a new row under an account that
      does not exist, stops the batch. */
  function AttachPermissionsToUser(s: State, uid: UserId, items: seq<PermissionItem>, account: Option<AccountId>): (r: Step)
    ensures r.error.None? <==> forall i :: 0 <= i < |items| ==>
      FindPermission(s.db.permissions, items[i].id).Some? && Insertable(s.db, UserKey(items[i].id, uid, account))
    ensures (account.None? || AccountExists(s.db, account.value)) ==>
      (r.error.None? <==> forall i :: 0 <= i < |items| ==> FindPermission(s.db.permissions, items[i].id).Some?)
    ensures r.error == Some(ConstraintViolation) ==>
      exists i :: 0 <= i < |items| && !Insertable(s.db, UserKey(items[i].id, uid, account))
    ensures UniqueBy(s.db.grants, KeyOf) ==> UniqueBy(r.state.db.grants, KeyOf)
    ensures r.state.db.roles == s.db.roles && r.state.db.permissions == s.db.permissions
    ensures r.state.db.roleUser == s.db.roleUser
    ensures r.error.Some? ==> r.state.cache == s.cache
    ensures r.error.None? ==> r.state.cache == FlushCache(s.cache, uid, account)
    ensures forall g :: g in s.db.grants && (forall i :: 0 <= i < |items| ==> KeyOf(g) != UserKey(items[i].id, uid, account)) ==>
      g in r.state.db.grants
    ensures r.error.None? ==>
      forall i :: 0 <= i < |items| ==> exists g :: g in r.state.db.grants && KeyOf(g) == UserKey(items[i].id, uid, account)
  {
    var done := UpsertItems(s.db, UserKeys(uid, account), items);
    assert forall i :: 0 <= i < |items| ==> UserKeys(uid, account)(items[i].id) == UserKey(items[i].id, uid, account);
    UpsertItemsFailure(s.db, UserKeys(uid, account), items);
    UpsertItemsCoversItems(s.db, UserKeys(uid, account), items);
    UpsertItemsKeepsOthers(s.db, UserKeys(uid, account), items);
    if done.1.Some? then Step(State(done.0, s.cache), done.1)
    else Step(State(done.0, FlushCache(s.cache, uid, account)), None)
  }

  /** A user batch writes exactly what the batch of the entries before the
      first one it cannot get past writes; if it stops there it reports
      that entry's error and flushes nothing. */
  lemma AttachPermissionsToUserStopsAt(s: State, uid: UserId, items: seq<PermissionItem>, account: Option<AccountId>)
    ensures var k := FirstUnwritable(s.db, UserKeys(uid, account), items);
      var r := AttachPermissionsToUser(s, uid, items, account);
      var pre := AttachPermissionsToUser(s, uid, items[..k], account);
      && pre.error.None?
      && r.state.db == pre.state.db
      && (k < |items| ==> r.error == Some(StopError(s.db, items[k].id)) && r.state.cache == s.cache)
  {
    UpsertItemsStopsAt(s.db, UserKeys(uid, account), items);
  }

  /** A user batch is the single attaches in turn: once it has failed it
      stays failed; otherwise the next entry writes, and fails, exactly as
      `attachPermissionToUser` would on the state the batch reached. */
  lemma AttachPermissionsToUserSnoc(s: State, uid: UserId, xs: seq<PermissionItem>, x: PermissionItem, account: Option<AccountId>)
    ensures var d := AttachPermissionsToUser(s, uid, xs, account);
      var r := AttachPermissionsToUser(s, uid, xs + [x], account);
      var one := AttachPermissionToUser(d.state, uid, x.id, account, x.access);
      && (d.error.Some? ==> r == d)
      && (d.error.None? ==> r.error == one.error && r.state.db == one.state.db)
      && (d.error.None? && r.error.None? ==> r.state == one.state)
  {
    UpsertItemsAppend(s.db, UserKeys(uid, account), xs, [x]);
    var d := UpsertItems(s.db, UserKeys(uid, account), xs);
    if d.1.None? {
      UpsertItemsOne(d.0, UserKeys(uid, account), x);
      FlushCacheTwice(s.cache, uid, account);
    }
  }

  /** A batch of one is the single operation. */
  lemma AttachOneIsAttachToUser(s: State, uid: UserId, item: PermissionItem, account: Option<AccountId>)
    ensures AttachPermissionsToUser(s, uid, [item], account) == AttachPermissionToUser(s, uid, item.id, account, item.access)
  {
    UpsertItemsOne(s.db, UserKeys(uid, account), item);
  }

  lemma FlushCacheTwice(c: CacheState, uid: UserId, ctx: Option<AccountId>)
    ensures FlushCache(FlushCache(c, uid, ctx), uid, ctx) == FlushCache(c, uid, ctx)
  {
    assert c.entries - {FlushKey(uid, ctx)} - {FlushKey(uid, ctx)} == c.entries - {FlushKey(uid, ctx)};
  }

  function UserRowOf(permId: PermissionId, uid: UserId, account: Option<AccountId>): Grant -> bool {
    (g: Grant) => g.permissionId == permId && g.assigneeId == uid && g.assigneeType == UserAssignee &&
                  (account.None? || g.accountId == account)
  }

  function AnyUserRow(uid: UserId, account: Option<AccountId>): Grant -> bool {
    (g: Grant) => g.assigneeId == uid && g.assigneeType == UserAssignee && (account.None? || g.accountId == account)
  }

  /** `detachPermissionFromUser`: with no account the user's rows of that
      permission go in every account; with one, only that account's. */
  function DetachPermissionFromUser(s: State, uid: UserId, permId: PermissionId, account: Option<AccountId>): (r: State)
    ensures forall g :: g in r.db.grants <==>
      (g in s.db.grants &&
       !(g.permissionId == permId && g.assigneeId == uid && g.assigneeType == UserAssignee &&
         (account.None? || g.accountId == account)))
    ensures r.db == s.db.(grants := r.db.grants)
    ensures r.cache == FlushCache(s.cache, uid, account)
  {
    State(RemoveGrants(s.db, UserRowOf(permId, uid, account)), FlushCache(s.cache, uid, account))
  }

  /** `detachAllPermissionsFromUser`. */
  function DetachAllPermissionsFromUser(s: State, uid: UserId, account: Option<AccountId>): (r: State)
    ensures forall g :: g in r.db.grants <==>
      (g in s.db.grants && !(g.assigneeId == uid && g.assigneeType == UserAssignee && (account.None? || g.accountId == account)))
    ensures r.db == s.db.(grants := r.db.grants)
    ensures r.cache == FlushCache(s.cache, uid, account)
  {
    State(RemoveGrants(s.db, AnyUserRow(uid, account)), FlushCache(s.cache, uid, account))
  }

  // ---------------------------------------------------------------- role membership

  /** Inserting the membership `(uid, roleId)` into `role_user` is accepted,
      or not needed: the pair is already there, or else the user and the
      role both exist for the foreign keys. */
  predicate Attachable(db: Db, uid: UserId, roleId: RoleId) {
    Membership(uid, roleId) in db.roleUser || (uid in db.users && FindRole(db.roles, roleId).Some?)
  }

  /** `assignRole`: `attach` inserts the membership; a pair already held
      breaks the primary key, a missing user or role a foreign key, and the
      exception skips the flush. */
  function AssignRole(s: State, uid: UserId, roleId: RoleId): (r: Step)
    ensures r.error.None? <==>
      Membership(uid, roleId) !in s.db.roleUser && uid in s.db.users && FindRole(s.db.roles, roleId).Some?
    ensures r.error.Some? ==> r == Step(s, Some(ConstraintViolation))
    ensures r.error.None? ==> r.state.db.roleUser == s.db.roleUser + {Membership(uid, roleId)}
    ensures r.state.db == s.db.(roleUser := r.state.db.roleUser)
    ensures r.error.None? ==> r.state.cache == FlushCache(s.cache, uid, None)
  {
    if Membership(uid, roleId) in s.db.roleUser || uid !in s.db.users || FindRole(s.db.roles, roleId).None?
    then Step(s, Some(ConstraintViolation))
    else Step(State(s.db.(roleUser := s.db.roleUser + {Membership(uid, roleId)}), FlushCache(s.cache, uid, None)), None)
  }

  /** A second `assignRole` of the same pair is rejected: `attach` is not
      idempotent. */
  lemma AssignTwiceFails(s: State, uid: UserId, roleId: RoleId)
    requires AssignRole(s, uid, roleId).error.None?
    ensures AssignRole(AssignRole(s, uid, roleId).state, uid, roleId).error == Some(ConstraintViolation)
  {
  }

  /** `detachRole`. */
  function DetachRole(s: State, uid: UserId, roleId: RoleId): (r: State)
    ensures r.db.roleUser == s.db.roleUser - {Membership(uid, roleId)}
    ensures r.db == s.db.(roleUser := r.db.roleUser)
    ensures r.cache == FlushCache(s.cache, uid, None)
  {
    State(s.db.(roleUser := s.db.roleUser - {Membership(uid, roleId)}), FlushCache(s.cache, uid, None))
  }

  /** Detaching a role that was just assigned restores the database. */
  lemma DetachUndoesAssign(s: State, uid: UserId, roleId: RoleId)
    requires AssignRole(s, uid, roleId).error.None?
    ensures DetachRole(AssignRole(s, uid, roleId).state, uid, roleId).db == s.db
  {
  }

  /** The position of the first listed role that cannot be attached, or the
      length of the list. */
  function FirstBlocked(db: Db, uid: UserId, ids: seq<RoleId>): (k: nat)
    ensures k <= |ids|
    ensures forall j :: 0 <= j < k ==> Attachable(db, uid, ids[j])
    ensures k < |ids| ==> !Attachable(db, uid, ids[k])
    decreases |ids|
  {
    if |ids| == 0 || !Attachable(db, uid, ids[0]) then 0 else 1 + FirstBlocked(db, uid, ids[1..])
  }

  /** Two databases that agree on which listed roles are attachable block
      at the same place. */
  lemma {:induction false} FirstBlockedAgrees(a: Db, b: Db, uid: UserId, ids: seq<RoleId>)
    requires forall j :: 0 <= j < |ids| ==> (Attachable(a, uid, ids[j]) <==> Attachable(b, uid, ids[j]))
    ensures FirstBlocked(a, uid, ids) == FirstBlocked(b, uid, ids)
    decreases |ids|
  {
    if |ids| > 0 && Attachable(a, uid, ids[0]) {
      FirstBlockedAgrees(a, b, uid, ids[1..]);
    }
  }

  /** Attaching a role that could be attached changes no answer of
      `Attachable`. */
  lemma AttachKeepsAttachable(db: Db, uid: UserId, roleId: RoleId, other: RoleId)
    requires uid in db.users && FindRole(db.roles, roleId).Some?
    ensures Attachable(db.(roleUser := db.roleUser + {Membership(uid, roleId)}), uid, other) <==> Attachable(db, uid, other)
  {
  }

  /** The attach half of `sync`: each listed role, in order, that the user
      does not hold yet is inserted; duplicates in the list are inserted
      once. The first rejected insert stops the loop with the rows written
      so far. */
  function AttachEach(db: Db, uid: UserId, ids: seq<RoleId>): (r: (Db, Option<AdminError>))
    ensures r.0 == db.(roleUser := r.0.roleUser)
    ensures r.1.None? <==> FirstBlocked(db, uid, ids) == |ids|
    ensures r.1.Some? ==> r.1 == Some(ConstraintViolation)
    ensures forall m :: m in r.0.roleUser <==>
      m in db.roleUser || (m.userId == uid && m.roleId in ids[..FirstBlocked(db, uid, ids)])
    decreases |ids|
  {
    if |ids| == 0 then (db, None)
    else if Membership(uid, ids[0]) in db.roleUser then
      assert forall x :: x in ids[..FirstBlocked(db, uid, ids)] <==> x == ids[0] || x in ids[1..][..FirstBlocked(db, uid, ids[1..])];
      AttachEach(db, uid, ids[1..])
    else if uid !in db.users || FindRole(db.roles, ids[0]).None? then (db, Some(ConstraintViolation))
    else
      var db' := db.(roleUser := db.roleUser + {Membership(uid, ids[0])});
      AttachKeepsAttachableAll(db, uid, ids[0], ids[1..]);
      FirstBlockedAgrees(db', db, uid, ids[1..]);
      assert forall x :: x in ids[..FirstBlocked(db, uid, ids)] <==> x == ids[0] || x in ids[1..][..FirstBlocked(db, uid, ids[1..])];
      AttachEach(db', uid, ids[1..])
  }

  lemma AttachKeepsAttachableAll(db: Db, uid: UserId, roleId: RoleId, ids: seq<RoleId>)
    requires uid in db.users && FindRole(db.roles, roleId).Some?
    ensures forall j :: 0 <= j < |ids| ==>
      (Attachable(db.(roleUser := db.roleUser + {Membership(uid, roleId)}), uid, ids[j]) <==> Attachable(db, uid, ids[j]))
  {
    forall j | 0 <= j < |ids| {
      AttachKeepsAttachable(db, uid, roleId, ids[j]);
    }
  }

  /** `syncRoles`: `sync` first deletes the user's memberships of unlisted
      roles, then attaches the listed roles the user does not hold. On
      success the user holds exactly the listed roles and is flushed; a
      rejected insert leaves the deletions and the inserts before it in
      place and flushes nothing. Other users' memberships are untouched
      either way. */
  function SyncRoles(s: State, uid: UserId, roleIds: seq<RoleId>): (r: Step)
    ensures r.error.None? <==> forall i :: 0 <= i < |roleIds| ==> Attachable(s.db, uid, roleIds[i])
    ensures r.state.db == s.db.(roleUser := r.state.db.roleUser)
    ensures r.error.None? ==> forall m :: m in r.state.db.roleUser <==>
      (m.userId != uid && m in s.db.roleUser) || (m.userId == uid && m.roleId in roleIds)
    ensures r.error.None? ==> r.state.cache == FlushCache(s.cache, uid, None)
    ensures r.error.Some? ==> r.error == Some(ConstraintViolation) && r.state.cache == s.cache
    ensures r.error.Some? ==> forall m :: m in r.state.db.roleUser <==>
      (m.userId != uid && m in s.db.roleUser) ||
      (m.userId == uid && m.roleId in roleIds && (m in s.db.roleUser || m.roleId in roleIds[..FirstBlocked(s.db, uid, roleIds)]))
  {
    var kept := set m | m in s.db.roleUser && (m.userId != uid || m.roleId in roleIds);
    var detached := s.db.(roleUser := kept);
    assert forall j :: 0 <= j < |roleIds| ==> (Attachable(detached, uid, roleIds[j]) <==> Attachable(s.db, uid, roleIds[j]));
    FirstBlockedAgrees(detached, s.db, uid, roleIds);
    var (db, err) := AttachEach(detached, uid, roleIds);
    if err.None? then Step(State(db, FlushCache(s.cache, uid, None)), None)
    else Step(State(db, s.cache), err)
  }

  /** Syncing is a full replacement: after a successful sync, syncing the
      same list again succeeds and changes no membership, and a prior
      successful `assignRole` of the same user neither changes whether the
      sync succeeds nor, when it does, its outcome. */
  lemma SyncRolesOverrides(s: State, uid: UserId, roleIds: seq<RoleId>, other: RoleId)
    ensures SyncRoles(s, uid, roleIds).error.None? ==>
      (var once := SyncRoles(s, uid, roleIds).state;
       SyncRoles(once, uid, roleIds).error.None? && SyncRoles(once, uid, roleIds).state.db == once.db)
    ensures AssignRole(s, uid, other).error.None? ==>
      (var afterAssign := AssignRole(s, uid, other).state;
       SyncRoles(afterAssign, uid, roleIds).error == SyncRoles(s, uid, roleIds).error &&
       (SyncRoles(s, uid, roleIds).error.None? ==>
          SyncRoles(afterAssign, uid, roleIds).state.db == SyncRoles(s, uid, roleIds).state.db))
  {
    if SyncRoles(s, uid, roleIds).error.None? {
      var once := SyncRoles(s, uid, roleIds).state;
      var a := SyncRoles(once, uid, roleIds).state.db.roleUser;
      assert a == once.db.roleUser;
    }
    if AssignRole(s, uid, other).error.None? {
      var afterAssign := AssignRole(s, uid, other).state;
      forall i | 0 <= i < |roleIds|
        ensures Attachable(afterAssign.db, uid, roleIds[i]) <==> Attachable(s.db, uid, roleIds[i])
      {
        AttachKeepsAttachable(s.db, uid, other, roleIds[i]);
      }
      if SyncRoles(s, uid, roleIds).error.None? {
        var c := SyncRoles(afterAssign, uid, roleIds).state.db.roleUser;
        assert c == SyncRoles(s, uid, roleIds).state.db.roleUser;
      }
    }
  }

  // ---------------------------------------------------------------- permission list cache

  function ListKey(account: Option<AccountId>): string {
    KeyPrefix + "permissions_list_" + ContextLabel(account)
  }

  /** `recachePermissionsList`: forgets the global list and sets the version
      to one more than the version the engine reads. */
  function RecachePermissionsList(c: CacheState): (r: CacheState)
    ensures EffectiveVersion(r) == EffectiveVersion(c) + 1
    ensures forall k :: k in r.entries <==> k in c.entries && k != ListKey(None)
    ensures forall k :: k in r.entries ==> r.entries[k] == c.entries[k]
  {
    CacheState(Some(EffectiveVersion(c) + 1), c.entries - {ListKey(None)})
  }

  /** Unlike the observers' increment, this bump always moves the version,
      with or without a counter, so it always restores coherence. Account
      lists are not forgotten. */
  lemma RecacheRestoresCoherence(c: CacheState, db': Db, a: AccountId)
    requires NoEntriesAbove(c)
    ensures Coherent(RecachePermissionsList(c), db')
    ensures NoEntriesAbove(RecachePermissionsList(c))
    ensures ListKey(Some(a)) in c.entries ==> ListKey(Some(a)) in RecachePermissionsList(c).entries
  {
    assert ListKey(Some(a))[|KeyPrefix|] == 'p';
    assert ListKey(None)[|KeyPrefix|] == 'p';
    assert ListKey(Some(a)) != ListKey(None) by {
      assert ListKey(Some(a)) == KeyPrefix + "permissions_list_" + NatToString(a);
      assert ListKey(Some(a))[30] == NatToString(a)[0];
      assert ListKey(None)[30] == 'g';
    }
  }

  /** `getCachedPermissionsList` without its account filter: the stored list
      if present, otherwise the de-duplicated expansion of every permission,
      which is stored. */
  function GetCachedPermissionsList(db: Db, account: Option<AccountId>, c: CacheState): (r: (seq<string>, CacheState))
    ensures r.1.version == c.version
    ensures ListKey(account) in c.entries ==> r == (c.entries[ListKey(account)], c)
    ensures ListKey(account) !in c.entries ==>
      && NoDuplicates(r.0)
      && (forall x :: x in r.0 <==> exists p :: p in db.permissions && x in Expand(p))
      && r.1.entries == c.entries[ListKey(account) := r.0]
  {
    var key := ListKey(account);
    if key in c.entries then (c.entries[key], c)
    else
      var list := Dedup(FlatMap(db.permissions, Expand));
      (list, c.(entries := c.entries[key := list]))
  }

  /** Storing the list never disturbs a stored result. */
  lemma PermissionsListKeepsCoherence(db: Db, db': Db, account: Option<AccountId>, c: CacheState)
    requires Coherent(c, db')
    ensures Coherent(GetCachedPermissionsList(db, account, c).1, db')
  {
    assert ListKey(account)[|KeyPrefix|] == 'p';
    NotAPermsKey(ListKey(account));
  }

  // ---------------------------------------------------------------- who is affected

  /** Updating a permission cannot change the result of a user outside
      `flushAffectedUsers` for it, in any context. */
  lemma PermissionUpdateSparesOthers(db: Db, p: Permission, uid: UserId, ctx: Option<AccountId>)
    requires uid !in UsersOfPermission(db, p.id)
    ensures ResolvePermissions(UpdatePermissionRow(db, p), uid, ctx) == ResolvePermissions(db, uid, ctx)
  {
    var db' := UpdatePermissionRow(db, p);
    assert ApplicableRoles(db', uid, ctx) == ApplicableRoles(db, uid, ctx);
    var ids := ApplicableRoleIds(db, uid, ctx);
    var roleRows := RoleGrantRows(db, ids);
    var userRows := UserGrantRows(db, uid, ctx);
    assert RoleGrantRows(db', ids) == roleRows && UserGrantRows(db', uid, ctx) == userRows;
    forall i | 0 <= i < |roleRows| ensures Expander(db')(roleRows[i]) == Expander(db)(roleRows[i]) {
      var g := roleRows[i];
      assert g in roleRows;
      var r :| r in ApplicableRoles(db, uid, ctx) && r.id == g.assigneeId;
      assert Membership(uid, g.assigneeId) in db.roleUser;
      assert g.permissionId != p.id;
      FindPermissionOtherRows(db.permissions, db'.permissions, p, g.permissionId);
    }
    forall i | 0 <= i < |userRows| ensures Expander(db')(userRows[i]) == Expander(db)(userRows[i]) {
      var g := userRows[i];
      assert g in userRows;
      assert g.permissionId != p.id;
      FindPermissionOtherRows(db.permissions, db'.permissions, p, g.permissionId);
    }
    FlatMapCongruent(roleRows, Expander(db'), Expander(db));
    FlatMapCongruent(userRows, Expander(db'), Expander(db));
    SameResolution(db, db', uid, ctx);
  }

  /** Expanding against the same catalogue gives the same strings. */
  lemma SameCatalogue(db: Db, db': Db, rows: seq<Grant>)
    requires db'.permissions == db.permissions
    ensures FlatMap(rows, Expander(db')) == FlatMap(rows, Expander(db))
  {
    FlatMapCongruent(rows, Expander(db'), Expander(db));
  }

  /** Two databases agreeing on the applicable roles and the collected
      expansions resolve alike. */
  lemma SameResolution(db: Db, db': Db, uid: UserId, ctx: Option<AccountId>)
    requires ApplicableRoles(db', uid, ctx) == ApplicableRoles(db, uid, ctx)
    requires FlatMap(RoleGrantRows(db', ApplicableRoleIds(db, uid, ctx)), Expander(db')) ==
             FlatMap(RoleGrantRows(db, ApplicableRoleIds(db, uid, ctx)), Expander(db))
    requires FlatMap(UserGrantRows(db', uid, ctx), Expander(db')) == FlatMap(UserGrantRows(db, uid, ctx), Expander(db))
    ensures ResolvePermissions(db', uid, ctx) == ResolvePermissions(db, uid, ctx)
  {
    assert ApplicableRoleIds(db', uid, ctx) == ApplicableRoleIds(db, uid, ctx);
    assert Collected(db', uid, ctx) == Collected(db, uid, ctx);
  }

  /** Updating a role cannot change the result of a user who does not hold
      it, in any context. */
  lemma RoleUpdateSparesOthers(db: Db, role: Role, uid: UserId, ctx: Option<AccountId>)
    requires uid !in UsersOfRole(db, role.id)
    ensures ResolvePermissions(UpdateRoleRow(db, role), uid, ctx) == ResolvePermissions(db, uid, ctx)
  {
    var db' := UpdateRoleRow(db, role);
    forall r ensures r in ApplicableRoles(db', uid, ctx) <==> r in ApplicableRoles(db, uid, ctx) {
      if r in ApplicableRoles(db', uid, ctx) || r in ApplicableRoles(db, uid, ctx) {
        assert Membership(uid, r.id) in db.roleUser;
        assert r.id != role.id;
      }
    }
    assert ApplicableRoles(db', uid, ctx) == ApplicableRoles(db, uid, ctx);
    SameCatalogue(db, db', RoleGrantRows(db, ApplicableRoleIds(db, uid, ctx)));
    SameCatalogue(db, db', UserGrantRows(db, uid, ctx));
    SameResolution(db, db', uid, ctx);
  }

  /** Attaching a permission to a role cannot change the result of a user
      who does not hold it: `flushAffectedUsersForRole` names every user
      that can be affected. */
  lemma AttachToRoleSparesOthers(s: State, roleId: RoleId, permId: PermissionId, access: Option<seq<string>>, uid: UserId, ctx: Option<AccountId>)
    requires uid !in UsersOfRole(s.db, roleId)
    ensures ResolvePermissions(AttachPermissionToRole(s, roleId, permId, access).state.db, uid, ctx) ==
            ResolvePermissions(s.db, uid, ctx)
  {
    var r := AttachPermissionToRole(s, roleId, permId, access);
    if r.error.None? {
      var db := s.db;
      var db' := r.state.db;
      var key := RoleKey(permId, roleId);
      var acc := NormalizeAccess(FindPermission(db.permissions, permId).value, access);
      assert db' == db.(grants := Upsert(db.grants, key, acc));
      assert ApplicableRoles(db', uid, ctx) == ApplicableRoles(db, uid, ctx);
      var ids := ApplicableRoleIds(db, uid, ctx);
      assert roleId !in ids;
      UpsertInvisible(db.grants, key, acc, RoleRowIn(ids));
      UpsertInvisible(db.grants, key, acc, UserRowFor(uid, ctx));
      SameCatalogue(db, db', RoleGrantRows(db, ids));
      SameCatalogue(db, db', UserGrantRows(db, uid, ctx));
      SameResolution(db, db', uid, ctx);
    }
  }

  /** Likewise for detaching a permission from a role. */
  lemma DetachFromRoleSparesOthers(s: State, roleId: RoleId, permId: PermissionId, uid: UserId, ctx: Option<AccountId>)
    requires uid !in UsersOfRole(s.db, roleId)
    ensures ResolvePermissions(DetachPermissionFromRole(s, roleId, permId).state.db, uid, ctx) ==
            ResolvePermissions(s.db, uid, ctx)
  {
    var r := DetachPermissionFromRole(s, roleId, permId);
    if r.error.None? {
      var db := s.db;
      var db' := r.state.db;
      var keep := Keep(RoleRowOf(permId, roleId));
      assert db' == db.(grants := Filter(db.grants, keep));
      assert ApplicableRoles(db', uid, ctx) == ApplicableRoles(db, uid, ctx);
      var ids := ApplicableRoleIds(db, uid, ctx);
      assert roleId !in ids;
      RemoveInvisible(db.grants, keep, RoleRowIn(ids));
      RemoveInvisible(db.grants, keep, UserRowFor(uid, ctx));
      SameCatalogue(db, db', RoleGrantRows(db, ids));
      SameCatalogue(db, db', UserGrantRows(db, uid, ctx));
      SameResolution(db, db', uid, ctx);
    }
  }

  /** Attaching a permission to one user never changes another user's result. */
  lemma AttachToUserSparesOthers(s: State, uid: UserId, permId: PermissionId, account: Option<AccountId>, access: Option<seq<string>>, other: UserId, ctx: Option<AccountId>)
    requires other != uid
    ensures ResolvePermissions(AttachPermissionToUser(s, uid, permId, account, access).state.db, other, ctx) ==
            ResolvePermissions(s.db, other, ctx)
  {
    var r := AttachPermissionToUser(s, uid, permId, account, access);
    if r.error.None? {
      var db := s.db;
      var db' := r.state.db;
      var key := UserKey(permId, uid, account);
      var acc := NormalizeAccess(FindPermission(db.permissions, permId).value, access);
      assert db' == db.(grants := Upsert(db.grants, key, acc));
      assert ApplicableRoles(db', other, ctx) == ApplicableRoles(db, other, ctx);
      var ids := ApplicableRoleIds(db, other, ctx);
      UpsertInvisible(db.grants, key, acc, RoleRowIn(ids));
      UpsertInvisible(db.grants, key, acc, UserRowFor(other, ctx));
      SameCatalogue(db, db', RoleGrantRows(db, ids));
      SameCatalogue(db, db', UserGrantRows(db, other, ctx));
      SameResolution(db, db', other, ctx);
    }
  }
}

=== FILE: cache.dfy ===
/** The version-keyed result cache around `resolvePermissions`
    (`getPermissions` and `flushCache` in src/AccessControl/AbacEngine.php).
    The cache store is an abstract map; time-based expiry is not modelled. */
module Cache {
  import opened Wrappers
  import opened Strings
  import opened Accounts
  import opened Store
  import opened Engine

  /** The shared store: the `awesome_abac_version` entry, which may be
      absent, and every other entry by key. */
  datatype CacheState = CacheState(version: Option<nat>, entries: map<string, seq<string>>)

  /** `Cache::get('awesome_abac_version', 1)`. */
  function EffectiveVersion(c: CacheState): nat {
    c.version.GetOr(1)
  }

  const KeyPrefix: string := "awesome_abac_"

  /** How a context appears in keys: its id, or `global`. */
  function ContextLabel(ctx: Option<AccountId>): string {
    match ctx
    case None => "global"
    case Some(a) => NatToString(a)
  }

  /** `_perms_{user}_{context}`, the part of a result key after the version. */
  function SubjectPart(uid: UserId, ctx: Option<AccountId>): string {
    "_perms_" + (NatToString(uid) + ("_" + ContextLabel(ctx)))
  }

  /** `awesome_abac_{version}_perms_{user}_{context}`: the key results are
      stored under. */
  function PermsKey(version: nat, uid: UserId, ctx: Option<AccountId>): (k: string)
    ensures |k| > |KeyPrefix| && k[..|KeyPrefix|] == KeyPrefix && IsDigit(k[|KeyPrefix|])
  {
    var k := KeyPrefix + (NatToString(version) + SubjectPart(uid, ctx));
    assert k[|KeyPrefix|] == NatToString(version)[0];
    k
  }

  /** `awesome_abac_perms_{user}_{context}`: the key `flushCache` forgets when
      the store has no tags. It carries no version. */
  function FlushKey(uid: UserId, ctx: Option<AccountId>): (k: string)
    ensures |k| > |KeyPrefix| && k[..|KeyPrefix|] == KeyPrefix && k[|KeyPrefix|] == 'p'
  {
    KeyPrefix + "perms_" + NatToString(uid) + "_" + ContextLabel(ctx)
  }

  lemma ContextLabelInjective(c1: Option<AccountId>, c2: Option<AccountId>)
    requires ContextLabel(c1) == ContextLabel(c2)
    ensures c1 == c2
  {
    assert IsDigit(ContextLabel(c1)[0]) <==> c1.Some?;
    assert IsDigit(ContextLabel(c2)[0]) <==> c2.Some?;
    if c1.Some? && c2.Some? {
      NatToStringInjective(c1.value, c2.value);
    }
  }

  lemma SubjectPartInjective(u1: UserId, c1: Option<AccountId>, u2: UserId, c2: Option<AccountId>)
    requires SubjectPart(u1, c1) == SubjectPart(u2, c2)
    ensures u1 == u2 && c1 == c2
  {
    var r1 := "_" + ContextLabel(c1);
    var r2 := "_" + ContextLabel(c2);
    assert SubjectPart(u1, c1)[7..] == NatToString(u1) + r1;
    assert SubjectPart(u2, c2)[7..] == NatToString(u2) + r2;
    DigitRunSplit(NatToString(u1), r1, NatToString(u2), r2);
    NatToStringInjective(u1, u2);
    assert ContextLabel(c1) == r1[1..] && ContextLabel(c2) == r2[1..];
    ContextLabelInjective(c1, c2);
  }

  /** A result key determines its version, user and context: distinct
      triples never share a cache entry. */
  lemma PermsKeyInjective(v1: nat, u1: UserId, c1: Option<AccountId>, v2: nat, u2: UserId, c2: Option<AccountId>)
    requires PermsKey(v1, u1, c1) == PermsKey(v2, u2, c2)
    ensures v1 == v2 && u1 == u2 && c1 == c2
  {
    var t1 := SubjectPart(u1, c1);
    var t2 := SubjectPart(u2, c2);
    assert PermsKey(v1, u1, c1)[|KeyPrefix|..] == NatToString(v1) + t1;
    assert PermsKey(v2, u2, c2)[|KeyPrefix|..] == NatToString(v2) + t2;
    DigitRunSplit(NatToString(v1), t1, NatToString(v2), t2);
    NatToStringInjective(v1, v2);
    SubjectPartInjective(u1, c1, u2, c2);
  }

  /** No key that continues `awesome_abac_` with a letter is a result key:
      in particular the no-tags flush key never is. */
  lemma NotAPermsKey(s: string)
    requires |s| > |KeyPrefix| && !IsDigit(s[|KeyPrefix|])
    ensures forall v: nat, u: UserId, c: Option<AccountId> :: s != PermsKey(v, u, c)
  {
  }

  lemma FlushKeyNeverMatches(uid: UserId, ctx: Option<AccountId>)
    ensures forall v: nat, u: UserId, c: Option<AccountId> :: FlushKey(uid, ctx) != PermsKey(v, u, c)
  {
    NotAPermsKey(FlushKey(uid, ctx));
  }

  /** Outcome of `getPermissions`: the list returned and the store after. */
  datatype Lookup = Lookup(perms: seq<string>, cache: CacheState)

  /** `getPermissions`: a null user gets nothing; otherwise the current
      version's entry, computing it on a miss (`remember`), and if the value
      is empty the entry is forgotten, the permissions are computed again and
      are stored only when that second computation is non-empty. */
  function GetPermissions(db: Db, user: Option<UserId>, ctx: Option<AccountId>, c: CacheState): (r: Lookup)
    ensures user.None? ==> r == Lookup([], c)
    ensures r.cache.version == c.version
    ensures user.Some? ==>
      var key := PermsKey(EffectiveVersion(c), user.value, ctx);
      && r.perms == (if key in c.entries && c.entries[key] != [] then c.entries[key]
                     else ResolvePermissions(db, user.value, ctx))
      && (key in r.cache.entries <==> r.perms != [])
      && (key in r.cache.entries ==> r.cache.entries[key] == r.perms)
      && (forall k :: k != key ==> (k in r.cache.entries <==> k in c.entries))
      && (forall k :: k != key && k in c.entries ==> r.cache.entries[k] == c.entries[k])
  {
    match user
    case None => Lookup([], c)
    case Some(uid) =>
      var key := PermsKey(EffectiveVersion(c), uid, ctx);
      var remembered := if key in c.entries then Lookup(c.entries[key], c)
                        else (var computed := ResolvePermissions(db, uid, ctx);
                              Lookup(computed, c.(entries := c.entries[key := computed])));
      if remembered.perms != [] then remembered
      else
        var forgotten := remembered.cache.(entries := remembered.cache.entries - {key});
        var again := ResolvePermissions(db, uid, ctx);
        if again != [] then Lookup(again, forgotten.(entries := forgotten.entries[key := again]))
        else Lookup(again, forgotten)
  }

  /** `hasPermission` through the cache. */
  function Check(db: Db, user: Option<UserId>, ctx: Option<AccountId>, c: CacheState, permission: string): (r: (bool, CacheState))
    ensures user.None? ==> !r.0
  {
    var l := GetPermissions(db, user, ctx, c);
    (HasPermission(l.perms, permission), l.cache)
  }

  /** Every entry stored under the current version holds what resolution
      gives now. */
  ghost predicate Coherent(c: CacheState, db: Db) {
    forall uid: UserId, ctx: Option<AccountId> ::
      PermsKey(EffectiveVersion(c), uid, ctx) in c.entries ==>
        c.entries[PermsKey(EffectiveVersion(c), uid, ctx)] == ResolvePermissions(db, uid, ctx)
  }

  /** Nothing is stored under a version the counter has not reached yet. */
  ghost predicate NoEntriesAbove(c: CacheState) {
    forall v: nat, uid: UserId, ctx: Option<AccountId> ::
      v > EffectiveVersion(c) ==> PermsKey(v, uid, ctx) !in c.entries
  }

  /** On a coherent store the cache is transparent: the engine returns what
      resolution gives, and the store stays coherent and has no entry ahead
      of the counter. */
  lemma GetPermissionsTransparent(db: Db, uid: UserId, ctx: Option<AccountId>, c: CacheState)
    requires Coherent(c, db)
    ensures GetPermissions(db, Some(uid), ctx, c).perms == ResolvePermissions(db, uid, ctx)
    ensures Coherent(GetPermissions(db, Some(uid), ctx, c).cache, db)
    ensures NoEntriesAbove(c) ==> NoEntriesAbove(GetPermissions(db, Some(uid), ctx, c).cache)
  {
    var r := GetPermissions(db, Some(uid), ctx, c);
    var v := EffectiveVersion(c);
    var key := PermsKey(v, uid, ctx);
    forall u: UserId, x: Option<AccountId> | PermsKey(v, u, x) in r.cache.entries
      ensures r.cache.entries[PermsKey(v, u, x)] == ResolvePermissions(db, u, x)
    {
      if PermsKey(v, u, x) == key {
        PermsKeyInjective(v, u, x, v, uid, ctx);
      }
    }
    if NoEntriesAbove(c) {
      forall w: nat, u: UserId, x: Option<AccountId> | w > v
        ensures PermsKey(w, u, x) !in r.cache.entries
      {
        if PermsKey(w, u, x) == key {
          PermsKeyInjective(w, u, x, v, uid, ctx);
        }
      }
    }
  }

  /** `hasPermission` on a coherent store answers from resolution, and
      leaves the store coherent. */
  lemma CheckTransparent(db: Db, uid: UserId, ctx: Option<AccountId>, c: CacheState, permission: string)
    requires Coherent(c, db)
    ensures Check(db, Some(uid), ctx, c, permission).0 == HasPermission(ResolvePermissions(db, uid, ctx), permission)
    ensures Coherent(Check(db, Some(uid), ctx, c, permission).1, db)
    ensures NoEntriesAbove(c) ==> NoEntriesAbove(Check(db, Some(uid), ctx, c, permission).1)
  {
    GetPermissionsTransparent(db, uid, ctx, c);
  }

  /** Asking twice with nothing changed in between gives the same answer,
      whatever the store held before. */
  lemma GetPermissionsIdempotent(db: Db, user: Option<UserId>, ctx: Option<AccountId>, c: CacheState)
    ensures var first := GetPermissions(db, user, ctx, c);
      GetPermissions(db, user, ctx, first.cache).perms == first.perms
  {
  }

  /** A key that has never been written means a fresh computation: this is
      how a version bump takes effect. */
  lemma MissRecomputes(db: Db, uid: UserId, ctx: Option<AccountId>, c: CacheState)
    requires PermsKey(EffectiveVersion(c), uid, ctx) !in c.entries
    ensures GetPermissions(db, Some(uid), ctx, c).perms == ResolvePermissions(db, uid, ctx)
  {
  }

  /** `flushCache` on a store without tags. */
  function FlushCache(c: CacheState, uid: UserId, ctx: Option<AccountId>): (r: CacheState)
    ensures r.version == c.version
    ensures forall k :: k in r.entries <==> k in c.entries && k != FlushKey(uid, ctx)
    ensures forall k :: k in r.entries ==> r.entries[k] == c.entries[k]
  {
    c.(entries := c.entries - {FlushKey(uid, ctx)})
  }

  /** The no-tags flush evicts no result the engine can read: every
      versioned entry is exactly as before. */
  lemma FlushCacheKeepsResults(c: CacheState, uid: UserId, ctx: Option<AccountId>)
    ensures forall v: nat, u: UserId, x: Option<AccountId> ::
      (PermsKey(v, u, x) in FlushCache(c, uid, ctx).entries <==> PermsKey(v, u, x) in c.entries)
    ensures forall v: nat, u: UserId, x: Option<AccountId> :: PermsKey(v, u, x) in c.entries ==>
      FlushCache(c, uid, ctx).entries[PermsKey(v, u, x)] == c.entries[PermsKey(v, u, x)]
  {
    FlushKeyNeverMatches(uid, ctx);
  }
}

=== FILE: catalog.dfy ===
/** Permission records and the CRUD bundle expansion (src/Models/Permission.php). */
module Catalog {
  import opened Wrappers

  type PermissionId = nat

  /** The `type` column values the code branches on. The column is a free
      string: any other value is possible and is treated as a single flag. */
  const CrudType: string := "crud"
  const OnOffType: string := "on-off"

  /** The four actions of a bundle, in the order `expand` emits them. */
  const CrudActions: seq<string> := ["create", "read", "update", "delete"]

  datatype Permission = Permission(id: PermissionId, name: string, kind: string)

  /** The fine-grained name of one action of a bundle: `posts:read`. */
  function ActionName(name: string, action: string): string {
    name + ":" + action
  }

  /** `Permission::expand`: a bundle becomes its four action names, anything
      else is just its own name. */
  function Expand(p: Permission): (r: seq<string>)
    ensures p.kind == CrudType ==>
      r == [ActionName(p.name, "create"), ActionName(p.name, "read"),
            ActionName(p.name, "update"), ActionName(p.name, "delete")]
    ensures p.kind != CrudType ==> r == [p.name]
    ensures |r| == if p.kind == CrudType then 4 else 1
    ensures p.kind == CrudType ==>
      forall i :: 0 <= i < |r| ==> r[i][..|p.name| + 1] == p.name + ":"
  {
    if p.kind != CrudType then [p.name]
    else
      var r := seq(|CrudActions|, i requires 0 <= i < |CrudActions| => ActionName(p.name, CrudActions[i]));
      assert forall i :: 0 <= i < |r| ==> r[i][..|p.name| + 1] == p.name + ":";
      r
  }

  /** `Permission::find($id)` over the table in row order: the first row with
      that id, or `null`. */
  function FindPermission(ps: seq<Permission>, id: PermissionId): (r: Option<Permission>)
    ensures r.Some? ==> r.value in ps && r.value.id == id
    ensures r.None? <==> forall p :: p in ps ==> p.id != id
  {
    if |ps| == 0 then None
    else if ps[0].id == id then Some(ps[0])
    else FindPermission(ps[1..], id)
  }

  /** Every action name of a bundle is the bundle name, a colon, and one of
      the four actions; nothing else is produced. */
  lemma ExpandCrudMembers(p: Permission, x: string)
    requires p.kind == CrudType
    ensures x in Expand(p) <==> exists a :: a in CrudActions && x == ActionName(p.name, a)
  {
    if x in Expand(p) {
      var i :| 0 <= i < 4 && Expand(p)[i] == x;
      assert CrudActions[i] in CrudActions && x == ActionName(p.name, CrudActions[i]);
    }
  }

  /** A flag whose own name looks like an action string (`posts:read`)
      expands to exactly that string, which is also one of the bundle's
      action names: the two cannot be told apart after expansion. */
  lemma FlagNamedLikeAction(bundle: Permission, flag: Permission)
    requires bundle.kind == CrudType && flag.kind != CrudType
    requires flag.name == ActionName(bundle.name, "read")
    ensures Expand(flag) == [ActionName(bundle.name, "read")]
    ensures flag.name in Expand(bundle)
  {
  }
}

=== FILE: engine.dfy ===
/** `AbacEngine::resolvePermissions` and `hasPermission`
    (src/AccessControl/AbacEngine.php). The tenant context is passed in
    explicitly; the engine reads it from `TenantContext::getAccountId`. */
module Engine {
  import opened Wrappers
  import opened Seqs
  import opened Accounts
  import opened Catalog
  import opened Roles
  import opened Grants
  import opened Store
  import opened Loose

  /** The bypass sentinel. */
  const Everything: string := "*"

  /** A role applies in a context when it is global or belongs to that very
      account; with no context only global roles apply. */
  function Applicable(r: Role, ctx: Option<AccountId>): (b: bool)
    ensures b <==> r.accountId.None? || (ctx.Some? && r.accountId == ctx)
  {
    r.accountId.None? || r.accountId == ctx
  }

  /** `$user->roles`, filtered to those applicable in the context. */
  function ApplicableRoles(db: Db, uid: UserId, ctx: Option<AccountId>): set<Role> {
    set r | r in db.roles && Membership(uid, r.id) in db.roleUser && Applicable(r, ctx)
  }

  predicate SystemBypass(db: Db, uid: UserId, ctx: Option<AccountId>) {
    exists r :: r in ApplicableRoles(db, uid, ctx) && IsSystemZeus(r)
  }

  predicate TenantBypass(db: Db, uid: UserId, ctx: Option<AccountId>) {
    ctx.Some? && exists r :: r in ApplicableRoles(db, uid, ctx) && IsTenantZeus(r) && r.accountId == ctx
  }

  predicate Bypass(db: Db, uid: UserId, ctx: Option<AccountId>) {
    SystemBypass(db, uid, ctx) || TenantBypass(db, uid, ctx)
  }

  function ApplicableRoleIds(db: Db, uid: UserId, ctx: Option<AccountId>): set<RoleId> {
    set r | r in ApplicableRoles(db, uid, ctx) :: r.id
  }

  /** Role grants: every `role` row whose assignee is an applicable role. The
      query puts no condition on the grant's own `account_id`. */
  function RoleGrantRows(db: Db, roleIds: set<RoleId>): seq<Grant> {
    Filter(db.grants, RoleRowIn(roleIds))
  }

  function RoleRowIn(roleIds: set<RoleId>): Grant -> bool {
    (g: Grant) => g.assigneeType == RoleAssignee && g.assigneeId in roleIds
  }

  /** Direct grants: the user's own `user` rows, through `forAccount(ctx)`. */
  function UserGrantRows(db: Db, uid: UserId, ctx: Option<AccountId>): seq<Grant> {
    Filter(db.grants, UserRowFor(uid, ctx))
  }

  function UserRowFor(uid: UserId, ctx: Option<AccountId>): Grant -> bool {
    (g: Grant) => g.assigneeType == UserAssignee && g.assigneeId == uid && ForAccount(g.accountId, ctx)
  }

  /** One grant expanded against the permission it points at. */
  function GrantExpansion(db: Db, g: Grant): seq<string> {
    ExpandedPermissions(g, FindPermission(db.permissions, g.permissionId))
  }

  function Expander(db: Db): Grant -> seq<string> {
    (g: Grant) => GrantExpansion(db, g)
  }

  /** The reference reading of the non-bypass result, independent of query
      order: a grant contributes when it belongs to a role the user holds
      and that applies here, or is the user's own grant visible here. */
  ghost predicate Contributes(db: Db, uid: UserId, ctx: Option<AccountId>, g: Grant) {
    || (g.assigneeType == RoleAssignee &&
        exists r :: r in db.roles && r.id == g.assigneeId && Membership(uid, r.id) in db.roleUser && Applicable(r, ctx))
    || (g.assigneeType == UserAssignee && g.assigneeId == uid && ForAccount(g.accountId, ctx))
  }

  ghost predicate GrantedByRows(db: Db, uid: UserId, ctx: Option<AccountId>, x: string) {
    exists g :: g in db.grants && Contributes(db, uid, ctx, g) && x in GrantExpansion(db, g)
  }

  /** The concatenated expansions, role grants first, before `array_unique`. */
  function Collected(db: Db, uid: UserId, ctx: Option<AccountId>): seq<string> {
    FlatMap(RoleGrantRows(db, ApplicableRoleIds(db, uid, ctx)), Expander(db)) + FlatMap(UserGrantRows(db, uid, ctx), Expander(db))
  }

  /** `resolvePermissions`: the bypass sentinel alone, or the de-duplicated
      expansions of exactly the contributing grants. */
  function ResolvePermissions(db: Db, uid: UserId, ctx: Option<AccountId>): (r: seq<string>)
    ensures NoDuplicates(r)
    ensures Bypass(db, uid, ctx) ==> r == [Everything]
    ensures !Bypass(db, uid, ctx) ==> forall x :: x in r <==> GrantedByRows(db, uid, ctx, x)
  {
    if SystemBypass(db, uid, ctx) then [Everything]
    else if TenantBypass(db, uid, ctx) then [Everything]
    else
      var r := Dedup(Collected(db, uid, ctx));
      CollectedMembers(db, uid, ctx);
      r
  }

  lemma CollectedMembers(db: Db, uid: UserId, ctx: Option<AccountId>)
    ensures forall x :: x in Collected(db, uid, ctx) <==> GrantedByRows(db, uid, ctx, x)
  {
    var ids := ApplicableRoleIds(db, uid, ctx);
    forall x
      ensures x in Collected(db, uid, ctx) <==> GrantedByRows(db, uid, ctx, x)
    {
      if GrantedByRows(db, uid, ctx, x) {
        var g :| g in db.grants && Contributes(db, uid, ctx, g) && x in GrantExpansion(db, g);
        if g.assigneeType == RoleAssignee {
          var r :| r in db.roles && r.id == g.assigneeId && Membership(uid, r.id) in db.roleUser && Applicable(r, ctx);
          assert r in ApplicableRoles(db, uid, ctx);
          assert g.assigneeId in ids;
          assert g in RoleGrantRows(db, ids);
        } else {
          assert g in UserGrantRows(db, uid, ctx);
        }
      }
      if x in Collected(db, uid, ctx) {
        var expand := Expander(db);
        if x in FlatMap(RoleGrantRows(db, ids), expand) {
          var g :| g in RoleGrantRows(db, ids) && x in expand(g);
          var r :| r in ApplicableRoles(db, uid, ctx) && r.id == g.assigneeId;
          assert Contributes(db, uid, ctx, g);
        } else {
          var g :| g in UserGrantRows(db, uid, ctx) && x in expand(g);
          assert Contributes(db, uid, ctx, g);
        }
      }
    }
  }

  /** `hasPermission` on a permission list: `in_array` of the sentinel or of
      the name, both with PHP's loose comparison. There is no prefix or
      bundle implication; a name that is not a numeric string matches only
      itself. */
  function HasPermission(perms: seq<string>, permission: string): (b: bool)
    ensures Everything in perms ==> b
    ensures Everything !in perms ==> (b <==> exists x :: x in perms && LooseEquals(x, permission))
    ensures Textual(permission) ==> (b <==> Everything in perms || permission in perms)
  {
    TextualAt(Everything, 0);
    LooseInTextual(Everything, perms);
    LooseInTextual(permission, perms);
    LooseIn(Everything, perms) || LooseIn(permission, perms)
  }

  /** Loose comparison is visible: a list holding `01` grants `1`. */
  lemma NumericNamesCollide()
    ensures HasPermission(["01"], "1") && "1" !in ["01"]
  {
    OneTwoWays();
  }

  // ---------------------------------------------------------------- properties

  /** Without a bypass, and with no row granting the literal `*`, a user
      holds exactly the names loosely equal to one the contributing rows
      grant. */
  lemma HasPermissionByRows(db: Db, uid: UserId, ctx: Option<AccountId>, permission: string)
    requires !Bypass(db, uid, ctx) && !GrantedByRows(db, uid, ctx, Everything)
    ensures HasPermission(ResolvePermissions(db, uid, ctx), permission) <==>
            exists x :: GrantedByRows(db, uid, ctx, x) && LooseEquals(x, permission)
  {
  }

  /** The same for a name that is not numeric: exactly what the rows grant. */
  lemma HasPermissionByRowsTextual(db: Db, uid: UserId, ctx: Option<AccountId>, permission: string)
    requires !Bypass(db, uid, ctx) && !GrantedByRows(db, uid, ctx, Everything)
    requires Textual(permission)
    ensures HasPermission(ResolvePermissions(db, uid, ctx), permission) <==> GrantedByRows(db, uid, ctx, permission)
  {
  }

  /** A System Zeus role the user holds grants every permission string in
      every context it applies in (a global one: every context). */
  lemma SystemZeusGrantsEverything(db: Db, uid: UserId, ctx: Option<AccountId>, r: Role, permission: string)
    requires r in db.roles && Membership(uid, r.id) in db.roleUser
    requires IsSystemZeus(r) && Applicable(r, ctx)
    ensures ResolvePermissions(db, uid, ctx) == [Everything]
    ensures HasPermission(ResolvePermissions(db, uid, ctx), permission)
  {
    assert r in ApplicableRoles(db, uid, ctx);
  }

  /** A Tenant Zeus role grants everything inside its own account. */
  lemma TenantZeusInOwnTenant(db: Db, uid: UserId, r: Role, permission: string)
    requires r in db.roles && Membership(uid, r.id) in db.roleUser
    requires IsTenantZeus(r) && r.accountId.Some?
    ensures ResolvePermissions(db, uid, r.accountId) == [Everything]
    ensures HasPermission(ResolvePermissions(db, uid, r.accountId), permission)
  {
    assert r in ApplicableRoles(db, uid, r.accountId);
  }

  /** A Tenant Zeus role never causes a bypass in any other context, with no
      context included, nor anywhere when the role itself is global: in those
      contexts a bypass needs some other role. */
  lemma TenantZeusOnlyInOwnTenant(db: Db, uid: UserId, ctx: Option<AccountId>)
    requires TenantBypass(db, uid, ctx)
    ensures ctx.Some?
    ensures exists r :: (r in db.roles && Membership(uid, r.id) in db.roleUser &&
                         IsTenantZeus(r) && r.accountId.Some? && r.accountId == ctx)
  {
    var r :| r in ApplicableRoles(db, uid, ctx) && IsTenantZeus(r) && r.accountId == ctx;
  }

  /** With no context, and no System Zeus role among the user's global roles,
      the result is plain grant expansion. */
  lemma NoContextNoTenantBypass(db: Db, uid: UserId)
    requires !SystemBypass(db, uid, None)
    ensures forall x :: x in ResolvePermissions(db, uid, None) <==> GrantedByRows(db, uid, None, x)
  {
  }

  /** The user's own grants in other accounts are invisible in this context;
      role grants count whatever account their row carries. */
  lemma DirectGrantScoping(db: Db, uid: UserId, ctx: Option<AccountId>, g: Grant)
    requires g in db.grants && g.assigneeType == UserAssignee && g.assigneeId == uid
    ensures Contributes(db, uid, ctx, g) <==> g.accountId.None? || (ctx.Some? && g.accountId == ctx)
  {
  }

  lemma RoleGrantIgnoresRowAccount(db: Db, uid: UserId, ctx: Option<AccountId>, g: Grant, a: Option<AccountId>)
    requires g.assigneeType == RoleAssignee
    ensures Contributes(db, uid, ctx, g) <==> Contributes(db, uid, ctx, g.(accountId := a))
  {
  }

  /** A user with no roles and no grants resolves to nothing, not an error. */
  lemma NoAssignmentsNoPermissions(db: Db, uid: UserId, ctx: Option<AccountId>)
    requires forall m :: m in db.roleUser ==> m.userId != uid
    requires forall g :: g in db.grants ==> g.assigneeType != UserAssignee || g.assigneeId != uid
    ensures ResolvePermissions(db, uid, ctx) == []
  {
    assert ApplicableRoles(db, uid, ctx) == {};
    forall x ensures !GrantedByRows(db, uid, ctx, x) {
    }
  }
}

=== FILE: grants.dfy ===
/** The unified grant table and the per-grant expansion rule
    (src/Models/AssignedPermission.php). */
module Grants {
  import opened Wrappers
  import opened Accounts
  import opened Catalog
  import opened Loose

  /** The `assignee_type` enum column. Tokens are allowed by the schema but
      nothing in the engine reads them. */
  datatype AssigneeType = UserAssignee | TokenAssignee | RoleAssignee

  function AssigneeTypeName(t: AssigneeType): string {
    match t
    case UserAssignee => "user"
    case TokenAssignee => "token"
    case RoleAssignee => "role"
  }

  /** Reads a column value back; anything outside the enum is rejected. */
  function ParseAssigneeType(s: string): (r: Option<AssigneeType>)
    ensures r.Some? ==> AssigneeTypeName(r.value) == s
  {
    if s == "user" then Some(UserAssignee)
    else if s == "token" then Some(TokenAssignee)
    else if s == "role" then Some(RoleAssignee)
    else None
  }

  lemma AssigneeTypeRoundTrip(t: AssigneeType)
    ensures ParseAssigneeType(AssigneeTypeName(t)) == Some(t)
  {
  }

  /** One `assigned_permissions` row. `accountId == None` is a global grant;
      `access == None` is a SQL `NULL` access column. */
  datatype Grant = Grant(
    accountId: Option<AccountId>,
    permissionId: PermissionId,
    assigneeId: nat,
    assigneeType: AssigneeType,
    access: Option<seq<string>>)

  /** The columns of the `unique_permission_assignment` index. */
  datatype GrantKey = GrantKey(
    permissionId: PermissionId,
    assigneeId: nat,
    assigneeType: AssigneeType,
    accountId: Option<AccountId>)

  function KeyOf(g: Grant): GrantKey {
    GrantKey(g.permissionId, g.assigneeId, g.assigneeType, g.accountId)
  }

  /** The row a key and an access value describe. */
  function GrantAt(k: GrantKey, access: Option<seq<string>>): (g: Grant)
    ensures KeyOf(g) == k && g.access == access
  {
    Grant(k.accountId, k.permissionId, k.assigneeId, k.assigneeType, access)
  }

  /** `hasAccessRestrictions`: PHP's `!empty`, so an empty list counts as no
      restriction at all, exactly like `NULL`. */
  function HasAccessRestrictions(access: Option<seq<string>>): (b: bool)
    ensures b <==> access.Some? && access.value != []
  {
    access.Some? && |access.value| > 0
  }

  /** `getExpandedPermissions`, given the grant's permission (`None` when the
      `permission` relation finds no row). */
  function ExpandedPermissions(g: Grant, perm: Option<Permission>): (r: seq<string>)
    ensures perm.None? ==> r == []
    ensures perm.Some? && perm.value.kind == OnOffType ==>
      r == (if HasAccessRestrictions(g.access) && "off" in g.access.value then [] else [perm.value.name])
    ensures perm.Some? && perm.value.kind == CrudType && !HasAccessRestrictions(g.access) ==>
      r == Expand(perm.value)
    ensures perm.Some? && perm.value.kind == CrudType && HasAccessRestrictions(g.access) ==>
      |r| == |g.access.value| &&
      forall i :: 0 <= i < |r| ==> r[i] == ActionName(perm.value.name, g.access.value[i])
    ensures perm.Some? && perm.value.kind != CrudType && perm.value.kind != OnOffType ==>
      r == [perm.value.name]
  {
    match perm
    case None => []
    case Some(p) =>
      if p.kind == OnOffType then
        if !HasAccessRestrictions(g.access) then [p.name]
        else if "off" in g.access.value then []
        else if "on" in g.access.value then [p.name]
        else [p.name]
      else if p.kind == CrudType then
        if !HasAccessRestrictions(g.access) then Expand(p)
        else
          var a := g.access.value;
          seq(|a|, i requires 0 <= i < |a| => ActionName(p.name, a[i]))
      else Expand(p)
  }

  /** `in_array('off', ...)` compares loosely, but `off` is not a numeric
      string, so among string entries it matches only itself. */
  lemma OffMatchesOnlyItself(access: seq<string>)
    ensures LooseIn("off", access) <==> "off" in access
  {
    TextualAt("off", 0);
    LooseInTextual("off", access);
  }

  /** For an `on-off` permission "off" is a veto: the grant contributes nothing
      exactly when a non-empty access list contains it, whatever else the list
      holds; otherwise it contributes the flag's name. */
  lemma OffOverrides(g: Grant, p: Permission)
    requires p.kind == OnOffType
    ensures ExpandedPermissions(g, Some(p)) == [] <==>
      g.access.Some? && "off" in g.access.value
    ensures ExpandedPermissions(g, Some(p)) != [] ==> ExpandedPermissions(g, Some(p)) == [p.name]
  {
  }

  /** For a bundle, a restriction allow-lists actions: the grant yields the
      action names of exactly the listed tokens. Listed CRUD actions narrow
      the full expansion; an unknown token yields a name outside it. */
  lemma CrudRestrictionAllowLists(g: Grant, p: Permission, x: string)
    requires p.kind == CrudType && HasAccessRestrictions(g.access)
    ensures x in ExpandedPermissions(g, Some(p)) <==>
      exists a :: a in g.access.value && x == ActionName(p.name, a)
    ensures (forall a :: a in g.access.value ==> a in CrudActions) ==>
      (x in ExpandedPermissions(g, Some(p)) ==> x in Expand(p))
  {
    var r := ExpandedPermissions(g, Some(p));
    var a := g.access.value;
    if x in r {
      var i :| 0 <= i < |r| && r[i] == x;
      assert a[i] in a && x == ActionName(p.name, a[i]);
      if forall t :: t in a ==> t in CrudActions {
        ExpandCrudMembers(p, x);
      }
    }
    if exists t :: t in a && x == ActionName(p.name, t) {
      var t :| t in a && x == ActionName(p.name, t);
      var i :| 0 <= i < |a| && a[i] == t;
      assert r[i] == x;
    }
  }

  /** `scopeForAccount`: with no account only global rows match; with an
      account, global rows and that account's rows match. */
  function ForAccount(rowAccount: Option<AccountId>, ctx: Option<AccountId>): bool {
    if ctx.None? then rowAccount.None?
    else rowAccount.None? || rowAccount == ctx
  }

  /** The kind of Eloquent model handed to `scopeForAssignee`. */
  datatype AssigneeModel = RoleModel(id: nat) | UserModel(id: nat) | OtherModel(id: nat)

  /** `getAssigneeType`: roles are `role`; the configured user class and,
      for now, every other class are `user`. Nothing ever maps to `token`. */
  function GetAssigneeType(m: AssigneeModel): (t: AssigneeType)
    ensures t != TokenAssignee
    ensures t == RoleAssignee <==> m.RoleModel?
  {
    if m.RoleModel? then RoleAssignee else UserAssignee
  }

  /** `scopeForAssignee` as a row predicate. */
  function ForAssignee(g: Grant, m: AssigneeModel): (b: bool)
    ensures b ==> g.assigneeType != TokenAssignee
  {
    g.assigneeId == m.id && g.assigneeType == GetAssigneeType(m)
  }
}

=== FILE: loose.dfy ===
/** PHP 8's loose `==` between two strings, the comparison `in_array` makes
    by default: two numeric strings are compared by the number they denote,
    any other pair by identity. Numbers are compared here as exact decimals;
    PHP compares them as 64-bit integers or as doubles. */
module Loose {
  import opened Wrappers
  import opened Strings

  /** The whitespace a numeric string may carry on either side. */
  predicate IsSpace(c: char) {
    c == ' ' || c == '\t' || c == '\n' || c == '\r' || c as int == 11 || c as int == 12
  }

  /** Every character a numeric string can contain. */
  predicate NumericChar(c: char) {
    IsDigit(c) || IsSpace(c) || c == '+' || c == '-' || c == '.' || c == 'e' || c == 'E'
  }

  /** The number `mantissa * 10^exponent`. */
  datatype Decimal = Decimal(mantissa: int, exponent: int)

  function Pow10(n: nat): (r: nat)
    ensures r >= 1
  {
    if n == 0 then 1 else 10 * Pow10(n - 1)
  }

  /** Two decimals denote the same number. */
  predicate SameValue(x: Decimal, y: Decimal) {
    var lo := if x.exponent <= y.exponent then x.exponent else y.exponent;
    x.mantissa * Pow10(x.exponent - lo) == y.mantissa * Pow10(y.exponent - lo)
  }

  function TrimStart(s: string): (r: string)
    ensures |r| <= |s| && r == s[|s| - |r|..]
    ensures forall i :: 0 <= i < |s| - |r| ==> IsSpace(s[i])
    decreases |s|
  {
    if |s| > 0 && IsSpace(s[0]) then TrimStart(s[1..]) else s
  }

  function TrimEnd(s: string): (r: string)
    ensures |r| <= |s| && r == s[..|r|]
    ensures forall i :: |r| <= i < |s| ==> IsSpace(s[i])
    decreases |s|
  {
    if |s| > 0 && IsSpace(s[|s| - 1]) then TrimEnd(s[..|s| - 1]) else s
  }

  /** The position of the first `a` or `b`, or the length when neither occurs. */
  function FirstIndex(s: string, a: char, b: char): (k: nat)
    ensures k <= |s|
    ensures forall i :: 0 <= i < k ==> s[i] != a && s[i] != b
    ensures k < |s| ==> s[k] == a || s[k] == b
    decreases |s|
  {
    if |s| == 0 || s[0] == a || s[0] == b then 0 else 1 + FirstIndex(s[1..], a, b)
  }

  /** `DIGITS`, `DIGITS.`, `DIGITS.DIGITS` or `.DIGITS`. */
  function ParseMantissa(m: string): Option<Decimal> {
    var j := FirstIndex(m, '.', '.');
    var whole := m[..j];
    var frac := if j < |m| then m[j + 1..] else [];
    if AllDigits(whole) && AllDigits(frac) && |whole| + |frac| > 0
    then Some(Decimal(DigitsValue(whole) * Pow10(|frac|) + DigitsValue(frac), -|frac|))
    else None
  }

  /** An optionally signed, non-empty run of digits. */
  function ParseExponent(x: string): Option<int> {
    if |x| > 0 && (x[0] == '+' || x[0] == '-') then
      var d := x[1..];
      if |d| > 0 && AllDigits(d) then
        var v: int := DigitsValue(d);
        Some(if x[0] == '-' then -v else v)
      else None
    else if |x| > 0 && AllDigits(x) then Some(DigitsValue(x))
    else None
  }

  /** A mantissa, then optionally `e` or `E` and an exponent. */
  function ParseUnsigned(t: string): Option<Decimal> {
    var k := FirstIndex(t, 'e', 'E');
    var mant := ParseMantissa(t[..k]);
    if mant.None? then None
    else if k == |t| then mant
    else
      match ParseExponent(t[k + 1..])
      case None => None
      case Some(e) => Some(Decimal(mant.value.mantissa, mant.value.exponent + e))
  }

  /** The value of a numeric string (whitespace, an optional sign, the
      number, whitespace), or `None` for any other string. */
  function ParseNumeric(s: string): Option<Decimal> {
    var t := TrimEnd(TrimStart(s));
    if |t| > 0 && (t[0] == '+' || t[0] == '-') then
      match ParseUnsigned(t[1..])
      case None => None
      case Some(d) => Some(if t[0] == '-' then Decimal(-d.mantissa, d.exponent) else d)
    else ParseUnsigned(t)
  }

  /** `$a == $b` for two strings. */
  function LooseEquals(a: string, b: string): (r: bool)
    ensures a == b ==> r
    ensures ParseNumeric(a).None? || ParseNumeric(b).None? ==> (r <==> a == b)
  {
    var x := ParseNumeric(a);
    var y := ParseNumeric(b);
    if x.Some? && y.Some? then SameValue(x.value, y.value) else a == b
  }

  lemma SameValueSymmetric(x: Decimal, y: Decimal)
    ensures SameValue(x, y) == SameValue(y, x)
  {
  }

  lemma LooseSymmetric(a: string, b: string)
    ensures LooseEquals(a, b) == LooseEquals(b, a)
  {
    var x := ParseNumeric(a);
    var y := ParseNumeric(b);
    if x.Some? && y.Some? {
      SameValueSymmetric(x.value, y.value);
    }
  }

  /** `in_array($needle, $haystack)` without the strict flag. */
  function LooseIn(needle: string, hay: seq<string>): (b: bool)
    ensures b <==> exists x :: x in hay && LooseEquals(x, needle)
    ensures needle in hay ==> b
    decreases |hay|
  {
    if |hay| == 0 then false
    else LooseEquals(hay[0], needle) || LooseIn(needle, hay[1..])
  }

  /** For a needle that is not numeric, loose membership is plain membership. */
  lemma LooseInExact(needle: string, hay: seq<string>)
    ensures ParseNumeric(needle).None? ==> (LooseIn(needle, hay) <==> needle in hay)
  {
  }

  lemma MantissaChars(m: string)
    requires ParseMantissa(m).Some?
    ensures forall i :: 0 <= i < |m| ==> IsDigit(m[i]) || m[i] == '.'
  {
    var j := FirstIndex(m, '.', '.');
    forall i | 0 <= i < |m| ensures IsDigit(m[i]) || m[i] == '.' {
      if i < j {
        assert m[..j][i] == m[i];
      } else if i > j {
        assert m[j + 1..][i - j - 1] == m[i];
      }
    }
  }

  lemma ExponentChars(x: string)
    requires ParseExponent(x).Some?
    ensures forall i :: 0 <= i < |x| ==> IsDigit(x[i]) || x[i] == '+' || x[i] == '-'
  {
    if x[0] == '+' || x[0] == '-' {
      forall i | 1 <= i < |x| ensures IsDigit(x[i]) {
        assert x[1..][i - 1] == x[i];
      }
    }
  }

  lemma UnsignedChars(t: string)
    requires ParseUnsigned(t).Some?
    ensures forall i :: 0 <= i < |t| ==> NumericChar(t[i])
  {
    var k := FirstIndex(t, 'e', 'E');
    MantissaChars(t[..k]);
    if k < |t| {
      ExponentChars(t[k + 1..]);
    }
    forall i | 0 <= i < |t| ensures NumericChar(t[i]) {
      if i < k {
        assert t[..k][i] == t[i];
      } else if i > k {
        assert t[k + 1..][i - k - 1] == t[i];
      }
    }
  }

  /** A numeric string is made of numeric characters only. */
  lemma NumericChars(s: string)
    ensures ParseNumeric(s).Some? ==> forall i :: 0 <= i < |s| ==> NumericChar(s[i])
  {
    var ts := TrimStart(s);
    var t := TrimEnd(ts);
    var a := |s| - |ts|;
    if |t| > 0 && (t[0] == '+' || t[0] == '-') {
      if ParseUnsigned(t[1..]).Some? {
        UnsignedChars(t[1..]);
        forall j | 1 <= j < |t| ensures NumericChar(t[j]) {
          assert t[1..][j - 1] == t[j];
        }
      }
    } else if ParseUnsigned(t).Some? {
      UnsignedChars(t);
    }
    if ParseNumeric(s).Some? {
      forall i | 0 <= i < |s| ensures NumericChar(s[i]) {
        if a <= i < a + |t| {
          assert s[i] == ts[i - a] == t[i - a];
        } else if i >= a + |t| {
          assert s[i] == ts[i - a];
        }
      }
    }
  }

  /** `s` holds a character no numeric string can contain. */
  predicate Textual(s: string) {
    exists i :: 0 <= i < |s| && !NumericChar(s[i])
  }

  /** A textual string is not numeric, so it compares by identity. */
  lemma NotNumeric(s: string)
    ensures Textual(s) ==> ParseNumeric(s).None?
  {
    NumericChars(s);
  }

  /** For a textual needle, loose membership is plain membership. */
  lemma LooseInTextual(needle: string, hay: seq<string>)
    ensures Textual(needle) ==> (LooseIn(needle, hay) <==> needle in hay)
  {
    NotNumeric(needle);
    LooseInExact(needle, hay);
  }

  lemma TextualAt(s: string, i: nat)
    requires i < |s| && !NumericChar(s[i])
    ensures Textual(s)
  {
  }

  /** Two numeric strings with the same value are loosely equal. */
  lemma LooseByValue(a: string, b: string, x: Decimal, y: Decimal)
    requires ParseNumeric(a) == Some(x) && ParseNumeric(b) == Some(y) && SameValue(x, y)
    ensures LooseEquals(a, b)
  {
  }

  lemma TrimOne()
    ensures TrimStart("1") == "1" && TrimEnd("1") == "1"
  {
    assert "1"[0] == '1' && !IsSpace('1');
  }

  lemma TrimZeroOne()
    ensures TrimStart("01") == "01" && TrimEnd("01") == "01"
  {
    assert "01"[0] == '0' && !IsSpace('0');
    assert "01"[1] == '1' && !IsSpace('1');
  }

  lemma DigitsOne()
    ensures AllDigits("1") && DigitsValue("1") == 1
  {
    assert "1"[..0] == "";
  }

  lemma DigitsZeroOne()
    ensures AllDigits("01") && DigitsValue("01") == 1
  {
    assert "01"[..1] == "0";
    assert "0"[..0] == "";
  }

  lemma UnsignedOne()
    ensures ParseUnsigned("1") == Some(Decimal(1, 0))
  {
    DigitsOne();
    assert FirstIndex("1", 'e', 'E') == 1;
    assert FirstIndex("1", '.', '.') == 1;
    assert "1"[..1] == "1";
  }

  lemma UnsignedZeroOne()
    ensures ParseUnsigned("01") == Some(Decimal(1, 0))
  {
    DigitsZeroOne();
    assert FirstIndex("01", 'e', 'E') == 2;
    assert FirstIndex("01", '.', '.') == 2;
    assert "01"[..2] == "01";
  }

  lemma ParseOne()
    ensures ParseNumeric("1") == Some(Decimal(1, 0))
  {
    TrimOne();
    UnsignedOne();
  }

  lemma ParseZeroOne()
    ensures ParseNumeric("01") == Some(Decimal(1, 0))
  {
    TrimZeroOne();
    UnsignedZeroOne();
  }

  /** Two different spellings of one are loosely equal. */
  lemma OneTwoWays()
    ensures LooseEquals("01", "1") && "01" != "1"
  {
    ParseOne();
    ParseZeroOne();
    LooseByValue("01", "1", Decimal(1, 0), Decimal(1, 0));
    assert |"01"| != |"1"|;
  }
}

=== FILE: management.dfy ===
/** The permission-management endpoints
    (src/Http/Controllers/PermissionManagementController.php): listing the
    catalogue, showing a subject's assignments, and replacing them. */
module Management {
  import opened Wrappers
  import opened Seqs
  import opened Accounts
  import opened Catalog
  import opened Roles
  import opened Grants
  import opened Store
  import opened Engine
  import opened Cache
  import opened Admin

  /** One entry of `index`. */
  datatype Listing = Listing(id: PermissionId, name: string, kind: string, actions: seq<string>)

  /** The actions the UI may offer: the four verbs for a bundle, a switch
      for anything else. */
  function AvailableActions(kind: string): (r: seq<string>)
    ensures kind == CrudType ==> r == CrudActions
    ensures kind != CrudType ==> r == ["on", "off"]
  {
    if kind == CrudType then CrudActions else ["on", "off"]
  }

  /** `index`: every permission, in table order. */
  function Index(db: Db): (r: seq<Listing>)
    ensures |r| == |db.permissions|
    ensures forall i :: 0 <= i < |r| ==>
      r[i] == Listing(db.permissions[i].id, db.permissions[i].name, db.permissions[i].kind,
                      AvailableActions(db.permissions[i].kind))
  {
    seq(|db.permissions|, i requires 0 <= i < |db.permissions| =>
      Listing(db.permissions[i].id, db.permissions[i].name, db.permissions[i].kind,
              AvailableActions(db.permissions[i].kind)))
  }

  /** For a bundle, the offered actions name exactly the engine's expansion. */
  lemma ListedActionsMatchExpansion(db: Db, i: nat)
    requires i < |db.permissions| && db.permissions[i].kind == CrudType
    ensures var l := Index(db)[i];
      |l.actions| == |Expand(db.permissions[i])| &&
      forall k :: 0 <= k < |l.actions| ==> ActionName(l.name, l.actions[k]) == Expand(db.permissions[i])[k]
  {
  }

  // ---------------------------------------------------------------- subjects

  datatype Subject = RoleSubject(role: Role) | UserSubject(id: UserId)

  /** Both failures answer 404. */
  datatype SubjectError = MissingSubject | UnknownType

  /** `resolveSubject`: only `role` and `user` are accepted, and the row
      must exist. */
  function ResolveSubject(db: Db, kind: string, id: nat): (r: Result<Subject, SubjectError>)
    ensures kind != "role" && kind != "user" ==> r == Failure(UnknownType)
    ensures kind == "role" ==>
      (r.Success? <==> FindRole(db.roles, id).Some?) &&
      (r.Success? ==> r.value == RoleSubject(FindRole(db.roles, id).value))
    ensures kind == "user" ==> (r.Success? <==> id in db.users) && (r.Success? ==> r.value == UserSubject(id))
    ensures r.Failure? ==> r.error == UnknownType || r.error == MissingSubject
  {
    if kind == "role" then
      match FindRole(db.roles, id)
      case None => Failure(MissingSubject)
      case Some(role) => Success(RoleSubject(role))
    else if kind == "user" then
      if id in db.users then Success(UserSubject(id)) else Failure(MissingSubject)
    else Failure(UnknownType)
  }

  /** A resolved subject names the assignee type of its grant rows. */
  lemma ResolvedTypeParses(db: Db, kind: string, id: nat)
    requires ResolveSubject(db, kind, id).Success?
    ensures ParseAssigneeType(kind).Some?
    ensures ParseAssigneeType(kind).value == if kind == "role" then RoleAssignee else UserAssignee
  {
  }

  function SubjectType(s: Subject): AssigneeType {
    match s
    case RoleSubject(_) => RoleAssignee
    case UserSubject(_) => UserAssignee
  }

  function SubjectId(s: Subject): nat {
    match s
    case RoleSubject(r) => r.id
    case UserSubject(u) => u
  }

  // ---------------------------------------------------------------- getAssigned

  /** One entry of `getAssigned`. */
  datatype Assigned = Assigned(id: PermissionId, name: string, kind: string, access: Option<seq<string>>)

  /** The access shown for a permission: a non-empty pivot list as stored;
      otherwise the four verbs for a bundle, `on` for a flag, and nothing
      for any other type. */
  function AssignedAccess(p: Permission, pivot: Option<seq<string>>): (r: Option<seq<string>>)
    ensures HasAccessRestrictions(pivot) ==> r == pivot
    ensures !HasAccessRestrictions(pivot) && p.kind == CrudType ==> r == Some(CrudActions)
    ensures !HasAccessRestrictions(pivot) && p.kind == OnOffType ==> r == Some(["on"])
    ensures !HasAccessRestrictions(pivot) && p.kind != CrudType && p.kind != OnOffType ==> r.None?
  {
    if HasAccessRestrictions(pivot) then pivot
    else if p.kind == CrudType then Some(CrudActions)
    else if p.kind == OnOffType then Some(["on"])
    else None
  }

  /** The default shown for a grant without restrictions says what the
      engine grants for it: every action of a bundle, or the switch on. */
  lemma DefaultAccessMatchesEngine(g: Grant, p: Permission)
    requires !HasAccessRestrictions(g.access) && (p.kind == CrudType || p.kind == OnOffType)
    ensures var shown := AssignedAccess(p, g.access).value;
      if p.kind == CrudType then
        ExpandedPermissions(g, Some(p)) == seq(|shown|, k requires 0 <= k < |shown| => ActionName(p.name, shown[k]))
      else
        shown == ["on"] && ExpandedPermissions(g, Some(p)) == [p.name]
  {
    if p.kind == CrudType {
      var shown := AssignedAccess(p, g.access).value;
      assert ExpandedPermissions(g, Some(p)) == Expand(p);
      assert |shown| == |Expand(p)|;
    }
  }

  function Describe(p: Permission): Assigned {
    Assigned(p.id, p.name, p.kind, AssignedAccess(p, None))
  }

  function HasRowFor(db: Db, subject: Subject, permId: PermissionId): bool {
    exists g :: g in db.grants && g.permissionId == permId &&
                g.assigneeType == SubjectType(subject) && g.assigneeId == SubjectId(subject)
  }

  /** `getAssigned`: the permissions the subject has at least one row for.
      The relation the controller queries carries no pivot, so no stored
      access list reaches the answer. */
  function GetAssigned(db: Db, kind: string, id: nat): (r: Result<seq<Assigned>, SubjectError>)
    ensures r.Failure? <==> ResolveSubject(db, kind, id).Failure?
    ensures r.Success? ==>
      var subject := ResolveSubject(db, kind, id).value;
      && |r.value| <= |db.permissions|
      && (forall a :: a in r.value <==>
            exists p :: p in db.permissions && HasRowFor(db, subject, p.id) &&
                        a == Describe(p))
  {
    match ResolveSubject(db, kind, id)
    case Failure(e) => Failure(e)
    case Success(subject) =>
      var ps := Filter(db.permissions, (p: Permission) => HasRowFor(db, subject, p.id));
      Success(Map(ps, Describe))
  }

  // ---------------------------------------------------------------- sync

  /** One entry of the `sync` payload. */
  datatype SyncItem = SyncItem(id: PermissionId, access: Option<seq<string>>, accountId: Option<AccountId>)

  /** The row `sync` creates for an entry: access verbatim, account only
      for a user. */
  function SyncRow(subject: Subject, item: SyncItem): (g: Grant)
    ensures g.permissionId == item.id && g.assigneeId == SubjectId(subject)
    ensures g.assigneeType == SubjectType(subject) && g.access == item.access
    ensures g.accountId == if subject.UserSubject? then item.accountId else None
  {
    Grant(if subject.UserSubject? then item.accountId else None, item.id, SubjectId(subject), SubjectType(subject), item.access)
  }

  function SyncRows(subject: Subject, items: seq<SyncItem>): (r: seq<Grant>)
    ensures |r| == |items|
    ensures forall i :: 0 <= i < |r| ==> r[i] == SyncRow(subject, items[i])
  {
    seq(|items|, i requires 0 <= i < |items| => SyncRow(subject, items[i]))
  }

  function OfSubject(subject: Subject): Grant -> bool {
    (g: Grant) => g.assigneeType == SubjectType(subject) && g.assigneeId == SubjectId(subject)
  }

  /** The users whose cache `sync` flushes. */
  function SyncFlush(db: Db, subject: Subject, c: CacheState): CacheState {
    match subject
    case UserSubject(u) => FlushCache(c, u, None)
    case RoleSubject(r) => FlushUsers(c, UsersOfRole(db, r.id))
  }

  /** `sync`: the subject's rows are deleted and one row is created per
      entry, in order; nothing else in the table changes. */
  function Sync(s: State, kind: string, id: nat, items: seq<SyncItem>): (r: Result<State, SubjectError>)
    ensures r.Failure? <==> ResolveSubject(s.db, kind, id).Failure?
    ensures r.Success? ==>
      var subject := ResolveSubject(s.db, kind, id).value;
      && r.value.db == s.db.(grants := r.value.db.grants)
      && Filter(r.value.db.grants, OfSubject(subject)) == SyncRows(subject, items)
      && Filter(r.value.db.grants, Keep(OfSubject(subject))) == Filter(s.db.grants, Keep(OfSubject(subject)))
      && r.value.cache == SyncFlush(s.db, subject, s.cache)
  {
    match ResolveSubject(s.db, kind, id)
    case Failure(e) => Failure(e)
    case Success(subject) =>
      var kept := Filter(s.db.grants, Keep(OfSubject(subject)));
      var created := SyncRows(subject, items);
      var grants := kept + created;
      FilterAppend(kept, created, OfSubject(subject));
      FilterAppend(kept, created, Keep(OfSubject(subject)));
      SyncSplit(s.db.grants, subject, created);
      Success(State(s.db.(grants := grants), SyncFlush(s.db, subject, s.cache)))
  }

  /** The two halves `Sync` relies on: the kept rows are none of the
      subject's, and the created rows all are. */
  lemma SyncSplit(gs: seq<Grant>, subject: Subject, created: seq<Grant>)
    requires forall i :: 0 <= i < |created| ==> OfSubject(subject)(created[i])
    ensures Filter(Filter(gs, Keep(OfSubject(subject))), OfSubject(subject)) == []
    ensures Filter(created, OfSubject(subject)) == created
    ensures Filter(created, Keep(OfSubject(subject))) == []
    ensures Filter(Filter(gs, Keep(OfSubject(subject))), Keep(OfSubject(subject))) == Filter(gs, Keep(OfSubject(subject)))
  {
    var kept := Filter(gs, Keep(OfSubject(subject)));
    FilterNone(kept, OfSubject(subject));
    FilterAll(created, OfSubject(subject));
    FilterNone(created, Keep(OfSubject(subject)));
    FilterAll(kept, Keep(OfSubject(subject)));
  }

  /** A filter that rejects every element is empty. */
  lemma {:induction false} FilterNone<T(!new)>(s: seq<T>, keep: T -> bool)
    requires forall i :: 0 <= i < |s| ==> !keep(s[i])
    ensures Filter(s, keep) == []
  {
    if |s| > 0 {
      FilterNone(s[1..], keep);
    }
  }

  /** Entries with pairwise different keys keep the grant key unique. */
  lemma SyncPreservesUnique(s: State, kind: string, id: nat, items: seq<SyncItem>)
    requires UniqueBy(s.db.grants, KeyOf)
    requires ResolveSubject(s.db, kind, id).Success?
    requires var subject := ResolveSubject(s.db, kind, id).value;
      UniqueBy(SyncRows(subject, items), KeyOf)
    ensures UniqueBy(Sync(s, kind, id, items).value.db.grants, KeyOf)
  {
    var subject := ResolveSubject(s.db, kind, id).value;
    var kept := Filter(s.db.grants, Keep(OfSubject(subject)));
    var created := SyncRows(subject, items);
    FilterUniqueBy(s.db.grants, Keep(OfSubject(subject)), KeyOf);
    var all := kept + created;
    assert Sync(s, kind, id, items).value.db.grants == all;
    forall i, j | 0 <= i < j < |all| ensures KeyOf(all[i]) != KeyOf(all[j]) {
      if j < |kept| {
        assert all[i] == kept[i] && all[j] == kept[j];
      } else if i >= |kept| {
        assert all[i] == created[i - |kept|] && all[j] == created[j - |kept|];
      } else {
        assert all[i] == kept[i] && all[i] in kept;
        assert all[j] == created[j - |kept|];
        assert !OfSubject(subject)(all[i]);
        assert OfSubject(subject)(all[j]);
      }
    }
  }

  /** Syncing an empty payload removes every row of the subject. */
  lemma SyncEmptyClears(s: State, kind: string, id: nat)
    requires ResolveSubject(s.db, kind, id).Success?
    ensures var subject := ResolveSubject(s.db, kind, id).value;
      forall g :: g in Sync(s, kind, id, []).value.db.grants ==> !OfSubject(subject)(g)
  {
  }
}

=== FILE: observers.dfy ===
/** The model observers (src/Observers): every save or delete of a
    Permission or a Role increments the shared version counter and touches
    nothing else. What the store does when it increments a missing key is
    its own business, so that value is a parameter (`onMissing`). */
module Observers {
  import opened Wrappers
  import opened Accounts
  import opened Store
  import opened Engine
  import opened Cache

  /** `Cache::increment('awesome_abac_version')`. */
  function Increment(c: CacheState, onMissing: nat): (r: CacheState)
    ensures r.entries == c.entries
    ensures c.version.Some? ==> r.version == Some(c.version.value + 1)
    ensures c.version.None? ==> r.version == Some(onMissing)
  {
    match c.version
    case Some(v) => c.(version := Some(v + 1))
    case None => c.(version := Some(onMissing))
  }

  datatype ModelEvent = PermissionSaved | PermissionDeleted | RoleSaved | RoleDeleted

  /** Each of the four hooks does the same thing: one increment of the
      counter, and no entry is touched. */
  function Observe(c: CacheState, e: ModelEvent, onMissing: nat): (r: CacheState)
    ensures r.entries == c.entries
    ensures c.version.Some? ==> r.version == Some(c.version.value + 1)
    ensures c.version.None? ==> r.version == Some(onMissing)
  {
    match e
    case PermissionSaved => Increment(c, onMissing)
    case PermissionDeleted => Increment(c, onMissing)
    case RoleSaved => Increment(c, onMissing)
    case RoleDeleted => Increment(c, onMissing)
  }

  function ObserveAll(c: CacheState, events: seq<ModelEvent>, onMissing: nat): CacheState
    decreases |events|
  {
    if |events| == 0 then c else ObserveAll(Observe(c, events[0], onMissing), events[1..], onMissing)
  }

  /** Once the counter exists it goes up by exactly one per event and no
      cached entry is removed: old entries are orphaned, not deleted. */
  lemma {:induction false} VersionCountsEvents(c: CacheState, events: seq<ModelEvent>, onMissing: nat)
    requires c.version.Some?
    ensures ObserveAll(c, events, onMissing).version == Some(c.version.value + |events|)
    ensures ObserveAll(c, events, onMissing).entries == c.entries
    decreases |events|
  {
    if |events| > 0 {
      VersionCountsEvents(Observe(c, events[0], onMissing), events[1..], onMissing);
    }
  }

  /** A bump that raises the version makes every later lookup miss until it
      is recomputed, so any database change the bump follows is seen: the
      store is coherent with the new database. */
  lemma BumpRestoresCoherence(c: CacheState, onMissing: nat, db': Db)
    requires NoEntriesAbove(c)
    requires c.version.Some? || onMissing > 1
    ensures EffectiveVersion(Increment(c, onMissing)) > EffectiveVersion(c)
    ensures Coherent(Increment(c, onMissing), db')
    ensures NoEntriesAbove(Increment(c, onMissing))
  {
  }

  /** After a bump from an existing counter, the next `getPermissions`
      computes afresh on the changed database. */
  lemma BumpThenRecompute(db': Db, uid: UserId, ctx: Option<AccountId>, c: CacheState, onMissing: nat)
    requires NoEntriesAbove(c) && c.version.Some?
    ensures GetPermissions(db', Some(uid), ctx, Increment(c, onMissing)).perms == ResolvePermissions(db', uid, ctx)
  {
    var c' := Increment(c, onMissing);
    assert PermsKey(EffectiveVersion(c'), uid, ctx) !in c'.entries;
    MissRecomputes(db', uid, ctx, c');
  }

  /** When the counter is absent and the store's increment writes 1, the
      version the engine reads does not move: entries cached while the
      counter was absent stay visible after the bump. */
  lemma AbsentCounterBumpKeepsKeys(c: CacheState, uid: UserId, ctx: Option<AccountId>)
    requires c.version.None?
    ensures PermsKey(EffectiveVersion(Increment(c, 1)), uid, ctx) == PermsKey(EffectiveVersion(c), uid, ctx)
  {
  }
}

=== FILE: roles.dfy ===
/** Roles and their bypass ("Zeus") level (src/Models/Role.php). */
module Roles {
  import opened Wrappers
  import opened Accounts

  type RoleId = nat

  /** `zeus_level` values: `none` is the column default. */
  const SystemLevel: string := "system"
  const TenantLevel: string := "tenant"
  const NoLevel: string := "none"

  /** A role row; a `None` account is a global role. */
  datatype Role = Role(id: RoleId, accountId: Option<AccountId>, name: string, zeusLevel: string)

  function IsSystemZeus(r: Role): (b: bool)
    ensures b ==> !IsTenantZeus(r)
  {
    r.zeusLevel == SystemLevel
  }

  function IsTenantZeus(r: Role): bool {
    r.zeusLevel == TenantLevel
  }

  /** The default level grants no bypass of either kind. */
  lemma DefaultLevelNoBypass(r: Role)
    requires r.zeusLevel == NoLevel
    ensures !IsSystemZeus(r) && !IsTenantZeus(r)
  {
  }

  /** `Role::find($id)` over the table in row order. */
  function FindRole(rs: seq<Role>, id: RoleId): (r: Option<Role>)
    ensures r.Some? ==> r.value in rs && r.value.id == id
    ensures r.None? <==> forall x :: x in rs ==> x.id != id
  {
    if |rs| == 0 then None
    else if rs[0].id == id then Some(rs[0])
    else FindRole(rs[1..], id)
  }
}

=== FILE: scenarios.dfy ===
/** The situations the integration tests set up, as concrete databases,
    with what the engine answers in each. */
module Scenarios {
  import opened Wrappers
  import opened Accounts
  import opened Catalog
  import opened Roles
  import opened Grants
  import opened Store
  import opened Engine
  import opened Cache
  import opened Observers
  import opened Loose

  function RoleGrant(permId: PermissionId, roleId: RoleId, access: Option<seq<string>>): Grant {
    Grant(None, permId, roleId, RoleAssignee, access)
  }

  function PlainRole(id: RoleId, account: Option<AccountId>, name: string): Role {
    Role(id, account, name, NoLevel)
  }

  /** When a single row can contribute, what the user is granted is what
      that row expands to. */
  lemma SingleSource(db: Db, uid: UserId, ctx: Option<AccountId>, k: nat, x: string)
    requires k < |db.grants|
    requires forall i :: 0 <= i < |db.grants| && i != k ==> !Contributes(db, uid, ctx, db.grants[i])
    ensures GrantedByRows(db, uid, ctx, x) <==>
      Contributes(db, uid, ctx, db.grants[k]) && x in GrantExpansion(db, db.grants[k])
  {
    if GrantedByRows(db, uid, ctx, x) {
      var g :| g in db.grants && Contributes(db, uid, ctx, g) && x in GrantExpansion(db, g);
      var i :| 0 <= i < |db.grants| && db.grants[i] == g;
    }
  }

  // ---------------------------------------------------------------- pivot access

  /** A bundle granted to an editor role without delete and to a viewer
      role with read only. */
  function PivotDb(): Db {
    Db([], [PlainRole(1, None, "Editor"), PlainRole(2, None, "Viewer")],
       [Permission(1, "posts", CrudType)],
       [RoleGrant(1, 1, Some(["create", "read", "update"])), RoleGrant(1, 2, Some(["read"]))],
       {Membership(10, 1), Membership(11, 2)}, {10, 11})
  }

  lemma PivotExpansions()
    ensures GrantExpansion(PivotDb(), PivotDb().grants[0]) == ["posts:create", "posts:read", "posts:update"]
    ensures GrantExpansion(PivotDb(), PivotDb().grants[1]) == ["posts:read"]
  {
    var db := PivotDb();
    assert FindPermission(db.permissions, 1) == Some(db.permissions[0]);
    assert ActionName("posts", "create") == "posts:create";
    assert ActionName("posts", "read") == "posts:read";
    assert ActionName("posts", "update") == "posts:update";
  }

  lemma PivotEditorRows()
    ensures !Bypass(PivotDb(), 10, None) && !GrantedByRows(PivotDb(), 10, None, Everything)
    ensures GrantedByRows(PivotDb(), 10, None, "posts:create") && GrantedByRows(PivotDb(), 10, None, "posts:update")
    ensures !GrantedByRows(PivotDb(), 10, None, "posts:delete")
  {
    var db := PivotDb();
    PivotExpansions();
    assert !Bypass(db, 10, None);
    assert db.roles[0] in db.roles;
    assert Contributes(db, 10, None, db.grants[0]);
    assert !Contributes(db, 10, None, db.grants[1]);
    SingleSource(db, 10, None, 0, "posts:create");
    SingleSource(db, 10, None, 0, "posts:update");
    SingleSource(db, 10, None, 0, "posts:delete");
    SingleSource(db, 10, None, 0, Everything);
  }

  lemma PivotAccessEditor()
    ensures var ed := ResolvePermissions(PivotDb(), 10, None);
      HasPermission(ed, "posts:create") && HasPermission(ed, "posts:update") && !HasPermission(ed, "posts:delete")
  {
    TextualAt("posts:create", 0);
    TextualAt("posts:update", 0);
    TextualAt("posts:delete", 0);
    PivotEditorRows();
    HasPermissionByRowsTextual(PivotDb(), 10, None, "posts:create");
    HasPermissionByRowsTextual(PivotDb(), 10, None, "posts:update");
    HasPermissionByRowsTextual(PivotDb(), 10, None, "posts:delete");
  }

  lemma PivotViewerRows()
    ensures !Bypass(PivotDb(), 11, None) && !GrantedByRows(PivotDb(), 11, None, Everything)
    ensures GrantedByRows(PivotDb(), 11, None, "posts:read")
    ensures !GrantedByRows(PivotDb(), 11, None, "posts:create") && !GrantedByRows(PivotDb(), 11, None, "posts:update")
  {
    var db := PivotDb();
    PivotExpansions();
    assert !Bypass(db, 11, None);
    assert db.roles[1] in db.roles;
    assert Contributes(db, 11, None, db.grants[1]);
    assert GrantedByRows(db, 11, None, "posts:read");
    assert !Contributes(db, 11, None, db.grants[0]);
  }

  lemma PivotAccessViewer()
    ensures var vi := ResolvePermissions(PivotDb(), 11, None);
      HasPermission(vi, "posts:read") && !HasPermission(vi, "posts:create") && !HasPermission(vi, "posts:update")
  {
    TextualAt("posts:read", 0);
    TextualAt("posts:create", 0);
    TextualAt("posts:update", 0);
    PivotViewerRows();
    HasPermissionByRowsTextual(PivotDb(), 11, None, "posts:read");
    HasPermissionByRowsTextual(PivotDb(), 11, None, "posts:create");
    HasPermissionByRowsTextual(PivotDb(), 11, None, "posts:update");
  }

  // ---------------------------------------------------------------- on-off

  /** A flag switched on for one role, off for another, and granted
      without access to a third. */
  function OnOffDb(): Db {
    Db([], [PlainRole(1, None, "Active User"), PlainRole(2, None, "Denied User"), PlainRole(3, None, "Default User")],
       [Permission(1, "view.dashboard", OnOffType)],
       [RoleGrant(1, 1, Some(["on"])), RoleGrant(1, 2, Some(["off"])), RoleGrant(1, 3, None)],
       {Membership(10, 1), Membership(11, 2), Membership(12, 3)}, {10, 11, 12})
  }

  lemma OnOffExpansions()
    ensures GrantExpansion(OnOffDb(), OnOffDb().grants[0]) == ["view.dashboard"]
    ensures GrantExpansion(OnOffDb(), OnOffDb().grants[1]) == []
    ensures GrantExpansion(OnOffDb(), OnOffDb().grants[2]) == ["view.dashboard"]
  {
    var db := OnOffDb();
    assert FindPermission(db.permissions, 1) == Some(db.permissions[0]);
  }

  /** A role's users are exactly its members in this database. */
  lemma OnOffMember(uid: UserId, k: nat)
    requires k < 3 && uid == 10 + k
    ensures forall g :: g in OnOffDb().grants && Contributes(OnOffDb(), uid, None, g) ==> g == OnOffDb().grants[k]
    ensures Contributes(OnOffDb(), uid, None, OnOffDb().grants[k])
    ensures !Bypass(OnOffDb(), uid, None)
  {
    var db := OnOffDb();
    assert db.roles[k] in db.roles && Membership(uid, db.roles[k].id) in db.roleUser;
  }

  lemma OnOffRows()
    ensures !Bypass(OnOffDb(), 10, None) && !GrantedByRows(OnOffDb(), 10, None, Everything)
    ensures !Bypass(OnOffDb(), 11, None) && !GrantedByRows(OnOffDb(), 11, None, Everything)
    ensures !Bypass(OnOffDb(), 12, None) && !GrantedByRows(OnOffDb(), 12, None, Everything)
    ensures GrantedByRows(OnOffDb(), 10, None, "view.dashboard") && GrantedByRows(OnOffDb(), 12, None, "view.dashboard")
    ensures !GrantedByRows(OnOffDb(), 11, None, "view.dashboard")
  {
    var db := OnOffDb();
    OnOffExpansions();
    OnOffMember(10, 0);
    OnOffMember(11, 1);
    OnOffMember(12, 2);
    assert GrantedByRows(db, 10, None, "view.dashboard") && GrantedByRows(db, 12, None, "view.dashboard");
  }

  lemma OnOffScenario()
    ensures HasPermission(ResolvePermissions(OnOffDb(), 10, None), "view.dashboard")
    ensures !HasPermission(ResolvePermissions(OnOffDb(), 11, None), "view.dashboard")
    ensures HasPermission(ResolvePermissions(OnOffDb(), 12, None), "view.dashboard")
  {
    TextualAt("view.dashboard", 0);
    OnOffRows();
    HasPermissionByRowsTextual(OnOffDb(), 10, None, "view.dashboard");
    HasPermissionByRowsTextual(OnOffDb(), 11, None, "view.dashboard");
    HasPermissionByRowsTextual(OnOffDb(), 12, None, "view.dashboard");
  }

  // ---------------------------------------------------------------- bundle or single flag

  /** The bundle `posts` for an admin role; a flag literally named
      `posts:read` for a viewer role. */
  function ReadOnlyDb(): Db {
    Db([], [PlainRole(1, None, "Admin"), PlainRole(2, None, "Viewer")],
       [Permission(1, "posts", CrudType), Permission(2, "posts:read", OnOffType)],
       [RoleGrant(1, 1, None), RoleGrant(2, 2, None)],
       {Membership(10, 1), Membership(11, 2)}, {10, 11})
  }

  lemma ReadOnlyExpansions()
    ensures GrantExpansion(ReadOnlyDb(), ReadOnlyDb().grants[0]) == ["posts:create", "posts:read", "posts:update", "posts:delete"]
    ensures GrantExpansion(ReadOnlyDb(), ReadOnlyDb().grants[1]) == ["posts:read"]
  {
    var db := ReadOnlyDb();
    assert FindPermission(db.permissions, 1) == Some(db.permissions[0]);
    assert FindPermission(db.permissions, 2) == Some(db.permissions[1]);
    assert ActionName("posts", "create") == "posts:create";
    assert ActionName("posts", "read") == "posts:read";
    assert ActionName("posts", "update") == "posts:update";
    assert ActionName("posts", "delete") == "posts:delete";
  }

  lemma ReadOnlyAdminRows()
    ensures !Bypass(ReadOnlyDb(), 10, None) && !GrantedByRows(ReadOnlyDb(), 10, None, Everything)
    ensures GrantedByRows(ReadOnlyDb(), 10, None, "posts:create") && GrantedByRows(ReadOnlyDb(), 10, None, "posts:read")
    ensures GrantedByRows(ReadOnlyDb(), 10, None, "posts:delete")
  {
    var db := ReadOnlyDb();
    ReadOnlyExpansions();
    assert !Bypass(db, 10, None);
    assert db.roles[0] in db.roles;
    assert Contributes(db, 10, None, db.grants[0]) && !Contributes(db, 10, None, db.grants[1]);
    SingleSource(db, 10, None, 0, "posts:create");
    SingleSource(db, 10, None, 0, "posts:read");
    SingleSource(db, 10, None, 0, "posts:delete");
    SingleSource(db, 10, None, 0, Everything);
  }

  lemma ReadOnlyAdmin()
    ensures var admin := ResolvePermissions(ReadOnlyDb(), 10, None);
      HasPermission(admin, "posts:create") && HasPermission(admin, "posts:read") && HasPermission(admin, "posts:delete")
  {
    TextualAt("posts:create", 0);
    TextualAt("posts:read", 0);
    TextualAt("posts:delete", 0);
    ReadOnlyAdminRows();
    HasPermissionByRowsTextual(ReadOnlyDb(), 10, None, "posts:create");
    HasPermissionByRowsTextual(ReadOnlyDb(), 10, None, "posts:read");
    HasPermissionByRowsTextual(ReadOnlyDb(), 10, None, "posts:delete");
  }

  /** A flag named like an action grants that string and nothing of the
      bundle. */
  lemma ReadOnlyViewerRows()
    ensures !Bypass(ReadOnlyDb(), 11, None) && !GrantedByRows(ReadOnlyDb(), 11, None, Everything)
    ensures GrantedByRows(ReadOnlyDb(), 11, None, "posts:read")
    ensures !GrantedByRows(ReadOnlyDb(), 11, None, "posts:create") && !GrantedByRows(ReadOnlyDb(), 11, None, "posts:delete")
  {
    var db := ReadOnlyDb();
    ReadOnlyExpansions();
    assert !Bypass(db, 11, None);
    assert db.roles[1] in db.roles;
    assert Contributes(db, 11, None, db.grants[1]) && !Contributes(db, 11, None, db.grants[0]);
    SingleSource(db, 11, None, 1, "posts:read");
    SingleSource(db, 11, None, 1, "posts:create");
    SingleSource(db, 11, None, 1, "posts:delete");
    SingleSource(db, 11, None, 1, Everything);
  }

  lemma ReadOnlyViewer()
    ensures var viewer := ResolvePermissions(ReadOnlyDb(), 11, None);
      HasPermission(viewer, "posts:read") && !HasPermission(viewer, "posts:create") && !HasPermission(viewer, "posts:delete")
  {
    TextualAt("posts:read", 0);
    TextualAt("posts:create", 0);
    TextualAt("posts:delete", 0);
    ReadOnlyViewerRows();
    HasPermissionByRowsTextual(ReadOnlyDb(), 11, None, "posts:read");
    HasPermissionByRowsTextual(ReadOnlyDb(), 11, None, "posts:create");
    HasPermissionByRowsTextual(ReadOnlyDb(), 11, None, "posts:delete");
  }

  // ---------------------------------------------------------------- tenancy

  /** A flag granted to the user directly in account 1 and through a role of
      account 1; the user also holds an empty role of account 2. */
  function TenancyDb(): Db {
    Db([Account(1, "A", "a", None), Account(2, "B", "b", None)],
       [PlainRole(1, Some(1), "Role A"), PlainRole(2, Some(2), "Role B")],
       [Permission(1, "view_dashboard", OnOffType)],
       [Grant(Some(1), 1, 10, UserAssignee, None), RoleGrant(1, 1, None)],
       {Membership(10, 1), Membership(10, 2)}, {10})
  }

  lemma TenancyNoBypass(ctx: Option<AccountId>)
    ensures !Bypass(TenancyDb(), 10, ctx)
  {
  }

  lemma TenancyInA()
    ensures HasPermission(ResolvePermissions(TenancyDb(), 10, Some(1)), "view_dashboard")
  {
    TextualAt("view_dashboard", 0);
    var db := TenancyDb();
    TenancyNoBypass(Some(1));
    assert FindPermission(db.permissions, 1) == Some(db.permissions[0]);
    assert Contributes(db, 10, Some(1), db.grants[0]);
    assert "view_dashboard" in GrantExpansion(db, db.grants[0]);
    assert GrantedByRows(db, 10, Some(1), "view_dashboard");
    assert !GrantedByRows(db, 10, Some(1), Everything);
    HasPermissionByRowsTextual(db, 10, Some(1), "view_dashboard");
  }

  lemma TenancyElsewhere(ctx: Option<AccountId>)
    requires ctx == Some(2) || ctx == None
    ensures !HasPermission(ResolvePermissions(TenancyDb(), 10, ctx), "view_dashboard")
  {
    TextualAt("view_dashboard", 0);
    var db := TenancyDb();
    TenancyNoBypass(ctx);
    assert !Contributes(db, 10, ctx, db.grants[0]);
    assert !Contributes(db, 10, ctx, db.grants[1]) by {
      assert forall r :: r in db.roles && r.id == 1 ==> r == db.roles[0];
    }
    assert !GrantedByRows(db, 10, ctx, "view_dashboard");
    assert !GrantedByRows(db, 10, ctx, Everything);
    HasPermissionByRowsTextual(db, 10, ctx, "view_dashboard");
  }

  // ---------------------------------------------------------------- toggling through the cache

  /** A flag granted to a user directly with the given access. */
  function ToggleDb(access: seq<string>): Db {
    Db([], [], [Permission(1, "feature.beta", OnOffType)], [Grant(None, 1, 10, UserAssignee, Some(access))], {}, {10})
  }

  lemma ToggleResolution(access: seq<string>)
    requires access == ["on"] || access == ["off"]
    ensures HasPermission(ResolvePermissions(ToggleDb(access), 10, None), "feature.beta") <==> access == ["on"]
  {
    TextualAt("feature.beta", 0);
    var db := ToggleDb(access);
    assert !Bypass(db, 10, None);
    assert Contributes(db, 10, None, db.grants[0]);
    if access == ["on"] {
      assert GrantedByRows(db, 10, None, "feature.beta");
    } else {
      assert GrantExpansion(db, db.grants[0]) == [];
    }
  }

  /** Creating the permission fires the observer, which creates the
      counter at 1; the test's own increment then moves it to 2, so the
      switched-off flag is seen. */
  lemma ToggleWithCounter()
    ensures var c1 := Observe(CacheState(None, map[]), PermissionSaved, 1);
      var first := Check(ToggleDb(["on"]), Some(10), None, c1, "feature.beta");
      var second := Check(ToggleDb(["off"]), Some(10), None, Increment(first.1, 1), "feature.beta");
      first.0 && !second.0
  {
    TextualAt("feature.beta", 0);
    var c1 := Observe(CacheState(None, map[]), PermissionSaved, 1);
    var on := ToggleDb(["on"]);
    var off := ToggleDb(["off"]);
    CheckTransparent(on, 10, None, c1, "feature.beta");
    ToggleResolution(["on"]);
    var first := Check(on, Some(10), None, c1, "feature.beta");
    BumpRestoresCoherence(first.1, 1, off);
    CheckTransparent(off, 10, None, Increment(first.1, 1), "feature.beta");
    ToggleResolution(["off"]);
  }

  /** Had no observer run first, the increment would create the counter at
      1, the version read would stay 1, and the stale answer would be
      served. */
  lemma ToggleWithoutCounter()
    ensures var c0 := CacheState(None, map[]);
      var first := Check(ToggleDb(["on"]), Some(10), None, c0, "feature.beta");
      var second := Check(ToggleDb(["off"]), Some(10), None, Increment(first.1, 1), "feature.beta");
      first.0 && second.0
  {
    TextualAt("feature.beta", 0);
    var c0 := CacheState(None, map[]);
    var on := ToggleDb(["on"]);
    ToggleResolution(["on"]);
    var perms := ResolvePermissions(on, 10, None);
    assert perms != [];
    var first := Check(on, Some(10), None, c0, "feature.beta");
    var key := PermsKey(1, 10, None);
    assert first.1.entries[key] == perms;
    AbsentCounterBumpKeepsKeys(c0, 10, None);
  }
}

=== FILE: seqs.dfy ===
/** Sequence helpers shared by the model: row filtering (`where ... ->get()`),
    concatenation of per-row results (`array_merge` in a loop) and
    first-occurrence de-duplication (`array_unique`). */
module Seqs {

  /** No element occurs twice. */
  ghost predicate NoDuplicates<T>(s: seq<T>) {
    forall i, j :: 0 <= i < j < |s| ==> s[i] != s[j]
  }

  /** No two elements share a key (a composite unique index). */
  ghost predicate UniqueBy<T, K>(s: seq<T>, key: T -> K) {
    forall i, j :: 0 <= i < j < |s| ==> key(s[i]) != key(s[j])
  }

  /** The elements of `s` that satisfy `keep`, in their original order. */
  function Filter<T(!new)>(s: seq<T>, keep: T -> bool): (r: seq<T>)
    ensures |r| <= |s|
    ensures forall x :: x in r <==> x in s && keep(x)
    ensures forall i :: 0 <= i < |r| ==> keep(r[i])
  {
    if |s| == 0 then []
    else if keep(s[0]) then [s[0]] + Filter(s[1..], keep)
    else Filter(s[1..], keep)
  }

  lemma {:induction false} FilterAppend<T(!new)>(a: seq<T>, b: seq<T>, keep: T -> bool)
    ensures Filter(a + b, keep) == Filter(a, keep) + Filter(b, keep)
  {
    if |a| == 0 {
      assert a + b == b;
    } else {
      assert (a + b)[1..] == a[1..] + b;
      FilterAppend(a[1..], b, keep);
    }
  }

  /** Filtering keeps everything when every element is kept. */
  lemma {:induction false} FilterAll<T(!new)>(s: seq<T>, keep: T -> bool)
    requires forall i :: 0 <= i < |s| ==> keep(s[i])
    ensures Filter(s, keep) == s
  {
    if |s| > 0 {
      FilterAll(s[1..], keep);
    }
  }

  /** Filtering with two predicates that agree on `s` gives the same rows. */
  lemma {:induction false} FilterCongruent<T(!new)>(s: seq<T>, p: T -> bool, q: T -> bool)
    requires forall i :: 0 <= i < |s| ==> p(s[i]) == q(s[i])
    ensures Filter(s, p) == Filter(s, q)
  {
    if |s| > 0 {
      FilterCongruent(s[1..], p, q);
    }
  }

  /** A unique index stays unique when rows are removed. */
  lemma {:induction false} FilterUniqueBy<T(!new), K>(s: seq<T>, keep: T -> bool, key: T -> K)
    requires UniqueBy(s, key)
    ensures UniqueBy(Filter(s, keep), key)
  {
    if |s| > 0 {
      var rest := Filter(s[1..], keep);
      assert UniqueBy(s[1..], key) by {
        forall i, j | 0 <= i < j < |s[1..]|
          ensures key(s[1..][i]) != key(s[1..][j])
        {
          assert s[1..][i] == s[i + 1] && s[1..][j] == s[j + 1];
        }
      }
      FilterUniqueBy(s[1..], keep, key);
      if keep(s[0]) {
        var r := [s[0]] + rest;
        forall i, j | 0 <= i < j < |r|
          ensures key(r[i]) != key(r[j])
        {
          if i == 0 {
            assert r[j] in s[1..];
            var k :| 0 <= k < |s[1..]| && s[1..][k] == r[j];
            assert s[k + 1] == r[j];
          } else {
            assert r[i] == rest[i - 1] && r[j] == rest[j - 1];
          }
        }
      }
    }
  }

  /** The concatenation, in order, of `f` applied to each element of `s`. */
  function FlatMap<T(!new), U(!new)>(s: seq<T>, f: T -> seq<U>): (r: seq<U>)
    ensures forall y :: y in r <==> exists x :: x in s && y in f(x)
  {
    if |s| == 0 then []
    else
      var rest := FlatMap(s[1..], f);
      assert forall x :: x in s <==> x == s[0] || x in s[1..];
      f(s[0]) + rest
  }

  /** `f` applied to each element of `s`, in order. */
  function Map<T(!new), U(!new)>(s: seq<T>, f: T -> U): (r: seq<U>)
    ensures |r| == |s|
    ensures forall i :: 0 <= i < |s| ==> r[i] == f(s[i])
    ensures forall y :: y in r <==> exists x :: x in s && y == f(x)
  {
    if |s| == 0 then []
    else
      var rest := Map(s[1..], f);
      assert forall x :: x in s <==> x == s[0] || x in s[1..];
      [f(s[0])] + rest
  }

  lemma {:induction false} FlatMapAppend<T(!new), U(!new)>(a: seq<T>, b: seq<T>, f: T -> seq<U>)
    ensures FlatMap(a + b, f) == FlatMap(a, f) + FlatMap(b, f)
  {
    if |a| == 0 {
      assert a + b == b;
    } else {
      assert (a + b)[1..] == a[1..] + b;
      FlatMapAppend(a[1..], b, f);
    }
  }

  /** Two per-element functions that agree on `s` produce the same concatenation. */
  lemma {:induction false} FlatMapCongruent<T(!new), U(!new)>(s: seq<T>, f: T -> seq<U>, g: T -> seq<U>)
    requires forall i :: 0 <= i < |s| ==> f(s[i]) == g(s[i])
    ensures FlatMap(s, f) == FlatMap(s, g)
  {
    if |s| > 0 {
      FlatMapCongruent(s[1..], f, g);
    }
  }

  /** `array_unique`: drops every element already seen earlier, so the first
      occurrence of each value survives and the order is kept. */
  function Dedup<T(==,!new)>(s: seq<T>): (r: seq<T>)
    ensures forall x :: x in r <==> x in s
    ensures NoDuplicates(r)
    ensures |r| <= |s|
    decreases |s|
  {
    if |s| == 0 then []
    else
      var init := s[..|s| - 1];
      var rest := Dedup(init);
      assert forall x :: x in s <==> x in init || x == s[|s| - 1];
      if s[|s| - 1] in rest then rest else rest + [s[|s| - 1]]
  }

  /** A sequence that already has no duplicates is left as it is. */
  lemma {:induction false} DedupOfDistinct<T(!new)>(s: seq<T>)
    requires NoDuplicates(s)
    ensures Dedup(s) == s
  {
    if |s| > 0 {
      var init := s[..|s| - 1];
      assert NoDuplicates(init);
      DedupOfDistinct(init);
      assert s[|s| - 1] !in init;
      assert init + [s[|s| - 1]] == s;
    }
  }
}

=== FILE: store.dfy ===
/** The persisted tables after both migrations, their invariants and
    defaults, and the cascading deletes the foreign keys declare
    (database/migrations). */
module Store {
  import opened Wrappers
  import opened Seqs
  import opened Accounts
  import opened Catalog
  import opened Roles
  import opened Grants

  type UserId = nat

  /** A `role_user` row; the table's primary key makes it a set of pairs. */
  datatype Membership = Membership(userId: UserId, roleId: RoleId)

  /** The tables the core reads and writes. `users` stands for the host
      application's user table (only its ids are visible). The old pivot
      tables are gone: the second migration drops them. */
  datatype Db = Db(
    accounts: seq<Account>,
    roles: seq<Role>,
    permissions: seq<Permission>,
    grants: seq<Grant>,
    roleUser: set<Membership>,
    users: set<UserId>)

  function AccountIdOf(a: Account): AccountId { a.id }
  function SlugOf(a: Account): string { a.slug }
  function RoleIdOf(r: Role): RoleId { r.id }
  function RoleNameKey(r: Role): (Option<AccountId>, string) { (r.accountId, r.name) }
  function PermissionIdOf(p: Permission): PermissionId { p.id }
  function PermissionNameOf(p: Permission): string { p.name }

  /** The unique indexes of both migrations. A nullable column takes part in
      two of them (`roles(account_id, name)` and the grant key); here `NULL`
      compares equal to `NULL`, which is the invariant the application code
      means to keep, whatever the database engine enforces. */
  ghost predicate UniqueIndexes(db: Db) {
    && UniqueBy(db.accounts, AccountIdOf)
    && UniqueBy(db.accounts, SlugOf)
    && UniqueBy(db.roles, RoleIdOf)
    && UniqueBy(db.roles, RoleNameKey)
    && UniqueBy(db.permissions, PermissionIdOf)
    && UniqueBy(db.permissions, PermissionNameOf)
    && UniqueBy(db.grants, KeyOf)
  }

  predicate AccountExists(db: Db, a: AccountId) {
    exists x :: x in db.accounts && x.id == a
  }

  /** The foreign keys: a role's or grant's account exists, a grant's
      permission exists. `assignee_id` is a plain column with no foreign key,
      so role and user grants may point at rows that are gone. */
  ghost predicate ForeignKeys(db: Db) {
    && (forall r :: r in db.roles && r.accountId.Some? ==> AccountExists(db, r.accountId.value))
    && (forall g :: g in db.grants && g.accountId.Some? ==> AccountExists(db, g.accountId.value))
    && (forall g :: g in db.grants ==> FindPermission(db.permissions, g.permissionId).Some?)
  }

  ghost predicate WellFormed(db: Db) {
    UniqueIndexes(db) && ForeignKeys(db)
  }

  /** Inserting a role row: an omitted `zeus_level` takes the column default. */
  function NewRole(id: RoleId, account: Option<AccountId>, name: string, zeus: Option<string>): (r: Role)
    ensures zeus.None? ==> r.zeusLevel == NoLevel && !IsSystemZeus(r) && !IsTenantZeus(r)
    ensures zeus.Some? ==> r.zeusLevel == zeus.value
  {
    Role(id, account, name, zeus.GetOr(NoLevel))
  }

  /** Inserting a permission row: an omitted `type` takes the column default,
      a single flag. */
  function NewPermission(id: PermissionId, name: string, kind: Option<string>): (p: Permission)
    ensures kind.None? ==> p.kind == OnOffType && Expand(p) == [name]
    ensures kind.Some? ==> p.kind == kind.value
  {
    Permission(id, name, kind.GetOr(OnOffType))
  }

  /** Deleting an account: the `cascade` foreign keys remove its roles and
      its grants, and removing those roles removes their `role_user` rows. */
  function DeleteAccount(db: Db, a: AccountId): (r: Db)
    ensures forall x :: x in r.accounts <==> x in db.accounts && x.id != a
    ensures forall x :: x in r.roles <==> x in db.roles && x.accountId != Some(a)
    ensures forall g :: g in r.grants <==> g in db.grants && g.accountId != Some(a)
    ensures forall m :: m in r.roleUser <==>
      m in db.roleUser && !(exists x :: x in db.roles && x.accountId == Some(a) && x.id == m.roleId)
    ensures r.permissions == db.permissions && r.users == db.users
  {
    var doomed := set x | x in db.roles && x.accountId == Some(a) :: x.id;
    db.(accounts := Filter(db.accounts, (x: Account) => x.id != a),
        roles := Filter(db.roles, (x: Role) => x.accountId != Some(a)),
        grants := Filter(db.grants, (g: Grant) => g.accountId != Some(a)),
        roleUser := set m | m in db.roleUser && m.roleId !in doomed)
  }

  /** Deleting a permission: the cascade removes every grant of it. */
  function DeletePermission(db: Db, id: PermissionId): (r: Db)
    ensures forall p :: p in r.permissions <==> p in db.permissions && p.id != id
    ensures forall g :: g in r.grants <==> g in db.grants && g.permissionId != id
    ensures r.accounts == db.accounts && r.roles == db.roles && r.roleUser == db.roleUser && r.users == db.users
  {
    db.(permissions := Filter(db.permissions, (p: Permission) => p.id != id),
        grants := Filter(db.grants, (g: Grant) => g.permissionId != id))
  }

  /** A permission that is absent from a table is still absent after rows
      are removed, and one that is present is found again unless removed. */
  lemma {:induction false} FindPermissionFiltered(ps: seq<Permission>, id: PermissionId, keep: Permission -> bool)
    requires UniqueBy(ps, PermissionIdOf)
    requires FindPermission(ps, id).Some? ==> keep(FindPermission(ps, id).value)
    ensures FindPermission(Filter(ps, keep), id) == FindPermission(ps, id)
  {
    if |ps| > 0 {
      assert UniqueBy(ps[1..], PermissionIdOf) by {
        forall i, j | 0 <= i < j < |ps[1..]| ensures ps[1..][i].id != ps[1..][j].id {
          assert ps[1..][i] == ps[i + 1] && ps[1..][j] == ps[j + 1];
        }
      }
      if ps[0].id == id {
        assert Filter(ps, keep) == [ps[0]] + Filter(ps[1..], keep);
      } else {
        FindPermissionFiltered(ps[1..], id, keep);
        if keep(ps[0]) {
          assert Filter(ps, keep) == [ps[0]] + Filter(ps[1..], keep);
        }
      }
    }
  }

  /** Both cascades keep every unique index and every foreign key intact. */
  lemma DeleteAccountWellFormed(db: Db, a: AccountId)
    requires WellFormed(db)
    ensures WellFormed(DeleteAccount(db, a))
  {
    var r := DeleteAccount(db, a);
    FilterUniqueBy(db.accounts, (x: Account) => x.id != a, AccountIdOf);
    FilterUniqueBy(db.accounts, (x: Account) => x.id != a, SlugOf);
    FilterUniqueBy(db.roles, (x: Role) => x.accountId != Some(a), RoleIdOf);
    FilterUniqueBy(db.roles, (x: Role) => x.accountId != Some(a), RoleNameKey);
    FilterUniqueBy(db.grants, (g: Grant) => g.accountId != Some(a), KeyOf);
    forall x | x in r.roles && x.accountId.Some?
      ensures AccountExists(r, x.accountId.value)
    {
      var w :| w in db.accounts && w.id == x.accountId.value;
      assert w in r.accounts;
    }
    forall g | g in r.grants && g.accountId.Some?
      ensures AccountExists(r, g.accountId.value)
    {
      var w :| w in db.accounts && w.id == g.accountId.value;
      assert w in r.accounts;
    }
  }

  lemma DeletePermissionWellFormed(db: Db, id: PermissionId)
    requires WellFormed(db)
    ensures WellFormed(DeletePermission(db, id))
  {
    var keep := (p: Permission) => p.id != id;
    FilterUniqueBy(db.permissions, keep, PermissionIdOf);
    FilterUniqueBy(db.permissions, keep, PermissionNameOf);
    FilterUniqueBy(db.grants, (g: Grant) => g.permissionId != id, KeyOf);
    var r := DeletePermission(db, id);
    forall g | g in r.grants
      ensures FindPermission(r.permissions, g.permissionId).Some?
    {
      var found := FindPermission(db.permissions, g.permissionId);
      assert found.Some? && found.value.id == g.permissionId;
      FindPermissionFiltered(db.permissions, g.permissionId, keep);
    }
  }

  /** `$permission->update(...)` keeping its id: every row with that id is
      replaced, so a lookup of that id finds the new row when the id was
      present, and a lookup of any other id is unaffected. */
  function UpdatePermissionRow(db: Db, p: Permission): (r: Db)
    ensures |r.permissions| == |db.permissions|
    ensures forall i :: 0 <= i < |r.permissions| ==>
      r.permissions[i] == if db.permissions[i].id == p.id then p else db.permissions[i]
    ensures (exists x :: x in db.permissions && x.id == p.id) ==> FindPermission(r.permissions, p.id) == Some(p)
    ensures (forall x :: x in db.permissions ==> x.id != p.id) ==> r.permissions == db.permissions
    ensures forall id :: id != p.id ==> FindPermission(r.permissions, id) == FindPermission(db.permissions, id)
    ensures r.accounts == db.accounts && r.roles == db.roles && r.grants == db.grants
    ensures r.roleUser == db.roleUser && r.users == db.users
  {
    var qs := seq(|db.permissions|, i requires 0 <= i < |db.permissions| =>
      if db.permissions[i].id == p.id then p else db.permissions[i]);
    FindPermissionAfterUpdate(db.permissions, qs, p);
    db.(permissions := qs)
  }

  /** Looking up any other permission is unaffected by an update. */
  lemma {:induction false} FindPermissionOtherRows(ps: seq<Permission>, qs: seq<Permission>, p: Permission, id: PermissionId)
    requires id != p.id && |qs| == |ps|
    requires forall i :: 0 <= i < |ps| ==> qs[i] == if ps[i].id == p.id then p else ps[i]
    ensures FindPermission(qs, id) == FindPermission(ps, id)
  {
    if |ps| > 0 {
      FindPermissionOtherRows(ps[1..], qs[1..], p, id);
    }
  }

  /** Looking up the updated id finds the new row. */
  lemma {:induction false} FindPermissionUpdatedRow(ps: seq<Permission>, qs: seq<Permission>, p: Permission)
    requires |qs| == |ps|
    requires forall i :: 0 <= i < |ps| ==> qs[i] == if ps[i].id == p.id then p else ps[i]
    requires exists x :: x in ps && x.id == p.id
    ensures FindPermission(qs, p.id) == Some(p)
  {
    if ps[0].id != p.id {
      var x :| x in ps && x.id == p.id;
      assert x in ps[1..];
      FindPermissionUpdatedRow(ps[1..], qs[1..], p);
    }
  }

  lemma FindPermissionAfterUpdate(ps: seq<Permission>, qs: seq<Permission>, p: Permission)
    requires |qs| == |ps|
    requires forall i :: 0 <= i < |ps| ==> qs[i] == if ps[i].id == p.id then p else ps[i]
    ensures (exists x :: x in ps && x.id == p.id) ==> FindPermission(qs, p.id) == Some(p)
    ensures (forall x :: x in ps ==> x.id != p.id) ==> qs == ps
    ensures forall id :: id != p.id ==> FindPermission(qs, id) == FindPermission(ps, id)
  {
    if exists x :: x in ps && x.id == p.id {
      FindPermissionUpdatedRow(ps, qs, p);
    }
    forall id | id != p.id
      ensures FindPermission(qs, id) == FindPermission(ps, id)
    {
      FindPermissionOtherRows(ps, qs, p, id);
    }
  }

  /** `$role->update(...)` keeping its id. */
  function UpdateRoleRow(db: Db, role: Role): (r: Db)
    ensures forall x :: x in r.roles && x.id != role.id <==> x in db.roles && x.id != role.id
    ensures (exists x :: x in db.roles && x.id == role.id) ==> role in r.roles
    ensures forall x :: x in r.roles && x.id == role.id ==> x == role
    ensures (forall x :: x in db.roles ==> x.id != role.id) ==> r.roles == db.roles
    ensures r.accounts == db.accounts && r.permissions == db.permissions && r.grants == db.grants
    ensures r.roleUser == db.roleUser && r.users == db.users
  {
    var rs := seq(|db.roles|, i requires 0 <= i < |db.roles| =>
      if db.roles[i].id == role.id then role else db.roles[i]);
    assert forall x :: x in rs && x.id != role.id ==> x in db.roles;
    assert forall i :: 0 <= i < |db.roles| && db.roles[i].id != role.id ==> rs[i] == db.roles[i];
    ReplacedRolePresent(db.roles, rs, role);
    db.(roles := rs)
  }

  lemma ReplacedRolePresent(rs: seq<Role>, qs: seq<Role>, role: Role)
    requires |qs| == |rs|
    requires forall i :: 0 <= i < |rs| ==> qs[i] == if rs[i].id == role.id then role else rs[i]
    ensures (exists x :: x in rs && x.id == role.id) ==> role in qs
  {
    if exists x :: x in rs && x.id == role.id {
      var x :| x in rs && x.id == role.id;
      var i :| 0 <= i < |rs| && rs[i] == x;
      assert qs[i] == role;
    }
  }
}

=== FILE: strings.dfy ===
/** Decimal rendering of integers, as PHP does when it interpolates an int
    into a string (`"..._{$user->id}_..."`), with its inverse. */
module Strings {

  predicate IsDigit(c: char) {
    '0' <= c <= '9'
  }

  predicate AllDigits(s: string) {
    forall i :: 0 <= i < |s| ==> IsDigit(s[i])
  }

  function DigitChar(d: nat): (c: char)
    requires d < 10
    ensures IsDigit(c)
  {
    (48 + d) as char
  }

  function DigitValue(c: char): nat
    requires IsDigit(c)
  {
    (c as int) - 48
  }

  /** The shortest decimal numeral for `n` (no sign, no leading zeros). */
  function NatToString(n: nat): (s: string)
    ensures |s| >= 1
    ensures AllDigits(s)
    ensures |s| == 1 <==> n < 10
  {
    if n < 10 then [DigitChar(n)]
    else NatToString(n / 10) + [DigitChar(n % 10)]
  }

  /** The number a string of decimal digits denotes. */
  function DigitsValue(s: string): nat
    requires AllDigits(s)
  {
    if |s| == 0 then 0
    else DigitsValue(s[..|s| - 1]) * 10 + DigitValue(s[|s| - 1])
  }

  /** Reading a rendered numeral back gives the number. */
  lemma {:induction false} NatToStringRoundTrip(n: nat)
    ensures DigitsValue(NatToString(n)) == n
  {
    var s := NatToString(n);
    if n < 10 {
      assert s[..0] == [];
    } else {
      var prefix := NatToString(n / 10);
      assert s[..|s| - 1] == prefix;
      NatToStringRoundTrip(n / 10);
    }
  }

  lemma NatToStringInjective(a: nat, b: nat)
    ensures NatToString(a) == NatToString(b) ==> a == b
  {
    NatToStringRoundTrip(a);
    NatToStringRoundTrip(b);
  }

  /** When a run of digits is followed by a non-digit, the split point is
      determined: two such strings are equal only if both parts are. */
  lemma DigitRunSplit(d1: string, t1: string, d2: string, t2: string)
    requires AllDigits(d1) && AllDigits(d2)
    requires |t1| > 0 && !IsDigit(t1[0])
    requires |t2| > 0 && !IsDigit(t2[0])
    requires d1 + t1 == d2 + t2
    ensures d1 == d2 && t1 == t2
  {
    var s := d1 + t1;
    assert s[|d1|] == t1[0] && !IsDigit(s[|d1|]);
    assert forall i :: 0 <= i < |d2| ==> s[i] == d2[i];
    assert |d2| <= |d1|;
    assert s[|d2|] == t2[0] && !IsDigit(s[|d2|]);
    assert forall i :: 0 <= i < |d1| ==> s[i] == d1[i];
    assert |d1| <= |d2|;
    assert d1 == (d1 + t1)[..|d1|];
    assert d2 == (d2 + t2)[..|d2|];
    assert t1 == (d1 + t1)[|d1|..];
    assert t2 == (d2 + t2)[|d2|..];
  }
}

=== FILE: tenancy.dfy ===
/** The request-scoped tenant holder, the row-level tenant filter and the
    auto-fill rule for new rows (src/Tenancy). */
module Tenancy {
  import opened Wrappers
  import opened Accounts
  import opened Seqs
  import Grants

  // ---------------------------------------------------------------- TenantContext

  datatype TenantContext = TenantContext(current: Option<Account>)

  /** A context as the container builds it: no account. */
  const FreshContext: TenantContext := TenantContext(None)

  function SetAccount(c: TenantContext, a: Account): (r: TenantContext)
    ensures GetAccount(r) == Some(a) && GetAccountId(r) == Some(a.id)
  {
    TenantContext(Some(a))
  }

  function GetAccount(c: TenantContext): Option<Account> {
    c.current
  }

  /** `getAccountId`: the null-safe `?->id`. */
  function GetAccountId(c: TenantContext): (r: Option<AccountId>)
    ensures r.Some? <==> GetAccount(c).Some?
    ensures r.Some? ==> r.value == GetAccount(c).value.id
  {
    match c.current
    case None => None
    case Some(a) => Some(a.id)
  }

  function Clear(c: TenantContext): (r: TenantContext)
    ensures GetAccount(r).None? && GetAccountId(r).None?
  {
    TenantContext(None)
  }

  lemma FreshContextEmpty()
    ensures GetAccount(FreshContext).None? && GetAccountId(FreshContext).None?
  {
  }

  datatype ContextOp = SetOp(account: Account) | ClearOp

  function Apply(c: TenantContext, op: ContextOp): TenantContext {
    match op
    case SetOp(a) => SetAccount(c, a)
    case ClearOp => Clear(c)
  }

  /** Applies a sequence of operations left to right. */
  function Run(c: TenantContext, ops: seq<ContextOp>): TenantContext
    decreases |ops|
  {
    if |ops| == 0 then c else Run(Apply(c, ops[0]), ops[1..])
  }

  /** The context has no memory: after any non-empty run only the last
      operation matters, whatever the starting account was. */
  lemma {:induction false} LastOperationWins(c: TenantContext, ops: seq<ContextOp>)
    requires |ops| > 0
    ensures GetAccount(Run(c, ops)) ==
      match ops[|ops| - 1]
      case SetOp(a) => Some(a)
      case ClearOp => None
    decreases |ops|
  {
    if |ops| > 1 {
      assert ops[1..][|ops[1..]| - 1] == ops[|ops| - 1];
      LastOperationWins(Apply(c, ops[0]), ops[1..]);
    }
  }

  // ---------------------------------------------------------------- TenantScope

  /** `TenantScope::apply` as a row predicate on the row's `account_id`. */
  function TenantScopeVisible(tenancyEnabled: bool, ctx: Option<AccountId>, rowAccount: Option<AccountId>): (b: bool)
    ensures !tenancyEnabled ==> b
    ensures tenancyEnabled && ctx.Some? ==> (b <==> rowAccount == ctx)
    ensures tenancyEnabled && ctx.None? ==> (b <==> rowAccount.None?)
  {
    if !tenancyEnabled then true
    else if ctx.Some? then rowAccount == ctx
    else rowAccount.None?
  }

  /** With tenancy on, the row scope is strictly narrower than the grant
      table's `forAccount` filter: whatever it shows, `forAccount` shows too,
      but inside an account it hides the global rows `forAccount` keeps. */
  lemma TenantScopeNarrowerThanForAccount(ctx: Option<AccountId>, row: Option<AccountId>)
    ensures TenantScopeVisible(true, ctx, row) ==> Grants.ForAccount(row, ctx)
    ensures ctx.Some? ==> Grants.ForAccount(None, ctx) && !TenantScopeVisible(true, ctx, None)
    ensures ctx.None? ==> (TenantScopeVisible(true, ctx, row) <==> Grants.ForAccount(row, ctx))
  {
  }

  // ---------------------------------------------------------------- UsesTenant

  /** The `creating` hook: an unset `account_id` takes the context account
      when there is one; a set one is never replaced. */
  function CreatingAccount(modelAccount: Option<AccountId>, ctx: Option<AccountId>): (r: Option<AccountId>)
    ensures modelAccount.Some? ==> r == modelAccount
    ensures modelAccount.None? ==> r == ctx
  {
    if modelAccount.None? && ctx.Some? then ctx else modelAccount
  }

  /** A row created without an explicit account, or with the context's own,
      is visible through the tenant scope in the context it was created in;
      one created with another account is not, while tenancy is on. */
  lemma CreatedRowVisibility(m: Option<AccountId>, ctx: Option<AccountId>, enabled: bool)
    ensures m.None? || m == ctx ==> TenantScopeVisible(enabled, ctx, CreatingAccount(m, ctx))
    ensures enabled && m.Some? && m != ctx ==> !TenantScopeVisible(enabled, ctx, CreatingAccount(m, ctx))
  {
  }

  /** The global scopes attached to a query. */
  datatype GlobalScope = TenantScopeTag | NamedScope(name: string)

  datatype Query = Query(scopes: set<GlobalScope>)

  /** A model query starts with the tenant scope attached (`bootUsesTenant`). */
  function ModelQuery(others: set<GlobalScope>): (q: Query)
    ensures TenantScopeTag in q.scopes
  {
    Query(others + {TenantScopeTag})
  }

  /** `withoutTenant`: drops the tenant scope and only it. */
  function WithoutTenant(q: Query): (r: Query)
    ensures TenantScopeTag !in r.scopes
    ensures forall s :: s != TenantScopeTag ==> (s in r.scopes <==> s in q.scopes)
  {
    Query(q.scopes - {TenantScopeTag})
  }

  /** The rows (given by their `account_id`) the tenant part of a query lets
      through; other global scopes are not modelled. */
  function SelectAccounts(q: Query, enabled: bool, ctx: Option<AccountId>, rows: seq<Option<AccountId>>): (r: seq<Option<AccountId>>)
    ensures TenantScopeTag in q.scopes ==>
      forall x :: x in r <==> x in rows && TenantScopeVisible(enabled, ctx, x)
  {
    Filter(rows, x => TenantScopeTag !in q.scopes || TenantScopeVisible(enabled, ctx, x))
  }

  /** Without the tenant scope every row comes back, in order. */
  lemma WithoutTenantSeesAll(q: Query, enabled: bool, ctx: Option<AccountId>, rows: seq<Option<AccountId>>)
    ensures SelectAccounts(WithoutTenant(q), enabled, ctx, rows) == rows
  {
    var q' := WithoutTenant(q);
    FilterAll(rows, x => TenantScopeTag !in q'.scopes || TenantScopeVisible(enabled, ctx, x));
  }
}

=== FILE: wrappers.dfy ===
/** Nullable values and fallible results. A PHP `null` becomes `None`; an
    exception such as `findOrFail` or `abort(404)` becomes `Failure`. */
module Wrappers {

  datatype Option<+T> = None | Some(value: T) {

    /** The held value, or `default` for `None` (PHP's `$x ?? $default`). */
    function GetOr(default: T): T {
      match this
      case Some(v) => v
      case None => default
    }
  }

  datatype Result<+R, +E> = Success(value: R) | Failure(error: E)
}
